=== FILE: README.md ===
# A Dafny model of PyPy's cpyext type objects, error indicator and object API, of the RPython instance representations, and of the group-member macros

This project models five pieces of the PyPy code base:

- **`cpyext` type objects** (`pypy/module/cpyext/typeobject.py`). These are the C-level `PyTypeObject` structs that PyPy builds for its own types, and the managed `W_PyCTypeObject` that it builds for types defined in C. The model covers:
  - bootstrapping `type`, `object` and `tuple`, which point at each other;
  - `type_attach` and its choice of a solid base (`best_base`);
  - `PyPyType_Ready`, with its READY/READYING flags, inheritance of `tp_new`, `tp_dealloc` and `tp_free`, the bases tuple and registration;
  - `update_all_slots` and `add_operators`;
  - the `subtype_dealloc` walk up the base chain;
  - `pyctype_make_ref` with its lifeline, and the lifeline's `__del__`;
  - calling a C type (`c_type_descr__call__`).
- **The `cpyext` object API** (`pypy/module/cpyext/object.py`):
  - truth and negation;
  - rich comparison;
  - `HasAttr` and `TypeCheck`;
  - `AsFileDescriptor` and `Hash`;
  - `Init`/`InitVar`, the default deallocator and `SelfIter`.
- **The `cpyext` error indicator** (`pypy/module/cpyext/pyerrors.py`):
  - Set, Occurred and Clear;
  - `Fetch`/`Restore` together with their reference ownership;
  - the canned errors;
  - exception matching.
- **RPython class and instance representations** (`pypy/rpython/rclass.py`):
  - memoised repr lookup;
  - the choice of instance representation;
  - the `_immutable_fields_` list, with its `[*]` suffix;
  - the immutability conflict check;
  - conversion of prebuilt constants;
  - `ll_inst_hash`;
  - `fishllattr`.
- **Combined symbolics** (`pypy/translator/c/src/llgroup.h`). This is the compact encoding of a group member as a half-word, on 32-bit and on 64-bit platforms.

The runtime is one immutable `Bridge.State` record. It holds:

- a heap of C structs, keyed by address:
  - type structs hold a reference count, `ob_type`, flags, name, sizes, `tp_base`, `tp_bases`, `tp_dict`, slots and sub-tables;
  - tuples hold their items;
  - plain objects hold a header and `ob_size`;
- the two bridge maps between managed objects and addresses (`py_objects_w2r` / `py_objects_r2w`);
- the lifelines of managed objects;
- `non_heaptypes`;
- the pending error (`state.operror`).

Flags are 64-bit words, with `Py_TPFLAGS_HEAPTYPE` = `0x200`, `READY` = `0x1000` and `READYING` = `0x2000`.

The object space is a `Runtime.Space` record of total functions. Each of them returns `Ok(value)` or `Err(OperationError)`. A native function returning `int` reports an `Err` as the error indicator plus `-1`, and one returning an object reports it as the indicator plus `NULL` (`PyErrors.NativeInt`, `PyErrors.NativeObj`). Native functions are tokens (`Bridge.Slot`). A native call is returned as a value (`Bridge.NativeCall`), not performed.

READYING is cleared on every exit, by the `finally` block. READY is set only on the normal path, because line 588 comes after the `try`/`finally`. When the READYING assertion fails, the type is left neither READY nor READYING.

## Model

| member | source | states |
|---|---|---|
| Bridge.SetSlot | pypy/module/cpyext/typeobject.py:127-128 | writing one slot of a type struct sets that slot and leaves every other slot and field as it was |
| Bridge.IncRef | pypy/module/cpyext/typeobject.py:399 | a live non-`NULL` address gains exactly one reference and nothing else changes; `NULL` or an unknown address is ignored |
| Bridge.DecRef | pypy/module/cpyext/pyerrors.py:79-81 | an owned reference is given up: the address loses one reference and every other struct and the rest of the state is unchanged |
| Bridge.IncRefThenDecRef | pypy/module/cpyext/typeobject.py:537-546 | taking a reference and releasing it again, as inherit_slots does around its body, gives back exactly the original state |
| Bridge.Alloc | pypy/module/cpyext/typeobject.py:402 | an allocation returns a non-`NULL` address that no live struct uses, stores the new struct there, and keeps the allocator fresh |
| Bridge.NewObj | pypy/module/cpyext/typeobject.py:595-596 | a newly allocated managed object is not yet bridged to any address |
| Bridge.Track | pypy/module/cpyext/typeobject.py:373-375 | after track_reference, from_ref of the address gives the object and make_ref's lookup of the object gives the address; nothing else changes |
| Bridge.MakeRef | pypy/module/cpyext/pyerrors.py:55-56 | for `None` the result is `NULL`; a bridged object gives its existing address (a new reference unless stolen); an unbridged one gets a fresh header with one reference, bridged both ways; other structs, the error indicator and the lifelines are untouched |
| Bridge.MakeRefFromRef | pypy/module/cpyext/pyerrors.py:55-56 | from_ref(make_ref(w)) is w when the bridge maps are consistent for w |
| ObjectOps.DecodeOp | pypy/module/cpyext/object.py:223-230 | an opcode decodes to the comparison whose `Py_LT`..`Py_GE` code it is, and fails to decode exactly when no comparison has that code |
| ObjectOps.DecodeOpCode | pypy/module/cpyext/object.py:224-229 | every comparison's code decodes back to that comparison |
| ObjectOps.IsTrue | pypy/module/cpyext/object.py:72-74 | 1 for a true object and 0 for a false one with the state unchanged; when truth testing raises, -1 with that error pending |
| ObjectOps.Not | pypy/module/cpyext/object.py:76-78 | 0 for a true object, 1 for a false one; -1 with the error pending when truth testing raises |
| ObjectOps.NotNegatesIsTrue | pypy/module/cpyext/object.py:72-78 | Not fails exactly when IsTrue fails, leaves the same state, and otherwise answers 1 minus IsTrue's answer |
| ObjectOps.RichCompare | pypy/module/cpyext/object.py:215-230 | a known opcode returns the space comparison's result with the state unchanged, or `NULL` with its error pending; an unknown opcode gives `NULL` with the "Bad internal call!" SystemError pending; only the indicator can change |
| ObjectOps.RichCompareOutcome | pypy/module/cpyext/object.py:223-230 | an opcode selects the space comparison whose code it is; any other opcode is a bad internal call (SystemError) |
| ObjectOps.RichCompareBool | pypy/module/cpyext/object.py:232-242 | the answer is always -1, 0 or 1 |
| ObjectOps.RichCompareBoolAgrees | pypy/module/cpyext/object.py:233-242 | for a valid opcode, RichCompareBool is the truth of the object RichCompare returns; a failing comparison gives `NULL` and -1 with the same pending error; a failing truth test gives -1 with its error pending |
| ObjectOps.RichCompareUnknownOpcode | pypy/module/cpyext/object.py:223-230 | an opcode outside 0..5 gives `NULL` with SystemError pending, and RichCompareBool answers -1 with the "Bad internal call!" error |
| ObjectOps.HasAttr | pypy/module/cpyext/object.py:95-101 | never fails and never touches the state; 1 exactly when hasattr succeeds and its result is true, errors become 0 |
| ObjectOps.HasAttrString | pypy/module/cpyext/object.py:103-110 | never fails: the state is unchanged and the answer is 0 or 1, and it is 1 exactly when hasattr on the wrapped C string succeeds with a true result; every exception reads as 0 |
| ObjectOps.TypeCheck | pypy/module/cpyext/object.py:244-252 | a second argument that is not a type fails the `isinstance` assertion; otherwise 1 exactly when the object's type is the given type or a subtype of it, and 0 otherwise |
| ObjectOps.TypeCheckOwnType | pypy/module/cpyext/object.py:249-252 | every object passes the type check against its own type |
| ObjectOps.TypeCheckUpward | pypy/module/cpyext/object.py:249-252 | when the subtype relation is transitive, an object that passes the check against a type passes it against every supertype of that type |
| ObjectOps.ToCInt | pypy/module/cpyext/object.py:335 | the cast to a C `int` lands in the 32-bit signed range, is congruent to its input modulo 2^32, and is the identity on that range |
| ObjectOps.AsFileDescriptorAsWritten | pypy/module/cpyext/object.py:310-335 | as written: a negative descriptor raises ValueError; any other integer is returned cast to a C `int` |
| ObjectOps.AsFileDescriptorTruncates | pypy/module/cpyext/object.py:330-335 | as written, the integer 2^32+1 is accepted as file descriptor 1 |
| ObjectOps.AsFileDescriptor | pypy/module/cpyext/object.py:310-335 | a non-negative answer is the descriptor the object denotes (its int value, else its fileno() result), with the state unchanged; no int and no fileno gives TypeError; a negative descriptor gives ValueError; a descriptor above the C `int` range is rejected instead of truncated |
| ObjectOps.AsFileDescriptorAgreesInRange | pypy/module/cpyext/object.py:317-335 | when the descriptor fits in a C `int`, the corrected and the as-written function give the same reply |
| ObjectOps.Hash | pypy/module/cpyext/object.py:338-343 | the hash of the object converted to an integer with the state unchanged; a failing hash, or a failing conversion of the hash, gives -1 with that error pending |
| ObjectOps.HashMinusOneIsAmbiguous | pypy/module/cpyext/object.py:338-343 | an object whose hash is -1 gives -1 with no error pending, which a caller cannot tell apart from a failure without PyErr_Occurred |
| ObjectOps.HashMinusOneOnlyFromHash | pypy/module/cpyext/object.py:338-343 | starting with nothing pending, -1 with no error pending comes exactly from a hash that converts to -1, and an error is pending exactly when the hash or its conversion fails |
| ObjectOps.InitAsWritten | pypy/module/cpyext/object.py:150-161 | as written, a `NULL` op sets MemoryError and then writes the header through `NULL`; a non-`NULL` op behaves as the corrected PyObject_Init |
| ObjectOps.InitNullWritesThroughNull | pypy/module/cpyext/object.py:157-160 | as written, PyObject_Init on `NULL` reaches the header writes |
| ObjectOps.Init | pypy/module/cpyext/object.py:150-161 | a `NULL` op returns `NULL` with MemoryError pending and no write; otherwise the header at op gets one reference and the given type, and the result is from_ref of op: the object bridged to op with the indicator unchanged, or `NULL` with from_ref's error pending when op is unbridged; nothing else changes |
| ObjectOps.InitReturnsHandleObject | pypy/module/cpyext/object.py:150-161 | when op is bridged both ways, the object PyObject_Init returns is the one whose address is op |
| ObjectOps.InitVarAsWritten | pypy/module/cpyext/object.py:163-172 | as written, a `NULL` op sets MemoryError and then writes through `NULL`; a non-`NULL` op behaves as the corrected PyObject_InitVar |
| ObjectOps.InitVarNullWritesThroughNull | pypy/module/cpyext/object.py:167-171 | as written, PyObject_InitVar on `NULL` reaches the header writes |
| ObjectOps.InitVar | pypy/module/cpyext/object.py:163-172 | a `NULL` op returns `NULL` with MemoryError pending and no write; otherwise the header at op holds one reference, the type and the size, and the result is from_ref of op: the bridged object, or `NULL` with from_ref's error pending; nothing else changes |
| ObjectOps.Dealloc | pypy/module/cpyext/object.py:34-40 | the default deallocator calls the type's `tp_free` on the object and releases one reference to the type exactly when the type is a heap type; every other field of the type, every other struct and the rest of the state are unchanged |
| ObjectOps.DeallocReleasesTypeRef | pypy/module/cpyext/object.py:34-40 | for a heap type, taking one reference to the type back after deallocating gives exactly the state before; for any other type the state is untouched |
| ObjectOps.SelfIter | pypy/module/cpyext/object.py:254-258 | returns its argument; a live address gains one reference and nothing else in it or in the state changes; `NULL` or an unknown address leaves the state as it was |
| ObjectOps.SelfIterThenDecRef | pypy/module/cpyext/object.py:254-258 | releasing the reference PyObject_SelfIter returned gives back exactly the state before the call |
| PyErrors.SetObject | pypy/module/cpyext/pyerrors.py:13-18 | the pending error becomes (type, value), replacing any earlier one; nothing else changes |
| PyErrors.SetString | pypy/module/cpyext/pyerrors.py:20-23 | the pending error is the type with the message wrapped as a string |
| PyErrors.SetNone | pypy/module/cpyext/pyerrors.py:25-28 | the pending error is the type with `None` as its value |
| PyErrors.Clear | pypy/module/cpyext/pyerrors.py:38-41 | afterwards nothing is pending and PyErr_Occurred answers `NULL`; nothing else changes |
| PyErrors.Occurred | pypy/module/cpyext/pyerrors.py:30-36 | answers the type of the pending error, and `NULL` when nothing is pending |
| PyErrors.Fetch | pypy/module/cpyext/pyerrors.py:43-60 | the indicator is cleared; with nothing pending all three outputs are `NULL` and the state is unchanged; otherwise the type and value outputs are the addresses of the pending type and value; the traceback is always `NULL`; lifelines are untouched |
| PyErrors.DecRefAll | pypy/module/cpyext/pyerrors.py:79-81 | releasing a list of objects drops each address's count by the number of times the list names it, and changes nothing else |
| PyErrors.Restore | pypy/module/cpyext/pyerrors.py:62-81 | the corrected PyErr_Restore: a `NULL` type clears the indicator, as the docstring at 64-66 promises; otherwise the pending error becomes (type, value); each of the three references is given up, every count dropping by the number of arguments that name it, and nothing else changes |
| PyErrors.RestoreAsWritten | pypy/module/cpyext/pyerrors.py:77-81 | as written, the pending error becomes (type, value) even when the type is `NULL`; the references are given up as in the corrected form |
| PyErrors.RestoreAgreesWithType | pypy/module/cpyext/pyerrors.py:62-81 | with a non-`NULL` type the written and the corrected PyErr_Restore agree; with a `NULL` type they differ only in the indicator, which the corrected form clears |
| PyErrors.BadInternalCall | pypy/module/cpyext/pyerrors.py:91-93 | raises SystemError with the message "Bad internal call!" |
| PyErrors.BadArgument | pypy/module/cpyext/pyerrors.py:83-89 | raises TypeError with the message "bad argument type for built-in operation" |
| PyErrors.NoMemory | pypy/module/cpyext/pyerrors.py:95-101 | returns `NULL` with MemoryError pending, value `None` |
| PyErrors.NativeInt | pypy/module/cpyext/object.py:72 | a caller sees the function's result and an unchanged state on success; on failure it sees -1 with the raised error pending and every other part of the state unchanged |
| PyErrors.NativeObj | pypy/module/cpyext/object.py:215 | a caller sees the returned object and an unchanged state on success; on failure it sees `NULL` with the raised error pending and every other part of the state unchanged |
| PyErrors.NativeFailureVisible | pypy/module/cpyext/object.py:72-78 | starting with nothing pending, an error is pending afterwards exactly when the space call failed; unless a successful result is itself -1 or `NULL`, answering -1 or `NULL` means exactly that the call failed |
| PyErrors.GivenExceptionMatches | pypy/module/cpyext/pyerrors.py:135-146 | an exception instance matches like its class does, anything else is matched as it is; the answer is 0 or 1 |
| PyErrors.ExceptionMatches | pypy/module/cpyext/pyerrors.py:148-154 | matching the pending error is matching the type PyErr_Occurred returns |
| PyErrors.SetThenOccurred | pypy/module/cpyext/pyerrors.py:13-36 | after any of the setters, PyErr_Occurred returns the type just set |
| PyErrors.SetThenFetch | pypy/module/cpyext/pyerrors.py:13-60 | fetching right after SetObject hands back the type and value just set, leaves nothing pending and gives a `NULL` traceback |
| PyErrors.FetchRestoreRoundTrip | pypy/module/cpyext/pyerrors.py:43-81 | for every state whose pending error, if any, has a non-`NULL` type and a type and value already bridged, the corrected PyErr_Restore of what PyErr_Fetch returned gives back exactly the state before the fetch: same indicator, same reference counts; with nothing pending the indicator stays clear |
| PyErrors.FetchRestoreAsWrittenRoundTrip | pypy/module/cpyext/pyerrors.py:43-81 | as written, the round trip gives back the state before the fetch when an error with bridged type and value is pending |
| PyErrors.FetchRestoreAsWrittenLeavesError | pypy/module/cpyext/pyerrors.py:77-78 | as written, fetching with nothing pending and restoring the three `NULL`s leaves an error with a `NULL` type pending instead of a clear indicator |
| PyErrors.RestoreUndoesFetch | pypy/module/cpyext/pyerrors.py:62-81 | from any state that differs from s only by holding one extra reference per fetched object and a cleared indicator, PyErr_Restore as written returns to s |
| PyErrors.FetchShape | pypy/module/cpyext/pyerrors.py:52-60 | a fetch of a pending error takes one new reference to the type and one to the value (two when they are the same object), clears the indicator and changes nothing else |
| PyErrors.ExceptionMatchesPending | pypy/module/cpyext/pyerrors.py:149-154 | after SetObject with a class, the pending error matches exc exactly when that class does |
| PyErrors.InstanceMatchesLikeItsClass | pypy/module/cpyext/pyerrors.py:141-146 | an exception instance gives the same answer as its class |
| LlGroup.GroupMemberOffset32 | pypy/translator/c/src/llgroup.h:14-15 | on 32-bit, the compact offset of a member inside a group under 256KB is its byte offset divided by 4, and is 0 only for the first member |
| LlGroup.GetGroupMember32 | pypy/translator/c/src/llgroup.h:17-18 | the member lies 4 bytes per compact unit past the group start, modulo 2^32, and is the start itself exactly for compact 0 |
| LlGroup.GetNextGroupMember32 | pypy/translator/c/src/llgroup.h:20-21 | adding the skip to the group pointer first lands on the member moved by the skip offset, modulo 2^32 |
| LlGroup.MemberWithinGroup32 | pypy/translator/c/src/llgroup.h:17-18 | a compact offset names an address 4 times that offset past the group start, less than 256KB away, and names the start only when it is 0 |
| LlGroup.NextIsShiftedMember32 | pypy/translator/c/src/llgroup.h:20-21 | the next member is the member moved by the skip offset |
| LlGroup.CheckSize32 | pypy/translator/c/src/llgroup.h:25-27 | the size check accepts a group exactly when it is at most 65536*4 bytes, and otherwise fails with `group_<name>_is_too_large` |
| LlGroup.MemberRoundTrip32 | pypy/translator/c/src/llgroup.h:14-27 | in a group that passes the size check, decoding the compact offset of a word-aligned member gives back the member's address |
| LlGroup.OffsetAtLimitWraps32 | pypy/translator/c/src/llgroup.h:14-15 | the half-word cast wraps a byte offset of exactly 256KB to compact 0, so it names the group start rather than the member |
| LlGroup.NonzeroIffNotFirst32 | pypy/translator/c/src/llgroup.h:57-58 | the compact offset of an aligned in-range member is nonzero exactly when the member is not at the group start |
| LlGroup.Extract32 | pypy/translator/c/src/llgroup.h:60 | extracting the half-word keeps the low 16 bits, which is the identity on values that fit |
| LlGroup.Combine32 | pypy/translator/c/src/llgroup.h:61 | combining keeps the rest's high half, and places the half-word in a low half that the rest leaves clear |
| LlGroup.ExtractCombine32 | pypy/translator/c/src/llgroup.h:60-61 | extracting from a combination gives back the half-word when the rest's low half is clear |
| LlGroup.CombineExtract32 | pypy/translator/c/src/llgroup.h:60-61 | every 32-bit value is the combination of its low half-word and its high half |
| LlGroup.GroupMemberOffset64 | pypy/translator/c/src/llgroup.h:38-39 | on 64-bit, the compact form of an address below 2^32 is the address itself; otherwise it is the address modulo 2^32 |
| LlGroup.GetGroupMember64 | pypy/translator/c/src/llgroup.h:41-42 | on 64-bit, a decoded member always lies in the first 2^32 bytes of address space |
| LlGroup.GetNextGroupMember64 | pypy/translator/c/src/llgroup.h:44-45 | the next member is the decoded member moved by the skip offset, modulo 2^64 |
| LlGroup.GroupPointerIgnored64 | pypy/translator/c/src/llgroup.h:41-42 | on 64-bit, the group pointer plays no part in decoding, and the result is below 2^32 |
| LlGroup.NextIsShiftedMember64 | pypy/translator/c/src/llgroup.h:44-45 | the next member is the member moved by the skip offset |
| LlGroup.CheckSize64 | pypy/translator/c/src/llgroup.h:48-51 | the run-time check accepts a group exactly when its last member lies below 2^32, and otherwise reports the "not located in the initial 32 bits of address space" message |
| LlGroup.MemberRoundTrip64 | pypy/translator/c/src/llgroup.h:38-51 | in a group that passes the check, every member up to the last decodes back to its own address |
| LlGroup.AddressAtLimitWraps64 | pypy/translator/c/src/llgroup.h:38-42 | an address of exactly 2^32 compacts to 0, decodes to `NULL` and reads as "not a member" |
| LlGroup.NonzeroIffAddress64 | pypy/translator/c/src/llgroup.h:57-58 | below 2^32, the compact form is nonzero exactly when the address is |
| LlGroup.Extract64 | pypy/translator/c/src/llgroup.h:60 | extracting keeps the low 32 bits, which is the identity on values that fit |
| LlGroup.Combine64 | pypy/translator/c/src/llgroup.h:61 | combining keeps the rest's high half, and places the half-word in a low half that the rest leaves clear |
| LlGroup.ExtractCombine64 | pypy/translator/c/src/llgroup.h:60-61 | extracting from a combination gives back the half-word when the rest's low half is clear |
| LlGroup.CombineExtract64 | pypy/translator/c/src/llgroup.h:60-61 | every 64-bit value is the combination of its low half-word and its high half |
| RClass.GetClassRepr | pypy/rpython/rclass.py:27-34 | a known class def gives its recorded repr and no change; an unknown one gets a new repr, is recorded, and is queued once for setup |
| RClass.GetClassReprMemoised | pypy/rpython/rclass.py:27-34 | asking again for the same class def returns the same repr and changes nothing |
| RClass.BuildInstanceRepr | pypy/rpython/rclass.py:51-81 | virtualizable2 gives the virtualizable repr, and only for gc flavour with no unboxed subclasses; exactly one unboxed subclass with tagged pointers on the lltype system gives the tagged repr; several give a TyperError; in all other cases the plain repr of the requested flavour; every other failure is an assertion |
| RClass.GetInstanceRepr | pypy/rpython/rclass.py:36-48 | the flavour is the default for the root and the class's gc flavour otherwise; a known (class, flavour) pair gives its recorded repr; otherwise the built repr is recorded and queued, or the build's error is passed on |
| RClass.GetInstanceReprMemoised | pypy/rpython/rclass.py:36-48 | after a successful lookup, asking again returns the same repr and changes nothing |
| RClass.GetField | pypy/rpython/rclass.py:213-216 | a field lookup returns an own field of that name, and fails exactly when the class has none |
| RClass.SplitSuffix | pypy/rpython/rclass.py:208-212 | the suffix is `[*]` exactly when the entry ends with `[*]`, and the empty string otherwise |
| RClass.SplitSuffixJoins | pypy/rpython/rclass.py:208-212 | name and suffix together give back the entry |
| RClass.SplitSuffixOfArrayEntry | pypy/rpython/rclass.py:208-210 | `name[*]` splits into the name and `[*]` |
| RClass.ParseEntriesKeys | pypy/rpython/rclass.py:205-217 | a field is a key of the parsed map exactly when some entry names it |
| RClass.ParseEntriesLastWins | pypy/rpython/rclass.py:205-217 | the suffix recorded for a field is that of the last entry naming it |
| RClass.ParseFieldListMeaning | pypy/rpython/rclass.py:205-219 | the parsed list maps exactly the own fields named by some entry, each to the suffix of the last entry naming it; entries naming no field are dropped, and every suffix is `""` or `[*]` |
| RClass.AccumulatedFieldList | pypy/rpython/rclass.py:198-202 | the accumulated list holds exactly the entries of the classes on the chain from this class up to the root, root excluded |
| RClass.LastInAccumulated | pypy/rpython/rclass.py:198-202 | an entry in the accumulated list that is the last naming its field comes from a listing repr with no repr nearer the root naming that field |
| RClass.SetupSuffixFromNearestRoot | pypy/rpython/rclass.py:193-217 | after set-up, the suffix recorded for a field is that of the last entry naming it in the listing repr nearest the root: a parent's entry overrides the subclass's |
| RClass.SetupImmutableFieldList | pypy/rpython/rclass.py:193-203 | an accessor without fields is initialised with the parse of the accumulated list; a repr with no accessor or an initialised one is left alone; no other repr changes |
| RClass.SetupIdempotent | pypy/rpython/rclass.py:193-203 | setting up twice is the same as setting up once |
| RClass.SetupDependsOnSuffix | pypy/rpython/rclass.py:198-203 | the set-up repr depends only on the chain from the class up to the root |
| RClass.CheckFields | pypy/rpython/rclass.py:229-249 | scanning an ancestor's fields changes only that ancestor's accessor, without changing what its set-up gives; any error is an ImmutableConflictError |
| RClass.CheckFieldsMeaning | pypy/rpython/rclass.py:229-249 | the scan of one ancestor fails exactly when one of its remaining fields is a non-Void field that is mutable there and clashes with the subclass; the error then carries the message for such a field |
| RClass.CheckAncestors | pypy/rpython/rclass.py:226-249 | the walk keeps the chain's shape and the subclass, changes only ancestors it has visited, and raises only ImmutableConflictError |
| RClass.CheckAncestorsMeaning | pypy/rpython/rclass.py:226-249 | the walk from an ancestor upwards fails exactly when some ancestor from there up has a conflicting field |
| RClass.CheckImmutableConflictsAsWritten | pypy/rpython/rclass.py:221-249 | as written, a conflict is a mutable ancestor field with `_immutable_` on the subclass, or the bare name appearing in the subclass's list; the chain keeps its shape |
| RClass.CheckImmutableConflicts | pypy/rpython/rclass.py:221-249 | the corrected check, where a listed entry counts for its field with or without the `[*]` suffix |
| RClass.CheckImmutableConflictsMeaning | pypy/rpython/rclass.py:221-249 | the corrected check fails exactly when some ancestor has a mutable non-Void field while the subclass is `_immutable_` or lists that field, suffix or not |
| RClass.SuffixedEntryEscapesCheck | pypy/rpython/rclass.py:245 | as written, a subclass listing `x[*]` over a parent's mutable field `x` passes the check |
| RClass.SuffixedEntryCaught | pypy/rpython/rclass.py:245 | the corrected check rejects that same chain |
| RClass.ListedTestsAgreeWithoutSuffix | pypy/rpython/rclass.py:245 | when no entry carries `[*]`, the written and the corrected membership tests agree |
| RClass.ConvertConstRoute | pypy/rpython/rclass.py:254-274 | `None` converts to the null instance; an instance of exactly the class converts through convert_const_exact; an instance of a proper subclass goes through the subclass's repr, and the root's repr counts every class as its subclass; a value with no class def, or of an unrelated class, is a TyperError |
| RClass.RootConvertsEveryClass | pypy/rpython/rclass.py:264-270 | the root's repr never raises "not an instance of": a value with a class def converts, through the subclass's repr unless its class def is the root |
| RClass.BoundMethodConvertsAsItsInstance | pypy/rpython/rclass.py:257-258 | a bound method converts exactly as the instance it is bound to |
| RClass.ConvertConstExact | pypy/rpython/rclass.py:276-284 | a value already converted gives the same prebuilt instance; a new value gets a new instance, distinct from every other, and is recorded |
| RClass.ConvertConstExactMemoised | pypy/rpython/rclass.py:276-284 | converting the same value twice gives the same instance the second time and changes nothing |
| RClass.GetReusablePrebuiltInstance | pypy/rpython/rclass.py:286-295 | the first call creates a new instance distinct from the converted ones and records it; later calls return it unchanged |
| RClass.ReusableInstanceIsReused | pypy/rpython/rclass.py:286-295 | multiple calls reuse the same instance |
| RClass.FishLlAttr | pypy/rpython/rclass.py:343-368 | for an ootype instance, the `o<name>` attribute, else the default, else AttributeError; for an lltype pointer, the `inst_<name>` field of the first level up the `super` chain that has it, else the default, else AttributeError naming the type and the field |
| TypeSlots.SetSlotAt | pypy/module/cpyext/typeobject.py:127-134 | setting a direct slot or a slot of an existing sub-table changes that slot and nothing else |
| TypeSlots.LastInstalledMeaning | pypy/module/cpyext/typeobject.py:110-134 | a slot receives a function from update_all_slots exactly when some catalog entry installs there, and then it holds the function of the last such entry |
| TypeSlots.UpdateAllSlots | pypy/module/cpyext/typeobject.py:107-134 | every slot holds the function of the last entry installing there (the type defines the method, the entry has a slot function, `__new__` only over a non-`NULL` `tp_new`, sub-table present), and otherwise keeps its value; nothing else in the struct changes |
| TypeSlots.FirstExposedMeaning | pypy/module/cpyext/typeobject.py:139-154 | a special method is exposed exactly when some catalog entry for it has a non-`NULL` slot and a wrapper, and then it wraps the slot of the first such entry |
| TypeSlots.AddOperators | pypy/module/cpyext/typeobject.py:136-158 | existing dictionary entries are kept; a missing special method appears exactly when some catalog entry exposes it, as the wrapper of the first such slot; a missing `__new__` is filled by a slot wrapper, failing that by the `tp_new` wrapper when `tp_new` is set, and otherwise stays missing |
| TypeSlots.InheritSpecial | pypy/module/cpyext/typeobject.py:193-200 | `tp_new` is copied from the base only when the type has none and either the base is not `object` or the type is a heap type; no other slot, field or struct changes |
| TypeSlots.Fill | pypy/module/cpyext/typeobject.py:540-544 | a slot the type already defines is kept; an empty one takes the base's value; other slots are untouched |
| TypeSlots.FillFrom | pypy/module/cpyext/typeobject.py:540-544 | `tp_dealloc` and `tp_free` each keep the type's own value when set, and otherwise take the base's; every other slot and field is kept |
| TypeSlots.InheritSlots | pypy/module/cpyext/typeobject.py:535-546 | inherit_slots holds a reference to the base only for the duration: afterwards every count is as before and only the type's two inherited slots changed |
| TypeSlots.InheritAll | pypy/module/cpyext/typeobject.py:579-580 | after inheriting from every item of the bases tuple, `tp_dealloc` and `tp_free` each hold the type's own value if set, else that of the first base defining it; nothing else changes |
| TypeSlots.LastDot | pypy/module/cpyext/typeobject.py:306-307 | finds the last `.` of the name, and reports none exactly when there is none |
| TypeSlots.SplitTypeName | pypy/module/cpyext/typeobject.py:305-310 | a dotted name splits at its last dot into a module part and a dot-free short name that join back to the full name; an undotted name is kept whole with no module |
| TypeSlots.SplitJoinTypeName | pypy/module/cpyext/typeobject.py:305-310 | splitting `module.name` with a dot-free name gives back the module and the name |
| TypeSlots.NewCType | pypy/module/cpyext/typeobject.py:295-313 | the managed type's bases are the objects behind the bases tuple, or `[object]` when it is empty; its name is the short name; `__module__` is the module part when the name is dotted; defined entries are kept; every other special method holds the wrapper of the first slot exposing it; `__new__`, when not defined, is that wrapper, else the `tp_new` wrapper when `tp_new` is set, else absent |
| TypeReady.ClearReadying | pypy/module/cpyext/typeobject.py:587 | clearing READYING leaves the type not READYING with READY as it was |
| TypeReady.MarkReady | pypy/module/cpyext/typeobject.py:588 | the type ends READY and not READYING |
| TypeReady.BeginReadyKeepsWf | pypy/module/cpyext/typeobject.py:557-562 | marking READYING and defaulting a `NULL` base to `object` keeps the heap well-formed, marks the type READYING and leaves READY as it was |
| TypeReady.NewBasesTuple | pypy/module/cpyext/typeobject.py:569-574 | the new bases tuple is a fresh struct with one reference, typed `tuple`, holding the base or nothing, and bridged to a new managed tuple |
| TypeReady.Register | pypy/module/cpyext/typeobject.py:591-603 | returns 1 and leaves an already-bridged struct alone; otherwise it bridges the struct to a new managed type both ways and appends that type to non_heaptypes; the heap and error indicator are untouched |
| TypeReady.RegisterIdempotent | pypy/module/cpyext/typeobject.py:591-603 | registering twice is the same as registering once |
| TypeReady.FillHeader | pypy/module/cpyext/typeobject.py:567-574 | a `NULL` `ob_type` is taken from the base; a `NULL` `tp_bases` becomes a fresh tuple of the base; a set one is kept |
| TypeReady.Special | pypy/module/cpyext/typeobject.py:577-578 | only `tp_new` changes, to what inherit_special gives for the type's base |
| TypeReady.Inherit | pypy/module/cpyext/typeobject.py:579-580 | the slots are those inherited from the items of the bases tuple; no other field changes |
| TypeReady.Prepare | pypy/module/cpyext/typeobject.py:567-576 | the header is filled as FillHeader states, and a type readied without a managed object is registered |
| TypeReady.RegisterUnbridged | pypy/module/cpyext/typeobject.py:575-576 | registration happens exactly when no managed object is given |
| TypeReady.Complete | pypy/module/cpyext/typeobject.py:567-580 | the header is filled and the slots inherited; a `NULL` `tp_bases` becomes a fresh tuple of the base |
| TypeReady.CompleteInherits | pypy/module/cpyext/typeobject.py:577-580 | the slots after completion are those inherit_special and inherit_slots give for the bases tuple the type ends with |
| TypeReady.ReturnedFacts | pypy/module/cpyext/typeobject.py:553-556 | the early return clears `tp_dict` and READYING, keeps READY, and changes nothing else |
| TypeReady.ReturnedOutcome | pypy/module/cpyext/typeobject.py:553-556 | after the early return the type is not READYING, its dict is `NULL`, and READY is as it was |
| TypeReady.Ready | pypy/module/cpyext/typeobject.py:552-589 | readying keeps the heap well-formed and only fills in: counts, names, sizes, sub-tables and every non-`NULL` base, type, bases tuple and slot are kept |
| TypeReady.EntryFacts | pypy/module/cpyext/typeobject.py:557-562 | entering a fresh type marks it READYING, shrinking the set of types not being readied, and gives a `NULL` base the value `object` |
| TypeReady.ReadyFresh | pypy/module/cpyext/typeobject.py:565-589 | readying a type after entry keeps the heap well-formed and only fills in |
| TypeReady.ReadyBaseFirst | pypy/module/cpyext/typeobject.py:565-566 | readying the base first keeps the heap well-formed and the type a type struct |
| TypeReady.ReadyOutcome | pypy/module/cpyext/typeobject.py:552-589 | the type always ends not READYING with a `NULL` dict; the answer is 0 or the failed READYING assertion; it succeeds exactly when the type ends READY; on failure only touched types differ |
| TypeReady.ReadyFreshOutcome | pypy/module/cpyext/typeobject.py:565-589 | after entry, readying keeps the base, clears READYING and the dict, and ends READY exactly when it answers 0 |
| TypeReady.ReadyBaseFirstOutcome | pypy/module/cpyext/typeobject.py:565-566 | readying the base leaves the type unchanged on success and makes a non-`NULL` base a distinct READY type struct; a failure is the READYING assertion |
| TypeReady.ReadyEarly | pypy/module/cpyext/typeobject.py:554-557 | a READY type returns 0 at once; a READYING one that is not READY fails the assertion; both clear the dict and READYING |
| TypeReady.ReadyFreshHeader | pypy/module/cpyext/typeobject.py:559-576 | on success the base is a distinct READY type; a `NULL` `ob_type` now equals the base's; a `NULL` `tp_bases` is now a fresh tuple holding the base or nothing; a type without a managed object is registered |
| TypeReady.ReadyHeader | pypy/module/cpyext/typeobject.py:559-576 | for a type neither READY nor READYING: the base is kept, or becomes `object` when `NULL`; on success the base is a distinct READY type, the type's `ob_type` is the base's, `tp_bases` is a fresh tuple of the base, and an unbridged type is registered |
| TypeReady.ReadySlots | pypy/module/cpyext/typeobject.py:552-589 | a successful PyPyType_Ready of a type neither READY nor READYING leaves its slots as inherit_special and inherit_slots give them for the bases tuple it ends with |
| TypeReady.Finish | pypy/module/cpyext/typeobject.py:567-588 | the rest of readying after the base leaves the type READY and not READYING, with its dict and base kept, `ob_type` from the base, a fresh tuple of the base, and `tp_new`, `tp_dealloc` and `tp_free` as inherit_special and inherit_slots give them for that tuple |
| TypeAttach.PickFrom | pypy/module/cpyext/typeobject.py:510-527 | the scan over the bases fails only with the lay-out conflict or the `isinstance` assertion on a base that is not a type |
| TypeAttach.BestBase | pypy/module/cpyext/typeobject.py:504-533 | no bases gives `None`; the only failures are the lay-out conflict, "only classic bases" and the `isinstance` assertion |
| TypeAttach.PickFromInv | pypy/module/cpyext/typeobject.py:510-527 | the winner is always a new-style base seen so far that is a type, with its solid base; a lay-out conflict means two new-style bases whose solid bases are incomparable; a failed assertion means a new-style base that is not a type |
| TypeAttach.BestBaseChoice | pypy/module/cpyext/typeobject.py:504-533 | the chosen base is one of the new-style bases and is a type; "only classic bases" is raised exactly when there are bases and all are classic; a lay-out conflict implies two incomparable solid bases; the assertion fails only on a new-style base that is not a type |
| TypeAttach.PickFromDominates | pypy/module/cpyext/typeobject.py:510-523 | when the subclass test is a preorder, the winner's solid base is a subclass of every new-style base's solid base |
| TypeAttach.BestBaseMostSpecific | pypy/module/cpyext/typeobject.py:504-533 | when the subclass test is a preorder, the solid base of the chosen base is a subclass of the solid base of every new-style base |
| TypeAttach.PickFromTies | pypy/module/cpyext/typeobject.py:516-520 | once a winner is chosen, bases with the same solid base never replace it |
| TypeAttach.BestBaseTies | pypy/module/cpyext/typeobject.py:510-520 | when all new-style bases share one solid base, the first new-style base is chosen |
| TypeAttach.PickFromClassic | pypy/module/cpyext/typeobject.py:511-513 | classic bases are skipped: the scan starts over at the first new-style base |
| TypeAttach.AttachHeader | pypy/module/cpyext/typeobject.py:461-472 | the struct becomes a heap type with the managed type's name, basicsize -1, itemsize 0, the type's dealloc and `PyObject_Del` as `tp_free`; `str` also gets the buffer procs; every other slot and field is kept |
| TypeAttach.Prepared | pypy/module/cpyext/typeobject.py:461-480 | before readying, the struct is a heap type with the managed name, `tp_base` the chosen base, `tp_bases` `NULL`, itemsize 0, and `tp_free`/`tp_dealloc` set |
| TypeAttach.Prepare | pypy/module/cpyext/typeobject.py:461-480 | preparing keeps the heap well-formed |
| TypeAttach.PrepareFacts | pypy/module/cpyext/typeobject.py:461-480 | preparing writes the header over the struct after taking one reference to the base, leaves the bridge maps as they were, and keeps every other struct |
| TypeAttach.Size | pypy/module/cpyext/typeobject.py:484-492 | the basicsize is the larger of the layout's size and the base's basicsize; `object` gets the placeholder `tp_new` of value 1; every other slot and field is kept |
| TypeAttach.SizedBounds | pypy/module/cpyext/typeobject.py:484-492 | after sizing, the basicsize is at least the layout's and the base's, and equal to one of them |
| TypeAttach.SizedKeeps | pypy/module/cpyext/typeobject.py:484-492 | sizing keeps base, bases tuple, name, itemsize, flags, sub-tables, `tp_free` and `tp_dealloc` |
| TypeAttach.Readied | pypy/module/cpyext/typeobject.py:477-481 | preparing and readying keeps the heap well-formed |
| TypeAttach.AttachCore | pypy/module/cpyext/typeobject.py:451-492 | type_attach up to its slot update keeps the heap well-formed |
| TypeAttach.AttachCoreOk | pypy/module/cpyext/typeobject.py:477-492 | a successful attach chose a base, readied the struct over it, then sized it |
| TypeAttach.AttachErrors | pypy/module/cpyext/typeobject.py:477-481 | a best_base error is passed on unchanged; any other failure is the READYING assertion; on success the struct itself is returned |
| TypeAttach.AttachKept | pypy/module/cpyext/typeobject.py:451-494 | attaching changes no other struct's shape and only fills in what was `NULL` |
| TypeAttach.ReadiedHeader | pypy/module/cpyext/typeobject.py:478-481 | after successful readying, `tp_base` is the chosen base's address, the type is READY, `tp_bases` is a fresh tuple and the base is a distinct type struct |
| TypeAttach.ReadiedShape | pypy/module/cpyext/typeobject.py:462-472 | readying keeps the managed name, itemsize 0, a set `tp_free` and `tp_dealloc`, and the buffer procs of `str` |
| TypeAttach.AttachHeaderFacts | pypy/module/cpyext/typeobject.py:451-494 | an attached type is READY, named after the managed type with itemsize 0, has the chosen base as `tp_base`, a fresh bases tuple, set `tp_free` and `tp_dealloc`, and the buffer procs when it is `str` |
| TypeAttach.AttachSize | pypy/module/cpyext/typeobject.py:484-492 | an attached type's basicsize is at least the layout's and its base's, and equal to one of them; `object`'s `tp_new` is the placeholder |
| TypeAttach.Attach | pypy/module/cpyext/typeobject.py:451-494 | the reply is that of the core attach; on failure the state is the core's; on success only the struct's slots and sub-table entries change afterwards, and they change as update_all_slots installs over the core's struct |
| TypeAttach.InstallKeepsSet | pypy/module/cpyext/typeobject.py:107-134 | installing slot functions never clears a slot that was set |
| TypeLifecycle.Placeholders | pypy/module/cpyext/typeobject.py:346-350 | `type`, `object` and `tuple` are bridged to `NULL` and every other bridge entry is unchanged |
| TypeLifecycle.TypeCycle | pypy/module/cpyext/typeobject.py:358-366 | the three structs get `type` as `ob_type`; `type` and `tuple` get `object` as `tp_base`; no other struct changes |
| TypeLifecycle.TupleCycle | pypy/module/cpyext/typeobject.py:368-370 | the three bases tuples get `tuple` as `ob_type`; no other struct changes |
| TypeLifecycle.Restore | pypy/module/cpyext/typeobject.py:372-375 | the heap is kept, and the three managed types become bridged |
| TypeLifecycle.BootstrapHeap | pypy/module/cpyext/typeobject.py:336-366 | bootstrapping keeps the set of structs and their kinds, and rewires exactly the three type structs' `ob_type` and `tp_base` |
| TypeLifecycle.BootstrapTuples | pypy/module/cpyext/typeobject.py:368-370 | the bases tuples of the three types are retyped as `tuple`; no struct outside the six is touched |
| TypeLifecycle.BootstrapCycle | pypy/module/cpyext/typeobject.py:336-370 | the resulting cycle: type(type) = type(object) = type(tuple) = type, type and tuple derive from object, and all three bases tuples are tuples of type `tuple` |
| TypeLifecycle.RestoreBridged | pypy/module/cpyext/typeobject.py:372-375 | the three managed types and their structs map to each other both ways |
| TypeLifecycle.BootstrapBridged | pypy/module/cpyext/typeobject.py:346-375 | after the bootstrap, make_ref's lookup and from_ref are inverse on the three types |
| TypeLifecycle.BootstrapSeenFromBridge | pypy/module/cpyext/typeobject.py:336-375 | seen through the bridge, all three types have type `type`, `type` and `tuple` derive from `object`, and `object`'s bases tuple has type `tuple` |
| TypeLifecycle.BootstrapFresh | pypy/module/cpyext/typeobject.py:346-375 | the bootstrap keeps the allocators fresh |
| TypeLifecycle.BootstrapWf | pypy/module/cpyext/typeobject.py:323-375 | the bootstrap keeps the heap well-formed |
| TypeLifecycle.Bootstrap | pypy/module/cpyext/typeobject.py:323-375 | the bootstrap keeps the set of structs, the pending error and the lifelines, and adds exactly `type`, `object` and `tuple` to the bridge |
| TypeLifecycle.Walk | pypy/module/cpyext/typeobject.py:384-389 | the walk's call is never subtype_dealloc itself, and is made on the object being freed |
| TypeLifecycle.SubtypeDeallocOf | pypy/module/cpyext/typeobject.py:379-389 | subtype_dealloc calls, on the object, a deallocator other than itself |
| TypeLifecycle.WalkCalls | pypy/module/cpyext/typeobject.py:384-389 | the walk calls the `tp_dealloc` of the first type up the base chain whose deallocator is not subtype_dealloc, and it calls only when such a type exists within reach |
| TypeLifecycle.WalkMissing | pypy/module/cpyext/typeobject.py:384-386 | the `assert base` fails exactly when the chain of subtype_dealloc types ends in a `NULL` base |
| TypeLifecycle.WalkCycles | pypy/module/cpyext/typeobject.py:384-385 | the walk gives up exactly when more subtype_dealloc types follow each other than the heap holds |
| TypeLifecycle.PycTypeMakeRef | pypy/module/cpyext/typeobject.py:394-404 | with no lifeline, a fresh object with one reference, the type and the item count is allocated and recorded as the lifeline; a lifeline whose object has no references is revived with one reference; any other lifeline fails the assertion and changes nothing |
| TypeLifecycle.LifelineDel | pypy/module/cpyext/typeobject.py:216-220 | a missing or `NULL` lifeline does nothing; one whose object still has references fails the assertion; otherwise the object's deallocator is called and the lifeline becomes `NULL` |
| TypeLifecycle.LifelineDelOnce | pypy/module/cpyext/typeobject.py:216-220 | running the lifeline's `__del__` a second time does nothing |
| TypeLifecycle.MakeRefReuse | pypy/module/cpyext/typeobject.py:394-404 | releasing the reference make_ref gave and asking again gives back the same object and the same state |
| TypeLifecycle.MakeRefTwice | pypy/module/cpyext/typeobject.py:396-398 | asking again without releasing fails the refcount assertion |
| TypeLifecycle.CTypeCallMeaning | pypy/module/cpyext/typeobject.py:256-276 | calling a C type that is already bridged leaves the reference counts balanced; a non-C type is delegated to the generic type call; a C type with `tp_new` calls it on its struct; one without raises TypeError "cannot create '<name>' instances" |
| TypeLifecycle.CTypeCall | pypy/module/cpyext/typeobject.py:256-276 | calling a non-C type, or a C type that is already bridged, changes no state; it is delegated to the generic call exactly when the type is not a C type; its only error is "cannot create '<name>' instances" |

## Left out

- `pypy/module/cpyext/pyobject.py` and `api.py` are not part of this model. `make_ref`, `create_ref`, `from_ref`, `track_reference`, `Py_IncRef` and `Py_DecRef` are modelled minimally in `Bridge`. A reference count reaching zero does not deallocate anything.
- Bridge.MakeRef: an unbridged object gets a bare header. The type-specific `attach` that `create_ref` runs on it is modelled separately, as TypeAttach.Attach.
- TypeAttach.Attach: requires every new-style base to be bridged already, because `make_ref` on an unbridged base recursively attaches it. That recursion is not modelled.
- TypeLifecycle.TypeCycle: `create_ref` for the three bootstrap types is not modelled. The bootstrap starts from the three structs already created and their bases tuples.
- `typedescr.allocate` is modelled as a fresh object header with one reference, the type's address and the item count. The layout-specific allocation is not modelled.
- TypeLifecycle.PycTypeMakeRef: a lifeline whose object is `NULL` (already deallocated by `__del__`) is treated as failing the refcount assertion. In the source it would dereference `NULL`.
- TypeLifecycle.LifelineDel: when the garbage collector runs `__del__` is not modelled. The lemma states what one run does.
- TypeLifecycle.SubtypeDeallocOf: the walk has fuel equal to the number of structs in the heap. `Cycles` means more subtype_dealloc types in a row than that. The model does not prove that this is a real cycle of bases.
- TypeLifecycle.CTypeCall: requires a C type to be bridged already. A C type that is not bridged yet, such as a Python subclass of a C type made by `c_type_descr__new__`, gets a struct created and attached by `make_ref`. That attach is not modelled here, for the reason given under TypeAttach.Attach, so the model does not say what such a call changes.
- TypeLifecycle.CTypeCallMeaning: the same requirement as TypeLifecycle.CTypeCall.
- TypeLifecycle.CTypeCallMeaning: the unpacking of arguments and keywords into a tuple and a dict is not modelled, and neither is the effect of the native `tp_new` call. The delegated branch (`_precheck_for_new`, `call__Type`) is a plain `Delegated` answer.
- `slotdefs` (the slot catalog) is a parameter. The conversion of method, getset and member definitions (`convert_method_defs` and the others) becomes a parameter map of extra dictionary entries in TypeSlots.NewCType.
- TypeSlots.UpdateAllSlots: requires that only `__new__` entries of the catalog target `tp_new`, which holds for the slot table the code uses. `WARN_ABOUT_MISSING_SLOT_FUNCTIONS` output is not modelled.
- TypeSlots.InheritAll: an item of the bases tuple that is not a type struct contributes nothing. In the source, `make_ref` of such a base would be read as a type struct anyway.
- TypeReady.Ready: the contract does not state that the HEAPTYPE flag survives readying. Readying only touches READY and READYING, but no lemma exports that.
- `type_dealloc`, `type_realize`, `c_type_descr__new__` and `tp_new_wrapper` are not modelled. Neither are the bodies of `str_segcount`/`str_getreadbuffer`, `check_descr` or the member getters and setters. Each is a call into code outside these files (allocation, `lltype.free`, the interpreter's type machinery).
- `PyObject_GetAttr`, `GetItem`, `Str`, `Repr`, `Unicode`, `Compare`, `Type`, `IsInstance` and `IsSubclass`, and the other one-line delegations in `object.py`, are not modelled. Each only forwards to the object space, which is an oracle here. `PyObject_GC_Track`/`UnTrack` do nothing.
- `_PyObject_New`, `PyObject_Del` and the GC variants are not modelled. They allocate and free raw memory.
- `PyErr_SetFromErrno`, `PyErr_CheckSignals`, `PyErr_WarnEx`, `PyErr_Warn` and `PyErr_PrintEx` are not modelled. They read `errno`, handle signals, or print and warn.
- ObjectOps.Init: realising an unbridged address (`from_ref`, `pyobject.py`) is not modelled. The code marks that call as raising, so the raised error is the parameter `e`.
- ObjectOps.InitVar: the same as ObjectOps.Init for the `from_ref` at the end.
- PyErrors.FetchRestoreRoundTrip: requires the pending type and value to be bridged already, because fetching an unbridged object creates a new handle for it. A pending error whose type is `NULL` reads as no error after the round trip, so it is excluded too.
- RClass.InstHash: `identityhash` is a parameter, so the contract states only the split between `None` and an instance; there is no partner lemma.
- ObjectOps.Hash: `space.int_w` of a hash is modelled as the space's integer conversion. A hash that does not fit a C `long` is whatever that conversion gives.
- RClass: `_get_field` and `_immutable_field` come from the lltype and ootype representations. They are modelled as lookup among the repr's own fields and as membership in the parsed list.
- RClass: `initialize_prebuilt_instance`, `create_instance` and `setup` are not modelled. Prebuilt instances are fresh identifiers.
- RClass.BuildInstanceRepr: the TyperError text leaves out the leading repr of the classdef ("%r has several UnboxedValue subclasses"), because Python's `repr` is not modelled.
- RClass.ConvertConstRoute: the TyperError texts leave out the repr of the value's class ("no classdef: %r") and of the value ("not an instance of %r: %r"), because Python's `repr` is not modelled.
- RClass.CheckFields: the scan reads `base.fields` in declaration order, while the source iterates a dict. When several fields conflict, the field the error names depends on that order.
- RClass.ConvertConstRoute: `upcast` of the subclass's result is not modelled. The function returns which route the conversion takes.
- RClass.FishLlAttr: `normalizeptr` is the identity. The `super` chain is a list of attribute levels.
- LlGroup: addresses are integers modulo 2^32 or 2^64. Pointer arithmetic on `char*` is modelled as that arithmetic. The 32-bit size check is done at compile time in C; here it is a function.

## Findings

| source | as written | input that shows it | evidently intended | confidence | as-written member | corrected member |
|---|---|---|---|---|---|---|
| pypy/module/cpyext/object.py:157-160 | `PyErr_NoMemory` only sets the error indicator, so PyObject_Init carries on and writes `ob_type` and `ob_refcnt` through `NULL` (PyObject_InitVar at 167-171 does the same) | `op` = `NULL` | return `NULL` with MemoryError pending, writing nothing | not executed | ObjectOps.InitNullWritesThroughNull, ObjectOps.InitVarNullWritesThroughNull | ObjectOps.Init, ObjectOps.InitVar |
| pypy/module/cpyext/object.py:330-335 | `rffi.cast(rffi.INT_real, fd)` silently truncates a descriptor above the C `int` range | an object whose int value is 2^32+1 is accepted as descriptor 1 | reject a descriptor that does not fit a C `int` | not executed | ObjectOps.AsFileDescriptorTruncates | ObjectOps.AsFileDescriptor |
| pypy/rpython/rclass.py:245 | `fieldname in self.immutable_field_list` compares against the raw entries, so an entry written `x[*]` never matches the parent's mutable field `x` | a parent with mutable field `x` and a subclass listing `x[*]` in `_immutable_fields_` | the entry counts for its field with the `[*]` suffix removed, as `_parse_field_list` reads it | not executed | RClass.SuffixedEntryEscapesCheck | RClass.SuffixedEntryCaught |
| pypy/module/cpyext/pyerrors.py:77-78 | `set_exception(OperationError(w_type, w_value))` runs whatever the arguments, although the docstring at 64-66 says `NULL` objects clear the indicator | PyErr_Fetch with nothing pending, then PyErr_Restore of the three `NULL`s it returned | the indicator is cleared, so the round trip gives back the state before the fetch | not executed | PyErrors.FetchRestoreAsWrittenLeavesError, PyErrors.RestoreAsWritten | PyErrors.Restore, PyErrors.FetchRestoreRoundTrip |

=== FILE: bridge.dfy ===
/**
 The object bridge: native handles in an address-keyed heap, the two bridge
 maps between managed objects and handle addresses, reference counts, the
 per-object lifelines and the error indicator, all held in one `State` record
 owned by the runtime context.
 */
module Bridge {
  import opened Runtime

  /** A native address; 0 is `NULL`. */
  type Addr = nat

  const Null: Addr := 0

  /** A function pointer stored in a slot: absent, or an opaque native function. */
  datatype Slot = NoSlot | Fn(id: nat)

  /** Well-known native functions the bridge installs. */
  const NewPlaceholder: Slot := Fn(1)     // rffi.cast(newfunc, 1) for `object`
  const SubtypeDealloc: Slot := Fn(2)     // subtype_dealloc
  const PyObjectDel: Slot := Fn(3)        // PyObject_Del
  const StrSegcount: Slot := Fn(4)        // str_segcount
  const StrGetReadBuffer: Slot := Fn(5)   // str_getreadbuffer

  /** Type flags (`tp_flags` bits). */
  const HEAPTYPE: bv64 := 0x200
  const READY: bv64 := 0x1000
  const READYING: bv64 := 0x2000

  /** A native handle: every handle starts with the object header (refcount,
      type pointer); type structs, tuples and plain objects differ after it.
      The one-level slots of a type struct are keyed by their field name
      (`tp_new`, `tp_dealloc`, ...); a key absent from `subs` is a `NULL`
      sub-table pointer (`tp_as_buffer`, ...). */
  datatype Handle =
    | TypeH(refcnt: nat, obType: Addr, flags: bv64, base: Addr, bases: Addr, dict: Addr,
            basicsize: int, itemsize: int, name: string,
            slots: map<string, Slot>, subs: map<string, map<string, Slot>>)
    | TupleH(refcnt: nat, obType: Addr, items: seq<Addr>)
    | ObjH(refcnt: nat, obType: Addr, size: int)

  /** The value of a one-level slot; an absent key reads as `NULL`. */
  function SlotOf(h: Handle, name: string): Slot
    requires h.TypeH?
  {
    if name in h.slots then h.slots[name] else NoSlot
  }

  function SetSlot(h: Handle, name: string, f: Slot): (r: Handle)
    requires h.TypeH?
    ensures r.TypeH? && SlotOf(r, name) == f
    ensures forall n :: n != name ==> SlotOf(r, n) == SlotOf(h, n)
    ensures r.(slots := h.slots) == h
  {
    h.(slots := h.slots[name := f])
  }

  /** The single error indicator. */
  datatype Indicator = NoError | Raised(err: OpError)

  /** A call into native code the bridge makes through a function pointer. */
  datatype NativeCall = NativeCall(fn: Slot, arg: Addr)

  datatype State = State(
    heap: map<Addr, Handle>,
    w2r: map<Obj, Addr>,        // py_objects_w2r
    r2w: map<Addr, Obj>,        // py_objects_r2w
    lifelines: map<Obj, Addr>,  // the PyOLifeline of an object, by the handle it keeps
    nonHeaptypes: seq<Obj>,
    operror: Indicator,
    nextAddr: nat,
    nextW: nat)

  /** A native entry point's result: the state after the call and the value returned. */
  datatype Reply<+T> = Reply(st: State, value: T)

  /** Allocation is fresh: every allocated address is below `nextAddr`, and
      `nextW` is above the identity of every managed object the bridge knows. */
  ghost predicate Fresh(s: State) {
    && s.nextAddr > 0
    && (forall a :: a in s.heap ==> 0 < a < s.nextAddr)
    && (forall w :: w in s.w2r && w.Ref? ==> w.id < s.nextW)
  }

  /** The handle of a managed object, `NULL` when it has none (or only a placeholder). */
  function RefOf(s: State, w: Obj): Addr {
    if w != NoObj && w in s.w2r then s.w2r[w] else Null
  }

  /** from_ref: the managed object of a handle address; `NULL` gives no object. */
  function FromRef(s: State, a: Addr): Obj {
    if a != Null && a in s.r2w then s.r2w[a] else NoObj
  }

  function RefcntOf(s: State, a: Addr): nat {
    if a in s.heap then s.heap[a].refcnt else 0
  }

  /** Py_IncRef: `NULL` is ignored. */
  function IncRef(s: State, a: Addr): (r: State)
    ensures a != Null && a in s.heap ==> r.heap == s.heap[a := s.heap[a].(refcnt := s.heap[a].refcnt + 1)]
    ensures a == Null || a !in s.heap ==> r == s
    ensures r.heap.Keys == s.heap.Keys
    ensures r.(heap := s.heap) == s
  {
    if a != Null && a in s.heap then
      s.(heap := s.heap[a := s.heap[a].(refcnt := s.heap[a].refcnt + 1)])
    else s
  }

  /** The same handle with reference count `n`. */
  function WithRefcnt(h: Handle, n: nat): Handle {
    h.(refcnt := n)
  }

  /** Whether Py_DecRef may be applied: the caller owns a reference. */
  predicate CanDecRef(s: State, a: Addr) {
    a == Null || a !in s.heap || s.heap[a].refcnt >= 1
  }

  /** Py_DecRef: `NULL` is ignored. What happens when the count reaches zero
      belongs to the object's type and is not part of this model. */
  function DecRef(s: State, a: Addr): (r: State)
    requires CanDecRef(s, a)
    ensures r.heap.Keys == s.heap.Keys
    ensures a != Null && a in s.heap ==> r.heap[a].refcnt + 1 == s.heap[a].refcnt
    ensures forall b :: b in s.heap && b != a ==> r.heap[b] == s.heap[b]
    ensures r.(heap := s.heap) == s
  {
    if a != Null && a in s.heap then
      s.(heap := s.heap[a := s.heap[a].(refcnt := s.heap[a].refcnt - 1)])
    else s
  }

  lemma {:induction false} IncRefThenDecRef(s: State, a: Addr)
    ensures CanDecRef(IncRef(s, a), a)
    ensures DecRef(IncRef(s, a), a) == s
  {
    if a != Null && a in s.heap {
      assert IncRef(s, a).heap[a].refcnt == s.heap[a].refcnt + 1;
      assert DecRef(IncRef(s, a), a).heap == s.heap;
    }
  }

  /** Py_DecRef applied to a managed object: its handle loses one reference. */
  function DecRefObj(s: State, w: Obj): State
    requires CanDecRef(s, RefOf(s, w))
  {
    DecRef(s, RefOf(s, w))
  }

  /** Allocate a fresh handle. */
  function Alloc(s: State, h: Handle): (r: (State, Addr))
    requires Fresh(s)
    ensures r.1 != Null && r.1 !in s.heap
    ensures r.0.heap == s.heap[r.1 := h]
    ensures r.0 == s.(heap := s.heap[r.1 := h], nextAddr := s.nextAddr + 1)
    ensures Fresh(r.0)
  {
    (s.(heap := s.heap[s.nextAddr := h], nextAddr := s.nextAddr + 1), s.nextAddr)
  }

  /** A managed object that exists: its identity has been handed out. */
  predicate Exists(s: State, w: Obj) {
    w.Ref? ==> w.id < s.nextW
  }

  /** A managed object the bridge creates itself, not yet known to either map. */
  function NewObj(s: State): (r: (State, Obj))
    requires Fresh(s)
    ensures r.1.Ref? && r.1 !in s.w2r
    ensures r.0 == s.(nextW := s.nextW + 1)
    ensures Fresh(r.0)
  {
    (s.(nextW := s.nextW + 1), Ref(s.nextW))
  }

  /** track_reference: record the pair in both bridge maps. */
  function Track(s: State, a: Addr, w: Obj): (r: State)
    ensures r.w2r == s.w2r[w := a] && r.r2w == s.r2w[a := w]
    ensures FromRef(r, a) == (if a == Null then NoObj else w)
    ensures w != NoObj ==> RefOf(r, w) == a
    ensures r.(w2r := s.w2r, r2w := s.r2w) == s
  {
    s.(w2r := s.w2r[w := a], r2w := s.r2w[a := w])
  }

  /** make_ref: the handle of `w`. An object already bridged gets one more
      reference (none with `steal`), a placeholder `NULL` entry gives `NULL`,
      and an object without a handle gets a fresh header with one reference,
      recorded in both maps. */
  function MakeRef(s: State, w: Obj, steal: bool): (r: (State, Addr))
    requires Fresh(s) && Exists(s, w)
    ensures Fresh(r.0)
    ensures w == NoObj ==> r == (s, Null)
    ensures w != NoObj && w in s.w2r ==> r.1 == s.w2r[w]
    ensures w != NoObj && w in s.w2r && !steal ==> r.0 == IncRef(s, r.1)
    ensures w != NoObj && w in s.w2r && steal ==> r.0 == s
    ensures w != NoObj && w !in s.w2r ==>
      && r.1 != Null && r.1 !in s.heap
      && r.0.heap == s.heap[r.1 := ObjH(1, Null, 0)]
      && RefOf(r.0, w) == r.1 && FromRef(r.0, r.1) == w
    ensures r.0.operror == s.operror && r.0.lifelines == s.lifelines
    ensures w != NoObj ==> RefOf(r.0, w) == r.1
    ensures forall b :: b in s.heap && b != r.1 ==> b in r.0.heap && r.0.heap[b] == s.heap[b]
  {
    if w == NoObj then (s, Null)
    else if w in s.w2r then
      var a := s.w2r[w];
      (if steal then s else IncRef(s, a), a)
    else
      var (s1, a) := Alloc(s, ObjH(1, Null, 0));
      (Track(s1, a, w), a)
  }

  /** A native reference to a bridged object round-trips through the maps. */
  lemma MakeRefFromRef(s: State, w: Obj, steal: bool)
    requires Fresh(s) && Exists(s, w)
    requires w != NoObj
    requires w in s.w2r ==> s.w2r[w] != Null && s.w2r[w] in s.r2w && s.r2w[s.w2r[w]] == w
    ensures FromRef(MakeRef(s, w, steal).0, MakeRef(s, w, steal).1) == w
  {
  }
}

=== FILE: llgroup.dfy ===
/**
 Combined symbolics: a group of structures laid out together, and the compact
 half-word that names one member of the group. A combined symbolic is two
 half-words packed in one `long`; the lower one is the compact member name.

 On 32-bit builds the half-word is an `unsigned short` and the compact value
 is the member's offset inside the group divided by 4, so a group holds at
 most 256KB. On 64-bit builds the half-word is an `unsigned int` and the
 compact value is the member's absolute address, so the group must lie in the
 first 4GB of the address space. Addresses are the unsigned values of their
 bits and pointer arithmetic wraps modulo the word size; the packing of a
 half-word into a `long` is done on bit-vectors.
 */
module LlGroup {

  /** The verdict of PYPY_GROUP_CHECK_SIZE: on 32-bit builds a rejection is a
      compile-time error, on 64-bit builds it is an error message set at start-up. */
  datatype SizeCheck = Accepted | Rejected(message: string)

  /** An address or a `long`, as the unsigned value of its bits: pointer
      arithmetic wraps modulo the word size. */
  const Mod32: int := 0x1_0000_0000
  const Mod64: int := 0x1_0000_0000_0000_0000
  type Word32 = x: int | 0 <= x < 0x1_0000_0000
  type Word64 = x: int | 0 <= x < 0x1_0000_0000_0000_0000

  /** A compact member value: an `unsigned short` on 32-bit builds, an
      `unsigned int` on 64-bit builds. */
  type Compact32 = x: int | 0 <= x < 0x1_0000
  type Compact64 = x: int | 0 <= x < 0x1_0000_0000

  // ---- 32-bit builds ----

  /** The most data a group may hold on 32-bit builds: 65536 words of 4 bytes. */
  const GroupLimit32: int := 65536 * 4

  /** GROUP_MEMBER_OFFSET: the member's offset (a non-negative `long`) divided
      by 4, truncated to an `unsigned short`. Below the group limit the
      compact value names the offset rounded down to a word. */
  function GroupMemberOffset32(offset: int): (r: Compact32)
    requires 0 <= offset < 0x8000_0000
    ensures offset < GroupLimit32 ==> r * 4 == offset - offset % 4
    ensures offset % 4 == 0 && offset < GroupLimit32 ==> (r == 0 <==> offset == 0)
  {
    (offset / 4) % 0x1_0000
  }

  /** _OP_GET_GROUP_MEMBER: the group's address plus four bytes per compact unit. */
  function GetGroupMember32(group: Word32, compact: Compact32): (r: Word32)
    ensures (r - group) % Mod32 == compact * 4
    ensures r == group <==> compact == 0
  {
    (group + compact * 4) % Mod32
  }

  /** Whatever the compact value, the member lies on a word boundary less
      than 256KB past the group's start, and only compact value 0 names the
      start itself. */
  lemma MemberWithinGroup32(group: Word32, compact: Compact32)
    ensures (GetGroupMember32(group, compact) - group) % Mod32 == compact * 4 < GroupLimit32
    ensures GetGroupMember32(group, compact) == group <==> compact == 0
  {
  }

  /** _OP_GET_NEXT_GROUP_MEMBER: the group's address shifted by `skip` bytes,
      plus four bytes per compact unit. */
  function GetNextGroupMember32(group: Word32, compact: Compact32, skip: Word32): (r: Word32)
    ensures r == (GetGroupMember32(group, compact) + skip) % Mod32
  {
    ShiftCommutes(group, skip, compact * 4);
    ((group + skip) % Mod32 + compact * 4) % Mod32
  }

  /** Adding two words to a word modulo 2**32 gives the same word in either order. */
  lemma ShiftCommutes(a: Word32, b: Word32, c: Word32)
    ensures ((a + b) % Mod32 + c) % Mod32 == ((a + c) % Mod32 + b) % Mod32
  {
    WrapOnce(a + b);
    WrapOnce(a + c);
    WrapOnce((a + b) % Mod32 + c);
    WrapOnce((a + c) % Mod32 + b);
    if a + b + c >= Mod32 {
      WrapOnce(a + b + c - Mod32);
    }
  }

  /** A sum of two words wraps at most once. */
  lemma WrapOnce(x: int)
    requires 0 <= x < 2 * Mod32
    ensures x % Mod32 == if x < Mod32 then x else x - Mod32
  {
  }

  /** The next member is the member itself shifted by `skip` bytes. */
  lemma NextIsShiftedMember32(group: Word32, compact: Compact32, skip: Word32)
    ensures GetNextGroupMember32(group, compact, skip) == (GetGroupMember32(group, compact) + skip) % Mod32
  {
  }

  /** PYPY_GROUP_CHECK_SIZE: the group's `sizeof` must not exceed 256KB. */
  function CheckSize32(groupname: string, size: nat): (r: SizeCheck)
    ensures r.Accepted? <==> size <= GroupLimit32
    ensures r.Rejected? ==> r.message == "group_" + groupname + "_is_too_large"
  {
    if size <= GroupLimit32 then Accepted
    else Rejected("group_" + groupname + "_is_too_large")
  }

  /** In a group the size check accepts, every word-aligned member is found
      again from its compact value: the compact value is exact. */
  lemma MemberRoundTrip32(groupname: string, size: nat, group: Word32, offset: int)
    requires CheckSize32(groupname, size).Accepted?
    requires 0 <= offset < size && offset % 4 == 0
    ensures GetGroupMember32(group, GroupMemberOffset32(offset)) == (group + offset) % Mod32
  {
  }

  /** The limit is tight: an offset of exactly 256KB truncates to compact
      value 0 and names the group's first member instead. */
  lemma OffsetAtLimitWraps32(group: Word32)
    ensures GroupMemberOffset32(GroupLimit32) == 0
    ensures GetGroupMember32(group, GroupMemberOffset32(GroupLimit32)) == group
    ensures GetGroupMember32(group, GroupMemberOffset32(GroupLimit32)) != (group + GroupLimit32) % Mod32
  {
  }

  /** OP_IS_GROUP_MEMBER_NONZERO, on either word size. */
  function IsGroupMemberNonzero(compact: int): bool {
    compact != 0
  }

  /** On 32-bit builds, a member of an accepted group tests nonzero exactly
      when it is not at the start of the group. */
  lemma NonzeroIffNotFirst32(group: Word32, offset: int)
    requires 0 <= offset < GroupLimit32 && offset % 4 == 0
    ensures IsGroupMemberNonzero(GroupMemberOffset32(offset)) <==> offset != 0
    ensures IsGroupMemberNonzero(GroupMemberOffset32(offset)) <==>
      GetGroupMember32(group, GroupMemberOffset32(offset)) != group
  {
  }

  // ---- Packing a half-word into a `long` ----

  /** A half-word, held in a `long` of its build's width with the high half clear. */
  type Half32 = x: bv32 | x <= 0xFFFF
  type Half64 = x: bv64 | x <= 0xFFFF_FFFF

  /** OP_EXTRACT_USHORT: the low half-word of a `long`. */
  function Extract32(value: bv32): (r: Half32)
    ensures r == value & 0xFFFF
    ensures value <= 0xFFFF ==> r == value
  {
    value & 0xFFFF
  }

  /** OP_COMBINE_USHORT: a half-word or-ed into the rest of a `long`. */
  function Combine32(half: Half32, rest: bv32): (r: bv32)
    ensures r & 0xFFFF_0000 == rest & 0xFFFF_0000
    ensures rest & 0xFFFF == 0 ==> r & 0xFFFF == half
  {
    half | rest
  }

  /** Extracting from a combination gives back the half-word, whenever the
      rest leaves the low half-word clear. */
  lemma ExtractCombine32(half: Half32, rest: bv32)
    requires rest & 0xFFFF == 0
    ensures Extract32(Combine32(half, rest)) == half
  {
  }

  /** Splitting a `long` and combining its parts gives it back. */
  lemma CombineExtract32(value: bv32)
    ensures Combine32(Extract32(value), value & 0xFFFF_0000) == value
  {
  }

  // ---- 64-bit builds ----

  /** The highest address a member of a group may have on 64-bit builds. */
  const AddressLimit64: int := 0xFFFF_FFFF

  /** GROUP_MEMBER_OFFSET: the member's absolute address as a `long`, stored
      into an `unsigned int` half-word, which keeps its low 32 bits. */
  function GroupMemberOffset64(address: Word64): (r: Compact64)
    ensures address <= AddressLimit64 ==> r == address
    ensures (address - r) % Mod32 == 0
  {
    address % Mod32
  }

  /** _OP_GET_GROUP_MEMBER: the compact value is the member's address; the
      group pointer plays no part. */
  function GetGroupMember64(group: Word64, compact: Compact64): (r: Word64)
    ensures r <= AddressLimit64
  {
    compact
  }

  /** The group pointer plays no part in finding a member. */
  lemma GroupPointerIgnored64(group: Word64, other: Word64, compact: Compact64)
    ensures GetGroupMember64(group, compact) == GetGroupMember64(other, compact)
    ensures GetGroupMember64(group, compact) <= AddressLimit64
  {
  }

  /** _OP_GET_NEXT_GROUP_MEMBER: the compact address shifted by `skip` bytes. */
  function GetNextGroupMember64(group: Word64, compact: Compact64, skip: Word64): (r: Word64)
    ensures r == (GetGroupMember64(group, compact) + skip) % Mod64
  {
    (compact + skip) % Mod64
  }

  /** The next member is the member itself shifted by `skip` bytes. */
  lemma NextIsShiftedMember64(group: Word64, compact: Compact64, skip: Word64)
    ensures GetNextGroupMember64(group, compact, skip) == (GetGroupMember64(group, compact) + skip) % Mod64
  {
  }

  /** PYPY_GROUP_CHECK_SIZE: an error unless the group's last member lies in
      the first 4GB of the address space. */
  function CheckSize64(groupname: string, lastAddress: Word64): (r: SizeCheck)
    ensures r.Accepted? <==> lastAddress <= AddressLimit64
    ensures r.Rejected? ==>
      r.message == "group " + groupname + " is not located in the initial 32 bits of address space"
  {
    if lastAddress > 0xFFFF_FFFF then
      Rejected("group " + groupname + " is not located in the initial 32 bits of address space")
    else Accepted
  }

  /** In a group the check accepts, every member (each lies at or below the
      last one) is found again from its compact half-word, wherever the group
      pointer points. */
  lemma MemberRoundTrip64(groupname: string, lastAddress: Word64, group: Word64, address: Word64)
    requires CheckSize64(groupname, lastAddress).Accepted?
    requires address <= lastAddress
    ensures GetGroupMember64(group, GroupMemberOffset64(address)) == address
  {
  }

  /** The limit is tight: a member at 4GB truncates to compact value 0. */
  lemma AddressAtLimitWraps64(group: Word64)
    ensures GroupMemberOffset64(AddressLimit64 + 1) == 0
    ensures GetGroupMember64(group, GroupMemberOffset64(AddressLimit64 + 1)) == 0
    ensures !IsGroupMemberNonzero(GroupMemberOffset64(AddressLimit64 + 1))
  {
  }

  /** On 64-bit builds a member tests nonzero exactly when its address does. */
  lemma NonzeroIffAddress64(address: Word64)
    requires address <= AddressLimit64
    ensures IsGroupMemberNonzero(GroupMemberOffset64(address)) <==> address != 0
  {
  }

  /** OP_EXTRACT_USHORT: the low half-word of a `long`. */
  function Extract64(value: bv64): (r: Half64)
    ensures r == value & 0xFFFF_FFFF
    ensures value <= 0xFFFF_FFFF ==> r == value
  {
    value & 0xFFFF_FFFF
  }

  /** OP_COMBINE_USHORT: a half-word or-ed into the rest of a `long`. */
  function Combine64(half: Half64, rest: bv64): (r: bv64)
    ensures r & 0xFFFF_FFFF_0000_0000 == rest & 0xFFFF_FFFF_0000_0000
    ensures rest & 0xFFFF_FFFF == 0 ==> r & 0xFFFF_FFFF == half
  {
    half | rest
  }

  lemma ExtractCombine64(half: Half64, rest: bv64)
    requires rest & 0xFFFF_FFFF == 0
    ensures Extract64(Combine64(half, rest)) == half
  {
  }

  lemma CombineExtract64(value: bv64)
    ensures Combine64(Extract64(value), value & 0xFFFF_FFFF_0000_0000) == value
  {
  }
}

=== FILE: object_ops.dfy ===
/**
 The generic object-protocol entry points: each calls one runtime operation and
 turns an escaping exception into the entry point's error sentinel plus the
 error indicator; a few work on the native header directly.
 */
module ObjectOps {
  import opened Runtime
  import opened Bridge
  import opened PyErrors

  /** The operator codes Py_LT .. Py_GE. */
  function OpCode(op: CmpOp): int {
    match op
    case LT => 0
    case LE => 1
    case EQ => 2
    case NE => 3
    case GT => 4
    case GE => 5
  }

  /** The operator a code names, if any. */
  function DecodeOp(opid: int): (r: Option<CmpOp>)
    ensures r.Some? ==> OpCode(r.value) == opid
    ensures r.None? ==> forall op :: OpCode(op) != opid
  {
    if opid == 0 then Some(LT)
    else if opid == 1 then Some(LE)
    else if opid == 2 then Some(EQ)
    else if opid == 3 then Some(NE)
    else if opid == 4 then Some(GT)
    else if opid == 5 then Some(GE)
    else None
  }

  lemma DecodeOpCode(op: CmpOp)
    ensures DecodeOp(OpCode(op)) == Some(op)
  {
  }

  function AsInt(b: bool): int {
    if b then 1 else 0
  }

  // ---- Truth testing ----

  /** PyObject_IsTrue: 1 or 0, or -1 with the indicator set when the test raises. */
  function IsTrue(s: State, sp: Space, w: Obj): (r: Reply<int>)
    ensures sp.isTrue(w) == Ok(true) ==> r == Reply(s, 1)
    ensures sp.isTrue(w) == Ok(false) ==> r == Reply(s, 0)
    ensures sp.isTrue(w).Err? ==> r.value == -1 && r.st.operror == Raised(sp.isTrue(w).error)
  {
    match sp.isTrue(w)
    case Ok(b) => NativeInt(s, Ok(AsInt(b)))
    case Err(e) => NativeInt(s, Err(e))
  }

  /** PyObject_Not. */
  function Not(s: State, sp: Space, w: Obj): (r: Reply<int>)
    ensures sp.isTrue(w) == Ok(true) ==> r == Reply(s, 0)
    ensures sp.isTrue(w) == Ok(false) ==> r == Reply(s, 1)
    ensures sp.isTrue(w).Err? ==> r.value == -1 && r.st.operror == Raised(sp.isTrue(w).error)
  {
    match sp.isTrue(w)
    case Ok(b) => NativeInt(s, Ok(AsInt(!b)))
    case Err(e) => NativeInt(s, Err(e))
  }

  /** PyObject_Not is the negation of PyObject_IsTrue, and both fail together
      leaving the same indicator behind. */
  lemma NotNegatesIsTrue(s: State, sp: Space, w: Obj)
    ensures Not(s, sp, w).st == IsTrue(s, sp, w).st
    ensures IsTrue(s, sp, w).value == -1 <==> Not(s, sp, w).value == -1
    ensures IsTrue(s, sp, w).value != -1 ==> Not(s, sp, w).value == 1 - IsTrue(s, sp, w).value
    ensures IsTrue(s, sp, w).value in {-1, 0, 1}
  {
  }

  // ---- Rich comparison ----

  /** The comparison PyObject_RichCompare performs, before the sentinel
      translation: exactly the operator the code names, and an unknown code is
      a bad internal call. */
  function RichCompareOutcome(sp: Space, o1: Obj, o2: Obj, opid: int): (r: Outcome<Obj>)
    ensures forall op :: OpCode(op) == opid ==> r == sp.compare(op, o1, o2)
    ensures DecodeOp(opid).None? ==> r == Err(BadInternalCallError)
  {
    if opid == 0 then sp.compare(LT, o1, o2)
    else if opid == 1 then sp.compare(LE, o1, o2)
    else if opid == 2 then sp.compare(EQ, o1, o2)
    else if opid == 3 then sp.compare(NE, o1, o2)
    else if opid == 4 then sp.compare(GT, o1, o2)
    else if opid == 5 then sp.compare(GE, o1, o2)
    else BadInternalCall()
  }

  /** PyObject_RichCompare. */
  function RichCompare(s: State, sp: Space, o1: Obj, o2: Obj, opid: int): (r: Reply<Obj>)
    ensures forall op :: OpCode(op) == opid && sp.compare(op, o1, o2).Ok? ==>
      r == Reply(s, sp.compare(op, o1, o2).value)
    ensures forall op :: OpCode(op) == opid && sp.compare(op, o1, o2).Err? ==>
      r.value == NoObj && r.st.operror == Raised(sp.compare(op, o1, o2).error)
    ensures DecodeOp(opid).None? ==>
      r.value == NoObj && r.st.operror == Raised(OpError(SystemError, Str("Bad internal call!")))
    ensures r.st.(operror := s.operror) == s
  {
    NativeObj(s, RichCompareOutcome(sp, o1, o2, opid))
  }

  /** PyObject_RichCompareBool: the truth value of PyObject_RichCompare. */
  function RichCompareBool(s: State, sp: Space, o1: Obj, o2: Obj, opid: int): (r: Reply<int>)
    ensures r.value in {-1, 0, 1}
  {
    NativeInt(s,
      match RichCompareOutcome(sp, o1, o2, opid)
      case Err(e) => Err(e)
      case Ok(w) =>
        match sp.isTrue(w)
        case Ok(b) => Ok(AsInt(b))
        case Err(e) => Err(e))
  }

  /** For every operator, the boolean form is the truth value of the object
      form: the same answer, or both fail with the same indicator. */
  lemma RichCompareBoolAgrees(s: State, sp: Space, o1: Obj, o2: Obj, op: CmpOp)
    ensures var c := RichCompare(s, sp, o1, o2, OpCode(op));
      var b := RichCompareBool(s, sp, o1, o2, OpCode(op));
      match sp.compare(op, o1, o2)
      case Err(e) =>
        c.value == NoObj && b.value == -1 && b.st == c.st && c.st.operror == Raised(e)
      case Ok(w) =>
        c == Reply(s, w) &&
        (sp.isTrue(w).Ok? ==> b == Reply(s, AsInt(sp.isTrue(w).value))) &&
        (sp.isTrue(w).Err? ==> b.value == -1 && b.st.operror == Raised(sp.isTrue(w).error))
  {
  }

  /** An unknown operator code is a SystemError: `NULL` from the object form,
      -1 from the boolean form. */
  lemma RichCompareUnknownOpcode(s: State, sp: Space, o1: Obj, o2: Obj, opid: int)
    requires opid < 0 || opid > 5
    ensures RichCompare(s, sp, o1, o2, opid).value == NoObj
    ensures Occurred(RichCompare(s, sp, o1, o2, opid).st) == SystemError
    ensures RichCompareBool(s, sp, o1, o2, opid) == Reply(SetObject(s, SystemError, Str("Bad internal call!")), -1)
  {
  }

  // ---- Attributes ----

  /** PyObject_HasAttr: cannot fail; any exception, from the lookup or from
      the truth test of its result, reads as 0 and leaves the indicator alone. */
  function HasAttr(s: State, sp: Space, w: Obj, name: Obj): (r: Reply<int>)
    ensures r.st == s
    ensures r.value == 0 || r.value == 1
    ensures r.value == 1 <==> sp.hasattr(w, name).Ok? && sp.isTrue(sp.hasattr(w, name).value) == Ok(true)
  {
    match sp.hasattr(w, name)
    case Err(_) => Reply(s, 0)
    case Ok(res) =>
      match sp.isTrue(res)
      case Err(_) => Reply(s, 0)
      case Ok(b) => Reply(s, AsInt(b))
  }

  /** PyObject_HasAttrString: PyObject_HasAttr with the name wrapped. */
  function HasAttrString(s: State, sp: Space, w: Obj, name: string): (r: Reply<int>)
    ensures r.st == s
    ensures r.value == 0 || r.value == 1
    ensures r.value == 1 <==> sp.hasattr(w, Str(name)).Ok? && sp.isTrue(sp.hasattr(w, Str(name)).value) == Ok(true)
  {
    HasAttr(s, sp, w, Str(name))
  }

  // ---- Type check ----

  /** PyObject_TypeCheck: 1 exactly when the object's type is the given type or a
      subtype of it. The given type must be a type object, which the entry
      point asserts. */
  function TypeCheck(sp: Space, w: Obj, t: Obj): (r: Outcome<int>)
    ensures !sp.isType(t) <==> r == Err(AssertionFailed)
    ensures sp.isType(t) ==> r.Ok? && (r.value == 0 || r.value == 1)
    ensures sp.isType(t) ==> (r == Ok(1) <==> sp.typeOf(w) == t || sp.isSubtype(sp.typeOf(w), t))
  {
    if !sp.isType(t) then Err(AssertionFailed)
    else Ok(AsInt(sp.typeOf(w) == t || sp.isSubtype(sp.typeOf(w), t)))
  }

  /** An object always passes the check against its own type. */
  lemma TypeCheckOwnType(sp: Space, w: Obj)
    requires sp.isType(sp.typeOf(w))
    ensures TypeCheck(sp, w, sp.typeOf(w)) == Ok(1)
  {
  }

  /** The subtype relation is transitive. */
  ghost predicate SubtypeTransitive(sp: Space) {
    forall a, b, c :: sp.isSubtype(a, b) && sp.isSubtype(b, c) ==> sp.isSubtype(a, c)
  }

  /** Passing the check against a type means passing it against every
      supertype of that type. */
  lemma TypeCheckUpward(sp: Space, w: Obj, t1: Obj, t2: Obj)
    requires SubtypeTransitive(sp)
    requires sp.isType(t1) && sp.isType(t2) && sp.isSubtype(t1, t2)
    requires TypeCheck(sp, w, t1) == Ok(1)
    ensures TypeCheck(sp, w, t2) == Ok(1)
  {
    if sp.typeOf(w) != t1 {
      assert sp.isSubtype(sp.typeOf(w), t1);
    }
  }

  // ---- File descriptors ----

  const IntMax: int := 0x7FFF_FFFF

  /** rffi.cast to a C `int`: the low 32 bits, read as signed. */
  function ToCInt(x: int): (r: int)
    ensures -0x8000_0000 <= r <= IntMax
    ensures -0x8000_0000 <= x <= IntMax ==> r == x
    ensures (r - x) % 0x1_0000_0000 == 0
  {
    (x + 0x8000_0000) % 0x1_0000_0000 - 0x8000_0000
  }

  const NotAFileError: OpError := OpError(TypeError, Str("argument must be an int, or have a fileno() method."))
  const NegativeFdError: OpError := OpError(ValueError, Str("file descriptor cannot be a negative integer"))
  const FdRangeError: OpError := OpError(OverflowError, Str("file descriptor does not fit in a C int"))

  /** The integer an object names as a descriptor: itself if it is an integer,
      else what its `fileno()` returns; an object with neither is a TypeError. */
  function FdSource(sp: Space, w: Obj): Outcome<int> {
    match sp.intW(w)
    case Ok(fd) => Ok(fd)
    case Err(_) =>
      match sp.getattr(w, Str("fileno"))
      case Err(_) => Err(NotAFileError)
      case Ok(meth) =>
        var wfd :- sp.callFunction(meth);
        sp.intW(wfd)
  }

  /** PyObject_AsFileDescriptor as written: a negative integer is a
      ValueError, and any other integer is cast to a C `int`. */
  function AsFileDescriptorAsWritten(s: State, sp: Space, w: Obj): (r: Reply<int>)
    ensures FdSource(sp, w).Ok? && FdSource(sp, w).value < 0 ==>
      r == Reply(SetObject(s, ValueError, NegativeFdError.wValue), -1)
    ensures FdSource(sp, w).Ok? && FdSource(sp, w).value >= 0 ==>
      r == Reply(s, ToCInt(FdSource(sp, w).value))
  {
    NativeInt(s,
      var fd :- FdSource(sp, w);
      if fd < 0 then Err(NegativeFdError) else Ok(ToCInt(fd)))
  }

  /** A descriptor above the C `int` range comes back as a different
      descriptor, with no error: 2^32 + 1 is returned as 1. */
  lemma AsFileDescriptorTruncates(s: State, sp: Space, w: Obj)
    requires sp.intW(w) == Ok(0x1_0000_0001)
    ensures AsFileDescriptorAsWritten(s, sp, w) == Reply(s, 1)
  {
  }

  /** PyObject_AsFileDescriptor with the range check the conversion needs: the
      result is the descriptor itself, or -1 with the indicator set. */
  function AsFileDescriptor(s: State, sp: Space, w: Obj): (r: Reply<int>)
    ensures -1 <= r.value <= IntMax
    ensures r.value >= 0 ==> r.st == s && FdSource(sp, w) == Ok(r.value)
    ensures FdSource(sp, w).Ok? && FdSource(sp, w).value > IntMax ==> r.value == -1 && r.st.operror.Raised?
    ensures r.value == -1 ==> r.st.operror.Raised?
    ensures FdSource(sp, w).Ok? && 0 <= FdSource(sp, w).value <= IntMax ==>
      r == Reply(s, FdSource(sp, w).value)
    ensures FdSource(sp, w).Ok? && FdSource(sp, w).value < 0 ==>
      r == Reply(SetObject(s, ValueError, NegativeFdError.wValue), -1)
    ensures sp.intW(w).Err? && sp.getattr(w, Str("fileno")).Err? ==>
      r == Reply(SetObject(s, TypeError, NotAFileError.wValue), -1)
  {
    NativeInt(s,
      var fd :- FdSource(sp, w);
      if fd < 0 then Err(NegativeFdError)
      else if fd > IntMax then Err(FdRangeError)
      else Ok(fd))
  }

  /** The corrected conversion agrees with the code as written on every
      descriptor that fits a C `int`. */
  lemma AsFileDescriptorAgreesInRange(s: State, sp: Space, w: Obj)
    requires FdSource(sp, w).Ok? ==> FdSource(sp, w).value <= IntMax
    ensures AsFileDescriptor(s, sp, w) == AsFileDescriptorAsWritten(s, sp, w)
  {
  }

  // ---- Hash ----

  /** PyObject_Hash: the hash, or -1 with the indicator set. */
  function Hash(s: State, sp: Space, w: Obj): (r: Reply<int>)
    ensures r.value != -1 ==> r.st == s
    ensures sp.hash(w).Err? ==> r == Reply(SetObject(s, sp.hash(w).error.wType, sp.hash(w).error.wValue), -1)
    ensures sp.hash(w).Ok? && sp.intW(sp.hash(w).value).Ok? ==> r == Reply(s, sp.intW(sp.hash(w).value).value)
    ensures sp.hash(w).Ok? && sp.intW(sp.hash(w).value).Err? ==>
      r.value == -1 && r.st.operror == Raised(sp.intW(sp.hash(w).value).error)
  {
    NativeInt(s,
      var h :- sp.hash(w);
      sp.intW(h))
  }

  /** -1 is also a hash value: the caller can tell it from an error only by
      the indicator, which a successful hash leaves as it was. */
  lemma HashMinusOneIsAmbiguous(s: State, sp: Space, w: Obj)
    requires s.operror == NoError
    requires sp.hash(w).Ok? && sp.intW(sp.hash(w).value) == Ok(-1)
    ensures Hash(s, sp, w).value == -1 && Occurred(Hash(s, sp, w).st) == NoObj
  {
  }

  /** Entered with nothing pending, -1 without a new error comes exactly from
      a hash that converts to -1; every failure leaves an error pending. */
  lemma HashMinusOneOnlyFromHash(s: State, sp: Space, w: Obj)
    requires s.operror == NoError
    ensures Hash(s, sp, w).value == -1 && Hash(s, sp, w).st.operror == NoError <==>
      sp.hash(w).Ok? && sp.intW(sp.hash(w).value) == Ok(-1)
    ensures Hash(s, sp, w).st.operror.Raised? <==> sp.hash(w).Err? || sp.intW(sp.hash(w).value).Err?
  {
  }

  // ---- Header initialisation and deallocation ----

  /** The header fields PyObject_Init writes, and only those. */
  function InitHeader(s: State, op: Addr, tp: Addr): (r: State)
    requires op in s.heap
    ensures op in r.heap && r.heap[op].refcnt == 1 && r.heap[op].obType == tp
    ensures r.heap[op] == s.heap[op].(refcnt := 1, obType := tp)
    ensures r == s.(heap := s.heap[op := s.heap[op].(refcnt := 1, obType := tp)])
  {
    s.(heap := s.heap[op := s.heap[op].(obType := tp, refcnt := 1)])
  }

  /** The end of PyObject_Init and PyObject_InitVar: `from_ref` of the
      initialised handle. A handle bridged to a managed object gives that
      object; any other would have to be realised, which the source marks as
      raising, and `e` stands for the exception raised. */
  function InitReturn(s: State, op: Addr, e: OpError): (r: Reply<Obj>)
    ensures FromRef(s, op) != NoObj ==> r.st == s && r.value == FromRef(s, op)
    ensures FromRef(s, op) == NoObj ==> r.value == NoObj && r.st.operror == Raised(e)
    ensures r.st.(operror := s.operror) == s
  {
    NativeObj(s, if FromRef(s, op) != NoObj then Ok(FromRef(s, op)) else Err(e))
  }

  datatype InitResult = Initialised(reply: Reply<Obj>) | NullWrite(st: State)

  /** PyObject_Init as written: a `NULL` object sets MemoryError and then
      carries on writing the header through the `NULL` pointer; any other
      object gets the header and goes on to `from_ref`, as in Init. */
  function InitAsWritten(s: State, op: Addr, tp: Addr, e: OpError): (r: InitResult)
    requires op == Null || op in s.heap
    ensures op == Null ==> r.NullWrite? && Occurred(r.st) == MemoryError
    ensures op != Null ==> r == Initialised(Init(s, op, tp, e))
  {
    var s1 := if op == Null then NoMemory(s).st else s;
    if op == Null then NullWrite(s1) else Initialised(InitReturn(InitHeader(s1, op, tp), op, e))
  }

  /** The `NULL` input reaches the header writes. */
  lemma InitNullWritesThroughNull(s: State, tp: Addr, e: OpError)
    ensures InitAsWritten(s, Null, tp, e).NullWrite?
  {
  }

  /** PyObject_Init: a `NULL` object is reported as MemoryError and `NULL` is
      returned. Otherwise the header gets the type and one reference, and the
      object bridged to the handle is returned; a handle bridged to nothing
      gives `NULL` with the exception `e` pending. */
  function Init(s: State, op: Addr, tp: Addr, e: OpError): (r: Reply<Obj>)
    requires op == Null || op in s.heap
    ensures op == Null ==> r.value == NoObj && r.st == SetObject(s, MemoryError, NoneObj)
    ensures op != Null ==> r.st.heap == s.heap[op := s.heap[op].(refcnt := 1, obType := tp)]
    ensures op != Null ==> r.st.heap[op].refcnt == 1 && r.st.heap[op].obType == tp
    ensures op != Null && FromRef(s, op) != NoObj ==> r.value == FromRef(s, op) && r.st.operror == s.operror
    ensures op != Null && FromRef(s, op) == NoObj ==> r.value == NoObj && r.st.operror == Raised(e)
    ensures r.st.(heap := s.heap, operror := s.operror) == s
  {
    if op == Null then NoMemory(s)
    else InitReturn(InitHeader(s, op, tp), op, e)
  }

  /** The object Init returns is the one whose handle it initialised: its
      handle is `op`, now with the type and one reference. */
  lemma InitReturnsHandleObject(s: State, op: Addr, tp: Addr, e: OpError)
    requires op != Null && op in s.heap && op in s.r2w && s.r2w[op] != NoObj
    requires s.r2w[op] in s.w2r && s.w2r[s.r2w[op]] == op
    ensures var r := Init(s, op, tp, e);
      RefOf(r.st, r.value) == op && r.st.heap[op] == s.heap[op].(refcnt := 1, obType := tp)
  {
  }

  datatype InitVarResult = InitialisedVar(reply: Reply<Obj>) | NullWriteVar(st: State)

  /** The header PyObject_InitVar writes: the item count, the type and one reference. */
  function InitVarHeader(s: State, op: Addr, tp: Addr, size: int): (r: State)
    requires op in s.heap && s.heap[op].ObjH?
    ensures r == s.(heap := s.heap[op := ObjH(1, tp, size)])
  {
    var s2 := s.(heap := s.heap[op := s.heap[op].(size := size)]);
    InitHeader(s2, op, tp)
  }

  /** PyObject_InitVar as written: the same `NULL` path as PyObject_Init. */
  function InitVarAsWritten(s: State, op: Addr, tp: Addr, size: int, e: OpError): (r: InitVarResult)
    requires op == Null || (op in s.heap && s.heap[op].ObjH?)
    ensures op == Null ==> r.NullWriteVar? && Occurred(r.st) == MemoryError
    ensures op != Null ==> r == InitialisedVar(InitVar(s, op, tp, size, e))
  {
    var s1 := if op == Null then NoMemory(s).st else s;
    if op == Null then NullWriteVar(s1)
    else InitialisedVar(InitReturn(InitVarHeader(s1, op, tp, size), op, e))
  }

  lemma InitVarNullWritesThroughNull(s: State, tp: Addr, size: int, e: OpError)
    ensures InitVarAsWritten(s, Null, tp, size, e).NullWriteVar?
  {
  }

  /** PyObject_InitVar: PyObject_Init that also records the item count. */
  function InitVar(s: State, op: Addr, tp: Addr, size: int, e: OpError): (r: Reply<Obj>)
    requires op == Null || (op in s.heap && s.heap[op].ObjH?)
    ensures op == Null ==> r.value == NoObj && r.st == SetObject(s, MemoryError, NoneObj)
    ensures op != Null ==> r.st.heap == s.heap[op := ObjH(1, tp, size)]
    ensures op != Null && FromRef(s, op) != NoObj ==> r.value == FromRef(s, op) && r.st.operror == s.operror
    ensures op != Null && FromRef(s, op) == NoObj ==> r.value == NoObj && r.st.operror == Raised(e)
    ensures r.st.(heap := s.heap, operror := s.operror) == s
  {
    if op == Null then NoMemory(s)
    else InitReturn(InitVarHeader(s, op, tp, size), op, e)
  }

  /** PyObject_dealloc: hands the object to its type's `tp_free`, then drops the
      reference the object held on its type, for heap types only. */
  function Dealloc(s: State, obj: Addr): (r: (State, NativeCall))
    requires obj in s.heap
    requires s.heap[obj].obType != Null && s.heap[obj].obType in s.heap && s.heap[s.heap[obj].obType].TypeH?
    requires s.heap[s.heap[obj].obType].flags & HEAPTYPE != 0 ==> s.heap[s.heap[obj].obType].refcnt >= 1
    ensures var pto := s.heap[obj].obType;
      && r.1 == NativeCall(SlotOf(s.heap[pto], "tp_free"), obj)
      && r.0.heap.Keys == s.heap.Keys
      && r.0.heap[pto].refcnt == s.heap[pto].refcnt - (if s.heap[pto].flags & HEAPTYPE != 0 then 1 else 0)
      && r.0.heap[pto] == WithRefcnt(s.heap[pto], r.0.heap[pto].refcnt)
      && (forall a :: a in s.heap && a != pto ==> r.0.heap[a] == s.heap[a])
      && r.0.(heap := s.heap) == s
  {
    var pto := s.heap[obj].obType;
    var call := NativeCall(SlotOf(s.heap[pto], "tp_free"), obj);
    if s.heap[pto].flags & HEAPTYPE != 0 then (DecRef(s, pto), call) else (s, call)
  }

  /** The reference Dealloc drops is the object's reference on its type: for
      a heap type, taking it back restores the state, and for any other type
      the state is left alone. */
  lemma DeallocReleasesTypeRef(s: State, obj: Addr)
    requires obj in s.heap
    requires s.heap[obj].obType != Null && s.heap[obj].obType in s.heap && s.heap[s.heap[obj].obType].TypeH?
    requires s.heap[s.heap[obj].obType].flags & HEAPTYPE != 0 ==> s.heap[s.heap[obj].obType].refcnt >= 1
    ensures var pto := s.heap[obj].obType;
      s.heap[pto].flags & HEAPTYPE != 0 ==> IncRef(Dealloc(s, obj).0, pto) == s
    ensures var pto := s.heap[obj].obType;
      s.heap[pto].flags & HEAPTYPE == 0 ==> Dealloc(s, obj).0 == s
  {
    var pto := s.heap[obj].obType;
    if s.heap[pto].flags & HEAPTYPE != 0 {
      var r := IncRef(Dealloc(s, obj).0, pto);
      assert r.heap[pto] == s.heap[pto];
      assert r.heap == s.heap;
    }
  }

  /** PyObject_SelfIter: the same handle, with one more reference. */
  function SelfIter(s: State, a: Addr): (r: Reply<Addr>)
    ensures r.value == a
    ensures r.st.(heap := s.heap) == s
    ensures r.st.heap.Keys == s.heap.Keys
    ensures a != Null && a in s.heap ==> r.st.heap[a] == s.heap[a].(refcnt := s.heap[a].refcnt + 1)
    ensures a == Null || a !in s.heap ==> r.st == s
    ensures forall b :: b in s.heap && b != a ==> r.st.heap[b] == s.heap[b]
  {
    Reply(IncRef(s, a), a)
  }

  /** The reference SelfIter hands out is the caller's to drop: dropping it
      gives back the state before the call. */
  lemma SelfIterThenDecRef(s: State, a: Addr)
    ensures CanDecRef(SelfIter(s, a).st, a)
    ensures DecRef(SelfIter(s, a).st, a) == s
  {
    IncRefThenDecRef(s, a);
  }
}

=== FILE: pyerrors.dfy ===
/**
 The error indicator: one optional (type, value) pair in the runtime state,
 set, cleared, read, fetched and restored by the native error API, plus the
 conversion every native entry point applies to an exception that escapes it
 (set the indicator, return the entry point's error sentinel).
 */
module PyErrors {
  import opened Runtime
  import opened Bridge

  /** PyErr_SetObject: the indicator now holds exactly (type, value). */
  function SetObject(s: State, t: Obj, v: Obj): (r: State)
    ensures r.operror == Raised(OpError(t, v))
    ensures r.(operror := s.operror) == s
  {
    s.(operror := Raised(OpError(t, v)))
  }

  /** PyErr_SetString: the value is the message, wrapped. */
  function SetString(s: State, t: Obj, message: string): (r: State)
    ensures r == SetObject(s, t, Str(message))
  {
    SetObject(s, t, Str(message))
  }

  /** PyErr_SetNone: the value is `None`. */
  function SetNone(s: State, t: Obj): (r: State)
    ensures r == SetObject(s, t, NoneObj)
  {
    SetObject(s, t, NoneObj)
  }

  /** PyErr_Occurred: the pending exception's type, without clearing it. */
  function Occurred(s: State): (r: Obj)
    ensures s.operror.Raised? ==> r == s.operror.err.wType
    ensures s.operror.NoError? ==> r == NoObj
  {
    match s.operror
    case NoError => NoObj
    case Raised(e) => e.wType
  }

  /** PyErr_Clear. */
  function Clear(s: State): (r: State)
    ensures r.operror == NoError && Occurred(r) == NoObj
    ensures r.(operror := s.operror) == s
  {
    s.(operror := NoError)
  }

  datatype Fetched = Fetched(st: State, ptype: Addr, pvalue: Addr, ptraceback: Addr)

  /** The objects of the pending exception exist in the managed heap. */
  predicate IndicatorExists(s: State) {
    s.operror.Raised? ==> Exists(s, s.operror.err.wType) && Exists(s, s.operror.err.wValue)
  }

  /** PyErr_Fetch: clears the indicator and hands out new references to its type
      and value; all three are `NULL` when nothing was pending, and the traceback
      is always `NULL`. */
  function Fetch(s: State): (r: Fetched)
    requires Fresh(s) && IndicatorExists(s)
    ensures Fresh(r.st)
    ensures r.st.operror == NoError
    ensures r.ptraceback == Null
    ensures s.operror == NoError ==> r.ptype == Null && r.pvalue == Null && r.st == s
    ensures s.operror.Raised? && s.operror.err.wType != NoObj ==> RefOf(r.st, s.operror.err.wType) == r.ptype
    ensures s.operror.Raised? && s.operror.err.wValue != NoObj ==> RefOf(r.st, s.operror.err.wValue) == r.pvalue
    ensures r.st.lifelines == s.lifelines
  {
    var s0 := s.(operror := NoError);
    match s.operror
    case NoError => Fetched(s0, Null, Null, Null)
    case Raised(e) =>
      var (s1, pt) := MakeRef(s0, e.wType, false);
      var (s2, pv) := MakeRef(s1, e.wValue, false);
      Fetched(s2, pt, pv, Null)
  }

  /** How many of the objects are bridged to the handle at `a`. */
  function Uses(s: State, ws: seq<Obj>, a: Addr): nat {
    if |ws| == 0 then 0
    else (if a != Null && RefOf(s, ws[0]) == a then 1 else 0) + Uses(s, ws[1..], a)
  }

  /** The caller owns one reference per argument it hands over. */
  predicate OwnsRefs(s: State, ws: seq<Obj>) {
    forall a :: a in s.heap ==> Uses(s, ws, a) <= s.heap[a].refcnt
  }

  /** Drop one reference per object. */
  function DecRefAll(s: State, ws: seq<Obj>): (r: State)
    requires OwnsRefs(s, ws)
    ensures r.heap.Keys == s.heap.Keys
    ensures forall a :: a in s.heap ==> r.heap[a].refcnt + Uses(s, ws, a) == s.heap[a].refcnt
    ensures forall a :: a in s.heap ==> r.heap[a] == s.heap[a].(refcnt := r.heap[a].refcnt)
    ensures r.(heap := s.heap) == s
    decreases |ws|
  {
    if |ws| == 0 then s
    else
      var s1 := DecRefObj(s, ws[0]);
      assert forall a :: a in s1.heap ==> Uses(s1, ws[1..], a) <= s1.heap[a].refcnt by {
        forall a | a in s1.heap
          ensures Uses(s1, ws[1..], a) <= s1.heap[a].refcnt
        {
          UsesFrame(s, s1, ws[1..], a);
        }
      }
      var r := DecRefAll(s1, ws[1..]);
      assert forall a :: a in s.heap ==> r.heap[a].refcnt + Uses(s, ws, a) == s.heap[a].refcnt by {
        forall a | a in s.heap
          ensures r.heap[a].refcnt + Uses(s, ws, a) == s.heap[a].refcnt
        {
          UsesFrame(s, s1, ws[1..], a);
        }
      }
      r
  }

  lemma UsesFrame(s: State, s1: State, ws: seq<Obj>, a: Addr)
    requires s1.w2r == s.w2r
    ensures Uses(s1, ws, a) == Uses(s, ws, a)
  {
  }

  /** PyErr_Restore as written: the indicator becomes (type, value) whatever
      the type is, so a `NULL` type leaves an error pending, and one
      reference to each of the three arguments is consumed. */
  function RestoreAsWritten(s: State, t: Obj, v: Obj, tb: Obj): (r: State)
    requires OwnsRefs(s, [t, v, tb])
    ensures r.operror == Raised(OpError(t, v))
    ensures r.heap.Keys == s.heap.Keys
    ensures forall a :: a in s.heap ==> r.heap[a].refcnt + Uses(s, [t, v, tb], a) == s.heap[a].refcnt
    ensures forall a :: a in s.heap ==> r.heap[a] == s.heap[a].(refcnt := r.heap[a].refcnt)
    ensures r.(heap := s.heap, operror := s.operror) == s
  {
    var s1 := SetObject(s, t, v);
    assert forall a :: a in s1.heap ==> Uses(s1, [t, v, tb], a) == Uses(s, [t, v, tb], a) by {
      forall a | a in s1.heap {
        UsesFrame(s, s1, [t, v, tb], a);
      }
    }
    DecRefAll(s1, [t, v, tb])
  }

  /** PyErr_Restore as documented: a `NULL` type clears the indicator, any
      other type makes (type, value) pending; one reference to each of the
      three arguments is consumed either way. */
  function Restore(s: State, t: Obj, v: Obj, tb: Obj): (r: State)
    requires OwnsRefs(s, [t, v, tb])
    ensures t == NoObj ==> r.operror == NoError
    ensures t != NoObj ==> r.operror == Raised(OpError(t, v))
    ensures r.heap.Keys == s.heap.Keys
    ensures forall a :: a in s.heap ==> r.heap[a].refcnt + Uses(s, [t, v, tb], a) == s.heap[a].refcnt
    ensures forall a :: a in s.heap ==> r.heap[a] == s.heap[a].(refcnt := r.heap[a].refcnt)
    ensures r.(heap := s.heap, operror := s.operror) == s
  {
    var s1 := if t == NoObj then Clear(s) else SetObject(s, t, v);
    assert forall a :: a in s1.heap ==> Uses(s1, [t, v, tb], a) == Uses(s, [t, v, tb], a) by {
      forall a | a in s1.heap {
        UsesFrame(s, s1, [t, v, tb], a);
      }
    }
    DecRefAll(s1, [t, v, tb])
  }

  /** Restoring with a type agrees with the code as written; only the `NULL`
      type is treated differently. */
  lemma RestoreAgreesWithType(s: State, t: Obj, v: Obj, tb: Obj)
    requires OwnsRefs(s, [t, v, tb])
    ensures t != NoObj ==> Restore(s, t, v, tb) == RestoreAsWritten(s, t, v, tb)
    ensures t == NoObj ==> Restore(s, t, v, tb) == RestoreAsWritten(s, t, v, tb).(operror := NoError)
  {
  }

  /** The error PyErr_BadInternalCall raises. */
  const BadInternalCallError: OpError := OpError(SystemError, Str("Bad internal call!"))

  /** The error PyErr_BadArgument raises. */
  const BadArgumentError: OpError := OpError(TypeError, Str("bad argument type for built-in operation"))

  /** PyErr_BadInternalCall. */
  function BadInternalCall<T>(): (r: Outcome<T>)
    ensures r == Err(OpError(SystemError, Str("Bad internal call!")))
  {
    Err(BadInternalCallError)
  }

  /** PyErr_BadArgument. */
  function BadArgument<T>(): (r: Outcome<T>)
    ensures r == Err(OpError(TypeError, Str("bad argument type for built-in operation")))
  {
    Err(BadArgumentError)
  }

  /** PyErr_NoMemory: sets MemoryError and returns `NULL`. */
  function NoMemory(s: State): (r: Reply<Obj>)
    ensures r.value == NoObj
    ensures Occurred(r.st) == MemoryError
    ensures r.st == SetNone(s, MemoryError)
  {
    Reply(SetNone(s, MemoryError), NoObj)
  }

  /** The exception escaping a native entry point whose error value is `-1`:
      it goes into the indicator and the caller sees `-1`. */
  function NativeInt(s: State, o: Outcome<int>): (r: Reply<int>)
    ensures o.Ok? ==> r.st == s && r.value == o.value
    ensures o.Err? ==> r.value == -1 && r.st.operror == Raised(o.error)
    ensures r.st.(operror := s.operror) == s
  {
    match o
    case Ok(v) => Reply(s, v)
    case Err(e) => Reply(SetObject(s, e.wType, e.wValue), -1)
  }

  /** The same for an entry point returning an object: the error value is `NULL`. */
  function NativeObj(s: State, o: Outcome<Obj>): (r: Reply<Obj>)
    ensures o.Ok? ==> r.st == s && r.value == o.value
    ensures o.Err? ==> r.value == NoObj && r.st.operror == Raised(o.error)
    ensures r.st.(operror := s.operror) == s
  {
    match o
    case Ok(v) => Reply(s, v)
    case Err(e) => Reply(SetObject(s, e.wType, e.wValue), NoObj)
  }

  /** Entered with no exception pending, a native entry point's caller can
      tell failure from success by the indicator, and the two sentinels are
      exactly the failures when the result is not itself -1 or `NULL`. */
  lemma NativeFailureVisible(s: State, oi: Outcome<int>, oo: Outcome<Obj>)
    requires s.operror == NoError
    ensures NativeInt(s, oi).st.operror.Raised? <==> oi.Err?
    ensures NativeObj(s, oo).st.operror.Raised? <==> oo.Err?
    ensures oi != Ok(-1) ==> (NativeInt(s, oi).value == -1 <==> oi.Err?)
    ensures oo != Ok(NoObj) ==> (NativeObj(s, oo).value == NoObj <==> oo.Err?)
  {
  }

  /** PyErr_GivenExceptionMatches: an exception instance is replaced by its class
      before matching; anything else is matched as it is. */
  function GivenExceptionMatches(sp: Space, given: Obj, exc: Obj): (r: int)
    ensures r == 0 || r == 1
    ensures sp.isExceptionInstance(given) ==> (r == 1 <==> sp.exceptionMatch(sp.exceptionGetClass(given), exc))
    ensures !sp.isExceptionInstance(given) ==> (r == 1 <==> sp.exceptionMatch(given, exc))
  {
    var givenType := if sp.isExceptionInstance(given) then sp.exceptionGetClass(given) else given;
    if sp.exceptionMatch(givenType, exc) then 1 else 0
  }

  /** PyErr_ExceptionMatches: matches the pending exception's type. */
  function ExceptionMatches(s: State, sp: Space, exc: Obj): (r: int)
    ensures r == GivenExceptionMatches(sp, Occurred(s), exc)
  {
    GivenExceptionMatches(sp, Occurred(s), exc)
  }

  // ---- Properties relating the operations ----

  /** Setting then reading: PyErr_Occurred reports the type just set, and
      reading does not clear it. */
  lemma SetThenOccurred(s: State, t: Obj, v: Obj)
    ensures Occurred(SetObject(s, t, v)) == t
    ensures Occurred(SetString(s, t, "message")) == t
    ensures Occurred(SetNone(s, t)) == t
    ensures SetObject(s, t, v).operror.Raised?
  {
  }

  /** Fetch right after SetObject returns new references to exactly the type and
      value that were set, leaves the indicator empty, and the traceback `NULL`. */
  lemma SetThenFetch(s: State, t: Obj, v: Obj)
    requires Fresh(s) && Exists(s, t) && Exists(s, v)
    requires t != NoObj && v != NoObj
    requires Consistent(s, t) && Consistent(s, v)
    ensures var f := Fetch(SetObject(s, t, v));
      && Occurred(f.st) == NoObj
      && FromRef(f.st, f.ptype) == t && FromRef(f.st, f.pvalue) == v
      && f.ptraceback == Null
  {
    var s0 := SetObject(s, t, v).(operror := NoError);
    var (s1, pt) := MakeRef(s0, t, false);
    MakeRefFromRef(s0, t, false);
    MakeRefFromRef(s1, v, false);
  }

  /** The bridge maps agree on `w`, and its handle is live. */
  predicate Consistent(s: State, w: Obj) {
    w == NoObj ||
    (w in s.w2r && s.w2r[w] != Null && s.w2r[w] in s.heap && s.w2r[w] in s.r2w && s.r2w[s.w2r[w]] == w)
  }

  /** A pending exception whose type is `NULL` reads as no exception at all:
      PyErr_Occurred answers `NULL` for it. */
  predicate TypedIndicator(s: State) {
    s.operror.Raised? ==> s.operror.err.wType != NoObj
  }

  /** Fetch then Restore puts back exactly the state that was there: the same
      indicator and the same reference counts, whether or not an exception
      was pending. A pending exception's type and value must already have
      handles, since fetching an object without one creates its handle. */
  lemma {:induction false} FetchRestoreRoundTrip(s: State)
    requires Fresh(s) && IndicatorExists(s) && TypedIndicator(s)
    requires s.operror.Raised? ==> Consistent(s, s.operror.err.wType) && Consistent(s, s.operror.err.wValue)
    ensures var f := Fetch(s);
      var t := FromRef(f.st, f.ptype);
      var v := FromRef(f.st, f.pvalue);
      var tb := FromRef(f.st, f.ptraceback);
      OwnsRefs(f.st, [t, v, tb]) && Restore(f.st, t, v, tb) == s
  {
    if s.operror.NoError? {
      var f := Fetch(s);
      assert f.st == s && FromRef(s, Null) == NoObj;
      forall a | a in s.heap
        ensures Uses(s, [NoObj, NoObj, NoObj], a) == 0
      {
        UsesOfThree(s, NoObj, NoObj, a);
      }
      var r := Restore(s, NoObj, NoObj, NoObj);
      forall a | a in s.heap
        ensures r.heap[a] == s.heap[a]
      {
      }
      assert r.heap == s.heap;
    } else {
      FetchRestoreAsWrittenRoundTrip(s);
      var f := Fetch(s);
      var t := FromRef(f.st, f.ptype);
      var v := FromRef(f.st, f.pvalue);
      var tb := FromRef(f.st, f.ptraceback);
      assert t == s.operror.err.wType;
      RestoreAgreesWithType(f.st, t, v, tb);
    }
  }

  /** The code as written undoes a fetch of a pending exception. */
  lemma {:induction false} FetchRestoreAsWrittenRoundTrip(s: State)
    requires Fresh(s) && IndicatorExists(s) && s.operror.Raised?
    requires Consistent(s, s.operror.err.wType) && Consistent(s, s.operror.err.wValue)
    ensures var f := Fetch(s);
      var t := FromRef(f.st, f.ptype);
      var v := FromRef(f.st, f.pvalue);
      var tb := FromRef(f.st, f.ptraceback);
      && t == s.operror.err.wType && v == s.operror.err.wValue && tb == NoObj
      && OwnsRefs(f.st, [t, v, tb]) && RestoreAsWritten(f.st, t, v, tb) == s
  {
    var e := s.operror.err;
    var f := Fetch(s);
    FetchShape(s);
    var s2 := f.st;
    var ws := [e.wType, e.wValue, NoObj];
    assert FromRef(s2, f.ptype) == e.wType;
    assert FromRef(s2, f.pvalue) == e.wValue;
    assert FromRef(s2, f.ptraceback) == NoObj;
    forall a | a in s2.heap
      ensures Uses(s2, ws, a) + s.heap[a].refcnt == s2.heap[a].refcnt
    {
      UsesOfThree(s2, e.wType, e.wValue, a);
    }
    assert OwnsRefs(s2, ws);
    RestoreUndoesFetch(s, s2, e.wType, e.wValue);
  }

  /** The code as written does not undo a fetch when nothing was pending:
      restoring the three `NULL`s it fetched leaves an exception with a
      `NULL` type pending, where the state before had none. */
  lemma FetchRestoreAsWrittenLeavesError(s: State)
    requires Fresh(s) && s.operror == NoError
    ensures var f := Fetch(s);
      && f.ptype == Null && f.pvalue == Null && f.ptraceback == Null
      && OwnsRefs(f.st, [NoObj, NoObj, NoObj])
      && RestoreAsWritten(f.st, NoObj, NoObj, NoObj).operror == Raised(OpError(NoObj, NoObj))
      && RestoreAsWritten(f.st, NoObj, NoObj, NoObj) != s
  {
    forall a | a in s.heap
      ensures Uses(s, [NoObj, NoObj, NoObj], a) == 0
    {
      UsesOfThree(s, NoObj, NoObj, a);
    }
  }

  lemma RestoreUndoesFetch(s: State, s2: State, t: Obj, v: Obj)
    requires s.operror == Raised(OpError(t, v))
    requires s2.heap.Keys == s.heap.Keys
    requires forall a :: a in s.heap ==> s2.heap[a] == s.heap[a].(refcnt := s2.heap[a].refcnt)
    requires forall a :: a in s2.heap ==> Uses(s2, [t, v, NoObj], a) + s.heap[a].refcnt == s2.heap[a].refcnt
    requires s2.(heap := s.heap, operror := s.operror) == s
    ensures OwnsRefs(s2, [t, v, NoObj])
    ensures RestoreAsWritten(s2, t, v, NoObj) == s
  {
    var r := RestoreAsWritten(s2, t, v, NoObj);
    assert r.heap.Keys == s.heap.Keys;
    forall a | a in s.heap
      ensures r.heap[a] == s.heap[a]
    {
      assert r.heap[a].refcnt == s.heap[a].refcnt;
    }
    assert r.heap == s.heap;
  }

  lemma UsesOfThree(s: State, t: Obj, v: Obj, a: Addr)
    ensures Uses(s, [t, v, NoObj], a) ==
      (if a != Null && RefOf(s, t) == a then 1 else 0) + (if a != Null && RefOf(s, v) == a then 1 else 0)
  {
    assert [t, v, NoObj][1..] == [v, NoObj];
    assert [v, NoObj][1..] == [NoObj];
    assert [NoObj][1..] == [];
    assert Uses(s, [], a) == 0;
    assert Uses(s, [NoObj], a) == 0;
    assert Uses(s, [v, NoObj], a) == (if a != Null && RefOf(s, v) == a then 1 else 0);
  }

  /** What Fetch does to a consistent pending exception: one more reference to
      each of its handles, and nothing else besides clearing the indicator. */
  lemma FetchShape(s: State)
    requires Fresh(s) && IndicatorExists(s) && s.operror.Raised?
    requires Consistent(s, s.operror.err.wType) && Consistent(s, s.operror.err.wValue)
    ensures var f := Fetch(s);
      var pt := RefOf(s, s.operror.err.wType);
      var pv := RefOf(s, s.operror.err.wValue);
      && f.ptype == pt && f.pvalue == pv && f.ptraceback == Null
      && f.st == IncRef(IncRef(s.(operror := NoError), pt), pv)
      && f.st.w2r == s.w2r && f.st.r2w == s.r2w
      && f.st.heap.Keys == s.heap.Keys
      && (forall a :: a in s.heap ==> f.st.heap[a] == s.heap[a].(refcnt := f.st.heap[a].refcnt))
      && (forall a :: a in s.heap ==>
            f.st.heap[a].refcnt ==
            s.heap[a].refcnt + (if a != Null && pt == a then 1 else 0) + (if a != Null && pv == a then 1 else 0))
  {
  }

  /** A pending exception matches exactly what its type matches. */
  lemma ExceptionMatchesPending(s: State, sp: Space, t: Obj, v: Obj, exc: Obj)
    requires !sp.isExceptionInstance(t)
    ensures ExceptionMatches(SetObject(s, t, v), sp, exc) == 1 <==> sp.exceptionMatch(t, exc)
  {
  }

  /** Matching an exception instance is matching its class. */
  lemma InstanceMatchesLikeItsClass(sp: Space, inst: Obj, exc: Obj)
    requires sp.isExceptionInstance(inst)
    requires !sp.isExceptionInstance(sp.exceptionGetClass(inst))
    ensures GivenExceptionMatches(sp, inst, exc) == GivenExceptionMatches(sp, sp.exceptionGetClass(inst), exc)
  {
  }
}

=== FILE: rclass.dfy ===
/**
 The class and instance representations of the RPython typer, as far as they
 decide things on their own: the memoised repr tables, the choice of instance
 representation, the `_immutable_fields_` hints of a class and their
 consistency with the ancestors, the prebuilt-instance caches, the instance
 hash and the attribute walk up the `super` chain of a low-level instance.

 A class hierarchy is the chain of instance reprs from a class up to the root
 repr (the one without a class definition); each repr lists its own fields.
 */
module RClass {

  /** The exceptions the typer raises here; `AssertionFailure` is a failed `assert`. */
  datatype Exc =
    | TyperError(msg: string)
    | ImmutableConflictError(msg: string)
    | AttributeError(msg: string)
    | AssertionFailure

  datatype Attempt<+T> = Done(value: T) | Raise(exc: Exc)

  datatype Maybe<+T> = Nothing | Just(value: T)

  // ---- Memoised repr tables ----

  /** A class definition by name; `Root` stands for "no class definition". */
  datatype ClassKey = Root | ClassDef(name: string)

  datatype Flavor = Gc | Raw

  datatype TypeSystem = LlTypeSystem | OoTypeSystem

  /** The kind of instance repr buildinstancerepr chooses. */
  datatype InstanceKind = Virtualizable2Instance | TaggedInstance | PlainInstance(flavor: Flavor)

  /** A repr is an identity; instance reprs also record their kind. */
  datatype InstanceReprRef = InstanceReprRef(id: nat, kind: InstanceKind)

  /** The typer's memo tables, the reprs waiting for setup, and the next
      fresh identity. */
  datatype Typer = Typer(
    classReprs: map<ClassKey, nat>,
    instanceReprs: map<(ClassKey, Flavor), InstanceReprRef>,
    pendingSetup: seq<nat>,
    nextId: nat)

  /** Identities handed out so far lie below `nextId`. */
  predicate TyperFresh(t: Typer) {
    && (forall k :: k in t.classReprs ==> t.classReprs[k] < t.nextId)
    && (forall k :: k in t.instanceReprs ==> t.instanceReprs[k].id < t.nextId)
  }

  /** getclassrepr: the memoised class repr of a class definition; a new one
      is recorded and queued for setup. */
  function GetClassRepr(t: Typer, classdef: ClassKey): (r: (Typer, nat))
    requires TyperFresh(t)
    ensures TyperFresh(r.0)
    ensures classdef in r.0.classReprs && r.0.classReprs[classdef] == r.1
    ensures classdef in t.classReprs ==> r == (t, t.classReprs[classdef])
    ensures classdef !in t.classReprs ==>
      && r.1 !in t.classReprs.Values
      && r.0.pendingSetup == t.pendingSetup + [r.1]
      && r.0.classReprs == t.classReprs[classdef := r.1]
      && r.0.instanceReprs == t.instanceReprs
  {
    if classdef in t.classReprs then (t, t.classReprs[classdef])
    else
      var id := t.nextId;
      (t.(classReprs := t.classReprs[classdef := id], pendingSetup := t.pendingSetup + [id], nextId := id + 1), id)
  }

  /** A second getclassrepr for the same class definition returns the
      identical repr and changes nothing. */
  lemma GetClassReprMemoised(t: Typer, classdef: ClassKey)
    requires TyperFresh(t)
    ensures var (t1, r1) := GetClassRepr(t, classdef);
      GetClassRepr(t1, classdef) == (t1, r1)
  {
  }

  /** What buildinstancerepr knows of a class definition: how many of its
      subclasses are UnboxedValue classes and whether it is virtualizable2. */
  datatype ClassFacts = ClassFacts(unboxedSubclasses: nat, virtualizable2: bool)

  function FactsOf(classdef: ClassKey, facts: ClassKey -> ClassFacts): ClassFacts {
    if classdef.Root? then ClassFacts(0, false) else facts(classdef)
  }

  /** buildinstancerepr: the kind of instance repr for a class definition. */
  function BuildInstanceRepr(facts: ClassFacts, taggedPointers: bool, ts: TypeSystem, flavor: Flavor): (r: Attempt<InstanceKind>)
    ensures r == Done(Virtualizable2Instance) <==>
      facts.virtualizable2 && facts.unboxedSubclasses == 0 && flavor == Gc
    ensures r == Done(TaggedInstance) <==>
      !facts.virtualizable2 && facts.unboxedSubclasses == 1 && taggedPointers && ts == LlTypeSystem && flavor == Gc
    ensures r.Done? && r.value.PlainInstance? ==>
      r.value.flavor == flavor && !facts.virtualizable2 &&
      (facts.unboxedSubclasses == 0 || !taggedPointers || ts.OoTypeSystem?)
    ensures r.Raise? && r.exc.TyperError? <==>
      !facts.virtualizable2 && facts.unboxedSubclasses > 1 && taggedPointers && ts == LlTypeSystem
    ensures r.Raise? ==> r.exc.TyperError? || r.exc == AssertionFailure
  {
    var useTagging := facts.unboxedSubclasses != 0 && taggedPointers;
    if facts.virtualizable2 then
      if facts.unboxedSubclasses != 0 || flavor != Gc then Raise(AssertionFailure)
      else Done(Virtualizable2Instance)
    else if useTagging && ts == LlTypeSystem then
      if facts.unboxedSubclasses != 1 then Raise(TyperError("has several UnboxedValue subclasses"))
      else if flavor != Gc then Raise(AssertionFailure)
      else Done(TaggedInstance)
    else Done(PlainInstance(flavor))
  }

  /** The typer's configuration and its view of the class definitions. */
  datatype TyperConfig = TyperConfig(
    taggedPointers: bool,
    ts: TypeSystem,
    gcFlavor: ClassKey -> Flavor,
    facts: ClassKey -> ClassFacts)

  /** getinstancerepr: the memoised instance repr of a class definition for
      its flavor (the default flavor when there is no class definition). A
      build that raises records nothing. */
  function GetInstanceRepr(t: Typer, cfg: TyperConfig, classdef: ClassKey, defaultFlavor: Flavor): (r: Attempt<(Typer, InstanceReprRef)>)
    requires TyperFresh(t)
    ensures var flavor := if classdef.Root? then defaultFlavor else cfg.gcFlavor(classdef);
      && ((classdef, flavor) in t.instanceReprs ==> r == Done((t, t.instanceReprs[(classdef, flavor)])))
      && ((classdef, flavor) !in t.instanceReprs ==>
            match BuildInstanceRepr(FactsOf(classdef, cfg.facts), cfg.taggedPointers, cfg.ts, flavor)
            case Raise(e) => r == Raise(e)
            case Done(kind) =>
              && r.Done?
              && r.value.1.kind == kind
              && r.value.0.instanceReprs == t.instanceReprs[(classdef, flavor) := r.value.1]
              && r.value.0.pendingSetup == t.pendingSetup + [r.value.1.id]
              && r.value.0.classReprs == t.classReprs)
    ensures r.Done? ==> TyperFresh(r.value.0)
  {
    var flavor := if classdef.Root? then defaultFlavor else cfg.gcFlavor(classdef);
    if (classdef, flavor) in t.instanceReprs then Done((t, t.instanceReprs[(classdef, flavor)]))
    else
      match BuildInstanceRepr(FactsOf(classdef, cfg.facts), cfg.taggedPointers, cfg.ts, flavor)
      case Raise(e) => Raise(e)
      case Done(kind) =>
        var rr := InstanceReprRef(t.nextId, kind);
        Done((t.(instanceReprs := t.instanceReprs[(classdef, flavor) := rr],
                 pendingSetup := t.pendingSetup + [rr.id],
                 nextId := t.nextId + 1), rr))
  }

  /** A second getinstancerepr for the same class definition returns the
      identical repr and changes nothing. */
  lemma GetInstanceReprMemoised(t: Typer, cfg: TyperConfig, classdef: ClassKey, defaultFlavor: Flavor)
    requires TyperFresh(t)
    requires GetInstanceRepr(t, cfg, classdef, defaultFlavor).Done?
    ensures var (t1, r1) := GetInstanceRepr(t, cfg, classdef, defaultFlavor).value;
      GetInstanceRepr(t1, cfg, classdef, defaultFlavor) == Done((t1, r1))
  {
  }

  // ---- Immutable-field hints ----

  /** A field of an instance struct: its name, its mangled name and whether its
      low-level type is Void. */
  datatype Field = Field(name: string, mangled: string, isVoid: bool)

  /** The accessor hint: `fields` (mangled name to suffix) is absent until
      the accessor is initialised. */
  datatype Accessor = Accessor(fields: Maybe<map<string, string>>)

  /** An instance repr: its class name, whether it is the root, its own fields
      in declaration order, its own `_immutable_fields_` list, and the hints of
      its struct (`immutable`, and the `immutable_fields` accessor). */
  datatype InstanceRepr = InstanceRepr(
    classname: string,
    isRoot: bool,
    fields: seq<Field>,
    immutableFieldList: seq<string>,
    immutableHint: bool,
    accessor: Maybe<Accessor>)

  /** A class chain: a repr followed by its `rbase`, its `rbase`'s `rbase`, ...,
      ending at the root repr and nowhere else. */
  predicate IsChain(c: seq<InstanceRepr>) {
    && |c| > 0
    && c[|c| - 1].isRoot
    && forall i :: 0 <= i < |c| - 1 ==> !c[i].isRoot
  }

  lemma ChainSuffix(c: seq<InstanceRepr>, i: nat)
    requires IsChain(c) && i < |c|
    ensures IsChain(c[i..])
  {
  }

  /** `_get_field`: the mangled name of one of the repr's own fields. */
  function GetField(r: InstanceRepr, name: string): (res: Maybe<Field>)
    ensures res.Just? ==> res.value in r.fields && res.value.name == name
    ensures res.Nothing? <==> forall f :: f in r.fields ==> f.name != name
  {
    GetFieldFrom(r.fields, name)
  }

  function GetFieldFrom(fs: seq<Field>, name: string): (res: Maybe<Field>)
    ensures res.Just? ==> res.value in fs && res.value.name == name
    ensures res.Nothing? <==> forall f :: f in fs ==> f.name != name
  {
    if |fs| == 0 then Nothing
    else if fs[0].name == name then Just(fs[0])
    else GetFieldFrom(fs[1..], name)
  }

  const ArraySuffix: string := "[*]"

  predicate EndsWithArraySuffix(s: string) {
    |s| >= 3 && s[|s| - 3..] == ArraySuffix
  }

  /** An `_immutable_fields_` entry split into the field name and its suffix:
      a trailing `[*]` is removed and kept as the suffix, any other entry has
      the empty suffix. */
  function SplitSuffix(entry: string): (r: (string, string))
    ensures r.1 == ArraySuffix || r.1 == ""
    ensures r.1 == ArraySuffix <==> EndsWithArraySuffix(entry)
  {
    if EndsWithArraySuffix(entry) then (entry[..|entry| - 3], ArraySuffix) else (entry, "")
  }

  /** The two parts put together give the entry back. */
  lemma SplitSuffixJoins(entry: string)
    ensures SplitSuffix(entry).0 + SplitSuffix(entry).1 == entry
  {
    if EndsWithArraySuffix(entry) {
      assert entry == entry[..|entry| - 3] + entry[|entry| - 3..];
    }
  }

  /** A field name with `[*]` appended splits back into the name and `[*]`. */
  lemma SplitSuffixOfArrayEntry(name: string)
    ensures SplitSuffix(name + ArraySuffix) == (name, ArraySuffix)
  {
    assert (name + ArraySuffix)[..|name|] == name;
    assert (name + ArraySuffix)[|name|..] == ArraySuffix;
  }

  /** The mangled name an entry names among the repr's own fields, if any. */
  function EntryTarget(r: InstanceRepr, entry: string): Maybe<string> {
    match GetField(r, SplitSuffix(entry).0)
    case Nothing => Nothing
    case Just(f) => Just(f.mangled)
  }

  /** The fold of `_parse_field_list` for a given reading of each entry: the
      field it names, if any, and its suffix. Later entries override
      earlier ones. */
  function ParseEntries(target: string -> Maybe<string>, suffix: string -> string, entries: seq<string>): (m: map<string, string>)
    decreases |entries|
  {
    if |entries| == 0 then map[]
    else
      var m0 := ParseEntries(target, suffix, entries[..|entries| - 1]);
      match target(entries[|entries| - 1])
      case Nothing => m0
      case Just(k) => m0[k := suffix(entries[|entries| - 1])]
  }

  /** The readings `_parse_field_list` gives an entry. */
  function TargetOf(r: InstanceRepr): string -> Maybe<string> {
    e => EntryTarget(r, e)
  }

  function SuffixOf(e: string): string {
    SplitSuffix(e).1
  }

  /** `_parse_field_list`: the hint map from mangled field name to suffix;
      an entry that names no own field is dropped. */
  function ParseFieldList(r: InstanceRepr, entries: seq<string>): map<string, string> {
    ParseEntries(TargetOf(r), SuffixOf, entries)
  }

  /** The entry of the list that decides field `k`: the last one naming it. */
  predicate LastEntryFor(target: string -> Maybe<string>, entries: seq<string>, k: string, i: int) {
    && 0 <= i < |entries|
    && target(entries[i]) == Just(k)
    && forall j :: i < j < |entries| ==> target(entries[j]) != Just(k)
  }

  /** The parsed map lists exactly the fields some entry names. */
  lemma {:induction false} ParseEntriesKeys(target: string -> Maybe<string>, suffix: string -> string, entries: seq<string>, k: string)
    ensures k in ParseEntries(target, suffix, entries) <==>
      exists i :: 0 <= i < |entries| && target(entries[i]) == Just(k)
    decreases |entries|
  {
    if |entries| > 0 {
      var n := |entries| - 1;
      var prefix := entries[..n];
      ParseEntriesKeys(target, suffix, prefix, k);
      if target(entries[n]) != Just(k) {
        if k in ParseEntries(target, suffix, prefix) {
          var i :| 0 <= i < n && target(prefix[i]) == Just(k);
          assert entries[i] == prefix[i];
        }
        if exists i :: 0 <= i < |entries| && target(entries[i]) == Just(k) {
          var i :| 0 <= i < |entries| && target(entries[i]) == Just(k);
          assert prefix[i] == entries[i];
        }
      }
    }
  }

  /** Each listed field carries the suffix of the last entry naming it. */
  lemma {:induction false} ParseEntriesLastWins(target: string -> Maybe<string>, suffix: string -> string, entries: seq<string>, k: string)
    requires k in ParseEntries(target, suffix, entries)
    ensures exists i :: LastEntryFor(target, entries, k, i) && ParseEntries(target, suffix, entries)[k] == suffix(entries[i])
    decreases |entries|
  {
    var n := |entries| - 1;
    var prefix := entries[..n];
    if target(entries[n]) == Just(k) {
      assert LastEntryFor(target, entries, k, n);
    } else {
      ParseEntriesLastWins(target, suffix, prefix, k);
      var i :| LastEntryFor(target, prefix, k, i) && ParseEntries(target, suffix, prefix)[k] == suffix(prefix[i]);
      assert entries[i] == prefix[i];
      assert forall j :: i < j < n ==> entries[j] == prefix[j];
      assert LastEntryFor(target, entries, k, i);
    }
  }

  /** `_parse_field_list` keeps exactly the fields the entries name among the
      repr's own fields, each with the suffix of the last entry naming it. */
  lemma ParseFieldListMeaning(r: InstanceRepr, entries: seq<string>, k: string)
    ensures k in ParseFieldList(r, entries) <==>
      exists i :: 0 <= i < |entries| && EntryTarget(r, entries[i]) == Just(k)
    ensures k in ParseFieldList(r, entries) ==> exists i ::
      && LastEntryFor(TargetOf(r), entries, k, i)
      && ParseFieldList(r, entries)[k] == SplitSuffix(entries[i]).1
    ensures k in ParseFieldList(r, entries) ==> ParseFieldList(r, entries)[k] in {"", ArraySuffix}
  {
    ParseEntriesKeys(TargetOf(r), SuffixOf, entries, k);
    if k in ParseFieldList(r, entries) {
      ParseEntriesLastWins(TargetOf(r), SuffixOf, entries, k);
    }
  }

  /** The concatenation of the `_immutable_fields_` lists up the chain to the
      root (the root contributes nothing). */
  function AccumulatedFieldList(c: seq<InstanceRepr>): (r: seq<string>)
    requires IsChain(c)
    ensures forall e :: e in r <==> exists i :: 0 <= i < |c| - 1 && e in c[i].immutableFieldList
    decreases |c|
  {
    if c[0].isRoot then []
    else
      ChainSuffix(c, 1);
      var rest := AccumulatedFieldList(c[1..]);
      assert forall i :: 1 <= i < |c| ==> c[i] == c[1..][i - 1];
      c[0].immutableFieldList + rest
  }

  /** `_setup_immutable_field_list` on the repr at position `i` of the chain:
      an accessor not yet initialised gets the parsed accumulated list. */
  function SetupImmutableFieldList(c: seq<InstanceRepr>, i: nat): (r: seq<InstanceRepr>)
    requires IsChain(c) && i < |c|
    ensures IsChain(r) && |r| == |c|
    ensures forall j :: 0 <= j < |c| && j != i ==> r[j] == c[j]
    ensures r[i].(accessor := c[i].accessor) == c[i]
    ensures c[i].accessor.Just? && c[i].accessor.value.fields.Nothing? ==>
      r[i].accessor == Just(Accessor(Just(ParseFieldList(c[i], AccumulatedFieldList(c[i..])))))
    ensures c[i].accessor.Nothing? || c[i].accessor.value.fields.Just? ==> r == c
  {
    ChainSuffix(c, i);
    if c[i].accessor.Just? && c[i].accessor.value.fields.Nothing? then
      c[i := c[i].(accessor := Just(Accessor(Just(ParseFieldList(c[i], AccumulatedFieldList(c[i..]))))))]
    else c
  }

  /** Setting up twice is setting up once. */
  lemma SetupIdempotent(c: seq<InstanceRepr>, i: nat)
    requires IsChain(c) && i < |c|
    ensures SetupImmutableFieldList(SetupImmutableFieldList(c, i), i) == SetupImmutableFieldList(c, i)
  {
  }

  /** The accessor set up at position `i` depends only on the chain from `i`
      upwards. */
  lemma SetupDependsOnSuffix(c: seq<InstanceRepr>, d: seq<InstanceRepr>, i: nat, j: nat)
    requires IsChain(c) && IsChain(d) && i < |c| && j < |d| && c[i..] == d[j..]
    ensures SetupImmutableFieldList(c, i)[i] == SetupImmutableFieldList(d, j)[j]
  {
    assert c[i] == c[i..][0] && d[j] == d[j..][0];
  }

  /** The entry that decides the suffix of field `k` in the list accumulated
      from position `i` of the chain: entry `e` of the repr at position `j`,
      the last of that repr's entries naming `k`, with no repr nearer the
      root naming `k` at all. */
  predicate DecidingEntry(c: seq<InstanceRepr>, i: nat, target: string -> Maybe<string>, k: string, j: nat, e: nat)
    requires IsChain(c)
  {
    && i <= j < |c| - 1
    && LastEntryFor(target, c[j].immutableFieldList, k, e)
    && forall j', e' :: j < j' < |c| - 1 && 0 <= e' < |c[j'].immutableFieldList| ==>
         target(c[j'].immutableFieldList[e']) != Just(k)
  }

  /** The last entry naming `k` in the accumulated list is the deciding
      entry: the list runs from the subclass to the root, so the repr nearest
      the root that names `k` has the last word. */
  lemma {:induction false} LastInAccumulated(c: seq<InstanceRepr>, target: string -> Maybe<string>, k: string, n: nat)
    requires IsChain(c) && LastEntryFor(target, AccumulatedFieldList(c), k, n)
    ensures exists j: nat, e: nat :: DecidingEntry(c, 0, target, k, j, e) && AccumulatedFieldList(c)[n] == c[j].immutableFieldList[e]
    decreases |c|
  {
    var acc := AccumulatedFieldList(c);
    if !c[0].isRoot {
      ChainSuffix(c, 1);
      var own := c[0].immutableFieldList;
      var rest := AccumulatedFieldList(c[1..]);
      assert acc == own + rest;
      if n < |own| {
        assert acc[n] == own[n];
        forall j', e' | 0 < j' < |c| - 1 && 0 <= e' < |c[j'].immutableFieldList|
          ensures target(c[j'].immutableFieldList[e']) != Just(k)
        {
          var entry := c[j'].immutableFieldList[e'];
          assert c[1..][j' - 1] == c[j'];
          assert entry in rest;
          var m :| 0 <= m < |rest| && rest[m] == entry;
          assert acc[|own| + m] == entry;
        }
        forall m | n < m < |own|
          ensures target(own[m]) != Just(k)
        {
          assert acc[m] == own[m];
        }
        assert DecidingEntry(c, 0, target, k, 0, n);
      } else {
        var m := n - |own|;
        forall m' | m < m' < |rest|
          ensures target(rest[m']) != Just(k)
        {
          assert acc[|own| + m'] == rest[m'];
        }
        assert rest[m] == acc[n];
        assert LastEntryFor(target, rest, k, m);
        LastInAccumulated(c[1..], target, k, m);
        var j: nat, e: nat :| DecidingEntry(c[1..], 0, target, k, j, e) && rest[m] == c[1..][j].immutableFieldList[e];
        assert c[1..][j] == c[j + 1];
        forall j', e' | j + 1 < j' < |c| - 1 && 0 <= e' < |c[j'].immutableFieldList|
          ensures target(c[j'].immutableFieldList[e']) != Just(k)
        {
          assert c[1..][j' - 1] == c[j'];
        }
        assert DecidingEntry(c, 0, target, k, j + 1, e);
      }
    }
  }

  /** `_setup_immutable_field_list` gathers the lists from the subclass up to
      the root, so when several reprs list the same field the one nearest the
      root decides its suffix, and within that repr its last entry does. */
  lemma SetupSuffixFromNearestRoot(c: seq<InstanceRepr>, i: nat, k: string)
    requires IsChain(c) && i < |c|
    requires c[i].accessor.Just? && c[i].accessor.value.fields.Nothing?
    requires k in ParseFieldList(c[i], AccumulatedFieldList(c[i..]))
    ensures var fields := SetupImmutableFieldList(c, i)[i].accessor.value.fields.value;
      exists j: nat, e: nat ::
        && DecidingEntry(c, i, TargetOf(c[i]), k, j, e)
        && fields[k] == SplitSuffix(c[j].immutableFieldList[e]).1
  {
    ChainSuffix(c, i);
    var d := c[i..];
    var target := TargetOf(c[i]);
    ParseEntriesLastWins(target, SuffixOf, AccumulatedFieldList(d), k);
    var n :| LastEntryFor(target, AccumulatedFieldList(d), k, n)
      && ParseFieldList(c[i], AccumulatedFieldList(d))[k] == SuffixOf(AccumulatedFieldList(d)[n]);
    LastInAccumulated(d, target, k, n);
    var j: nat, e: nat :| DecidingEntry(d, 0, target, k, j, e) && AccumulatedFieldList(d)[n] == d[j].immutableFieldList[e];
    assert d[j] == c[i + j];
    forall j', e' | i + j < j' < |c| - 1 && 0 <= e' < |c[j'].immutableFieldList|
      ensures target(c[j'].immutableFieldList[e']) != Just(k)
    {
      assert d[j' - i] == c[j'];
    }
    assert DecidingEntry(c, i, target, k, i + j, e);
  }

  /** `_immutable_field` of a struct: immutable as a whole, or the field is
      listed by an initialised accessor. */
  predicate ImmutableField(r: InstanceRepr, mangled: string) {
    || r.immutableHint
    || (r.accessor.Just? && r.accessor.value.fields.Just? && mangled in r.accessor.value.fields.value)
  }

  /** A field an ancestor (position `j` >= 1) defines as mutable and non-Void,
      judged after the ancestor's accessor is set up. */
  predicate MutableAncestorField(c: seq<InstanceRepr>, j: nat, f: Field)
    requires IsChain(c)
  {
    && 1 <= j < |c|
    && f in c[j].fields
    && !f.isVoid
    && !ImmutableField(SetupImmutableFieldList(c, j)[j], f.mangled)
  }

  /** How the repr at the bottom of the chain conflicts with an ancestor's
      mutable field; `listed` is the test of the field name against its own
      `_immutable_fields_` list. */
  predicate Conflicts(self: InstanceRepr, f: Field, listed: (seq<string>, string) -> bool) {
    self.immutableHint || listed(self.immutableFieldList, f.name)
  }

  /** The membership test as written: the field name against the raw entries,
      suffix and all. */
  predicate ListedAsWritten(entries: seq<string>, name: string) {
    name in entries
  }

  /** The membership test on field names: entries with their `[*]` suffix removed. */
  predicate ListedByName(entries: seq<string>, name: string) {
    exists i :: 0 <= i < |entries| && SplitSuffix(entries[i]).0 == name
  }

  function ConflictMessage(self: InstanceRepr, base: InstanceRepr, f: Field): Exc {
    if self.immutableHint then
      ImmutableConflictError("class " + self.classname + " has _immutable_=True, but parent class "
        + base.classname + " defines (at least) the mutable field " + f.name)
    else
      ImmutableConflictError("field " + f.name + " is defined mutable in class " + base.classname
        + ", but listed in _immutable_fields_ in subclass " + self.classname)
  }

  /** The scan of one ancestor's fields from position `k`, setting up the
      ancestor's accessor when it meets a non-Void field. */
  function CheckFields(c: seq<InstanceRepr>, j: nat, k: nat, listed: (seq<string>, string) -> bool): (r: (seq<InstanceRepr>, Maybe<Exc>))
    requires IsChain(c) && 1 <= j < |c| && k <= |c[j].fields|
    ensures IsChain(r.0) && |r.0| == |c|
    ensures forall i :: 0 <= i < |c| && i != j ==> r.0[i] == c[i]
    ensures r.0[j].(accessor := c[j].accessor) == c[j]
    ensures SetupImmutableFieldList(r.0, j)[j] == SetupImmutableFieldList(c, j)[j]
    ensures r.1.Just? ==> r.1.value.ImmutableConflictError?
    decreases |c[j].fields| - k
  {
    if k == |c[j].fields| then (c, Nothing)
    else
      var f := c[j].fields[k];
      if f.isVoid then CheckFields(c, j, k + 1, listed)
      else
        var c1 := SetupImmutableFieldList(c, j);
        SetupIdempotent(c, j);
        if ImmutableField(c1[j], f.mangled) then CheckFields(c1, j, k + 1, listed)
        else if c[0].immutableHint || listed(c[0].immutableFieldList, f.name) then
          (c1, Just(ConflictMessage(c[0], c[j], f)))
        else CheckFields(c1, j, k + 1, listed)
  }

  /** A conflicting field of ancestor `j` at position `m` or beyond. */
  predicate ConflictFrom(c: seq<InstanceRepr>, j: nat, k: nat, listed: (seq<string>, string) -> bool, m: int)
    requires IsChain(c) && 1 <= j < |c|
  {
    k <= m < |c[j].fields| && MutableAncestorField(c, j, c[j].fields[m]) && Conflicts(c[0], c[j].fields[m], listed)
  }

  /** The scan reports a conflict exactly when one of the remaining fields
      conflicts, and reports the first such field. */
  lemma {:induction false} CheckFieldsMeaning(c: seq<InstanceRepr>, j: nat, k: nat, listed: (seq<string>, string) -> bool)
    requires IsChain(c) && 1 <= j < |c| && k <= |c[j].fields|
    ensures CheckFields(c, j, k, listed).1.Nothing? <==> forall m :: !ConflictFrom(c, j, k, listed, m)
    ensures CheckFields(c, j, k, listed).1.Just? ==> exists m ::
      && ConflictFrom(c, j, k, listed, m)
      && CheckFields(c, j, k, listed).1.value == ConflictMessage(c[0], c[j], c[j].fields[m])
    decreases |c[j].fields| - k
  {
    if k == |c[j].fields| {
      assert CheckFields(c, j, k, listed).1.Nothing?;
    } else {
      var c1 := FieldStep(c, j, k, k + 1, listed);
      if ConflictFrom(c, j, k, listed, k) {
        assert CheckFields(c, j, k, listed).1.Just?;
      } else {
        CheckFieldsMeaning(c1, j, k + 1, listed);
        if CheckFields(c1, j, k + 1, listed).1.Just? {
          var m :| ConflictFrom(c1, j, k + 1, listed, m)
            && CheckFields(c1, j, k + 1, listed).1.value == ConflictMessage(c1[0], c1[j], c1[j].fields[m]);
          assert ConflictFrom(c, j, k, listed, m);
        }
      }
    }
  }

  /** One field of the scan: a conflict there is reported at once; otherwise
      the scan goes on at the next field in a chain `c1` that differs from `c`
      at most in the ancestor's set-up accessor, and where the remaining
      fields conflict exactly as they do in `c`. */
  lemma FieldStep(c: seq<InstanceRepr>, j: nat, k: nat, k1: nat, listed: (seq<string>, string) -> bool) returns (c1: seq<InstanceRepr>)
    requires IsChain(c) && 1 <= j < |c| && k < |c[j].fields| && k1 == k + 1
    ensures IsChain(c1) && |c1| == |c| && c1[0] == c[0]
    ensures c1[j].fields == c[j].fields && c1[j].classname == c[j].classname
    ensures ConflictFrom(c, j, k, listed, k) ==>
      CheckFields(c, j, k, listed).1 == Just(ConflictMessage(c[0], c[j], c[j].fields[k]))
    ensures !ConflictFrom(c, j, k, listed, k) ==>
      CheckFields(c, j, k, listed).1 == CheckFields(c1, j, k1, listed).1
    ensures forall m :: ConflictFrom(c1, j, k1, listed, m) <==> ConflictFrom(c, j, k1, listed, m)
    ensures forall m :: ConflictFrom(c, j, k, listed, m) <==> (m == k && ConflictFrom(c, j, k, listed, k)) || ConflictFrom(c, j, k1, listed, m)
  {
    var f := c[j].fields[k];
    var s1 := SetupImmutableFieldList(c, j);
    SetupIdempotent(c, j);
    assert s1[j].fields == c[j].fields && s1[0] == c[0];
    assert forall m :: ConflictFrom(s1, j, k1, listed, m) <==> ConflictFrom(c, j, k1, listed, m);
    c1 := if f.isVoid then c else s1;
  }

  /** The walk up the chain from ancestor `j`, scanning each ancestor's fields
      until one conflicts. */
  function CheckAncestors(c: seq<InstanceRepr>, j: nat, listed: (seq<string>, string) -> bool): (r: (seq<InstanceRepr>, Maybe<Exc>))
    requires IsChain(c) && 1 <= j <= |c|
    ensures IsChain(r.0) && |r.0| == |c| && r.0[0] == c[0]
    ensures forall i :: 0 <= i < j ==> r.0[i] == c[i]
    ensures r.1.Just? ==> r.1.value.ImmutableConflictError?
    decreases |c| - j
  {
    if j == |c| then (c, Nothing)
    else
      var scanned := CheckFields(c, j, 0, listed);
      if scanned.1.Just? then scanned else CheckAncestors(scanned.0, j + 1, listed)
  }

  /** A conflict from ancestor `j` upwards. */
  ghost predicate ConflictAbove(c: seq<InstanceRepr>, j: nat, listed: (seq<string>, string) -> bool)
    requires IsChain(c)
  {
    exists a, m :: j <= a < |c| && 1 <= a && ConflictFrom(c, a, 0, listed, m)
  }

  /** Scanning one ancestor leaves what the others decide unchanged. */
  lemma ScanKeepsLaterAncestors(c: seq<InstanceRepr>, c1: seq<InstanceRepr>, j: nat, listed: (seq<string>, string) -> bool)
    requires IsChain(c) && IsChain(c1) && 1 <= j < |c| == |c1|
    requires c1[0] == c[0] && forall i :: 0 <= i < |c| && i != j ==> c1[i] == c[i]
    ensures forall a, m :: j < a < |c| ==> (ConflictFrom(c1, a, 0, listed, m) <==> ConflictFrom(c, a, 0, listed, m))
  {
    forall a | j < a < |c|
      ensures SetupImmutableFieldList(c1, a)[a] == SetupImmutableFieldList(c, a)[a]
    {
      assert c1[a..] == c[a..];
      SetupDependsOnSuffix(c1, c, a, a);
    }
  }

  /** The walk reports a conflict exactly when some ancestor from `j` upwards
      has a conflicting field. */
  lemma {:induction false} CheckAncestorsMeaning(c: seq<InstanceRepr>, j: nat, listed: (seq<string>, string) -> bool)
    requires IsChain(c) && 1 <= j <= |c|
    ensures CheckAncestors(c, j, listed).1.Nothing? <==> !ConflictAbove(c, j, listed)
    decreases |c| - j, 2
  {
    if j == |c| {
      WalkEndsClean(c, listed);
    } else {
      WalkFromAncestor(c, j, listed);
    }
  }

  /** The walk from an ancestor that is still on the chain: it stops at a
      conflict there, and otherwise goes on in the chain the scan left. */
  lemma {:induction false} WalkFromAncestor(c: seq<InstanceRepr>, j: nat, listed: (seq<string>, string) -> bool)
    requires IsChain(c) && 1 <= j < |c|
    ensures CheckAncestors(c, j, listed).1.Nothing? <==> !ConflictAbove(c, j, listed)
    decreases |c| - j, 1
  {
    if CheckFields(c, j, 0, listed).1.Just? {
      WalkStops(c, j, listed);
    } else {
      WalkGoesOn(c, j, listed);
    }
  }

  /** A conflict at ancestor `j` is reported there. */
  lemma WalkStops(c: seq<InstanceRepr>, j: nat, listed: (seq<string>, string) -> bool)
    requires IsChain(c) && 1 <= j < |c|
    requires CheckFields(c, j, 0, listed).1.Just?
    ensures CheckAncestors(c, j, listed).1.Just? && ConflictAbove(c, j, listed)
  {
    CheckFieldsMeaning(c, j, 0, listed);
    var m :| ConflictFrom(c, j, 0, listed, m);
    assert ConflictAbove(c, j, listed);
  }

  /** With no conflict at ancestor `j`, the walk goes on from `j + 1`. */
  lemma {:induction false} WalkGoesOn(c: seq<InstanceRepr>, j: nat, listed: (seq<string>, string) -> bool)
    requires IsChain(c) && 1 <= j < |c|
    requires CheckFields(c, j, 0, listed).1.Nothing?
    ensures CheckAncestors(c, j, listed).1.Nothing? <==> !ConflictAbove(c, j, listed)
    decreases |c| - j, 0
  {
    NoConflictAtAncestor(c, j, listed);
    CheckAncestorsMeaning(CheckFields(c, j, 0, listed).0, j + 1, listed);
  }

  /** Past the last ancestor the walk reports nothing, and there is nothing to report. */
  lemma WalkEndsClean(c: seq<InstanceRepr>, listed: (seq<string>, string) -> bool)
    requires IsChain(c) && 1 <= |c|
    ensures CheckAncestors(c, |c|, listed).1.Nothing? && !ConflictAbove(c, |c|, listed)
  {
  }

  /** With no conflict at ancestor `j` the walk goes on from `j + 1`, and
      what it finds there is what it would have found in the original chain. */
  lemma NoConflictAtAncestor(c: seq<InstanceRepr>, j: nat, listed: (seq<string>, string) -> bool)
    requires IsChain(c) && 1 <= j < |c|
    requires CheckFields(c, j, 0, listed).1.Nothing?
    ensures var c1 := CheckFields(c, j, 0, listed).0;
      && CheckAncestors(c, j, listed).1 == CheckAncestors(c1, j + 1, listed).1
      && (ConflictAbove(c, j, listed) <==> ConflictAbove(c1, j + 1, listed))
  {
    var c1 := CheckFields(c, j, 0, listed).0;
    assert CheckAncestors(c, j, listed) == CheckAncestors(c1, j + 1, listed);
    CheckFieldsMeaning(c, j, 0, listed);
    ScanKeepsLaterAncestors(c, c1, j, listed);
    ConflictAboveStep(c, c1, j, listed);
  }

  /** With no conflict at ancestor `j`, a conflict from `j` upwards is one
      from `j + 1` upwards, in the chain before or after the scan of `j`. */
  lemma ConflictAboveStep(c: seq<InstanceRepr>, c1: seq<InstanceRepr>, j: nat, listed: (seq<string>, string) -> bool)
    requires IsChain(c) && IsChain(c1) && 1 <= j < |c| == |c1|
    requires forall m :: !ConflictFrom(c, j, 0, listed, m)
    requires forall a, m :: j < a < |c| ==> (ConflictFrom(c1, a, 0, listed, m) <==> ConflictFrom(c, a, 0, listed, m))
    ensures ConflictAbove(c, j, listed) <==> ConflictAbove(c1, j + 1, listed)
  {
    if ConflictAbove(c, j, listed) {
      var a, m :| j <= a < |c| && 1 <= a && ConflictFrom(c, a, 0, listed, m);
      assert ConflictFrom(c1, a, 0, listed, m);
    }
    if ConflictAbove(c1, j + 1, listed) {
      var a, m :| j + 1 <= a < |c1| && 1 <= a && ConflictFrom(c1, a, 0, listed, m);
      assert ConflictFrom(c, a, 0, listed, m);
    }
  }

  /** `_check_for_immutable_conflicts` as written: the ancestors' accessors
      are set up on the way, and the first conflict raises. */
  function CheckImmutableConflictsAsWritten(c: seq<InstanceRepr>): (r: Attempt<seq<InstanceRepr>>)
    requires IsChain(c)
    ensures r.Done? ==> IsChain(r.value) && |r.value| == |c| && r.value[0] == c[0]
    ensures r.Raise? ==> r.exc.ImmutableConflictError?
  {
    var (c1, e) := CheckAncestors(c, 1, ListedAsWritten);
    if e.Just? then Raise(e.value) else Done(c1)
  }

  /** `_check_for_immutable_conflicts` with the subclass's own entries read as
      field names, `[*]` suffix removed. */
  function CheckImmutableConflicts(c: seq<InstanceRepr>): (r: Attempt<seq<InstanceRepr>>)
    requires IsChain(c)
    ensures r.Done? ==> IsChain(r.value) && |r.value| == |c| && r.value[0] == c[0]
    ensures r.Raise? ==> r.exc.ImmutableConflictError?
  {
    var (c1, e) := CheckAncestors(c, 1, ListedByName);
    if e.Just? then Raise(e.value) else Done(c1)
  }

  /** The check raises exactly when an ancestor defines a mutable, non-Void
      field (not listed by the ancestor's own hints) and the class is
      `_immutable_` as a whole or names that field in its own
      `_immutable_fields_`. */
  lemma CheckImmutableConflictsMeaning(c: seq<InstanceRepr>)
    requires IsChain(c)
    ensures CheckImmutableConflicts(c).Raise? <==> exists a, f ::
      && 1 <= a < |c| && MutableAncestorField(c, a, f)
      && (c[0].immutableHint || ListedByName(c[0].immutableFieldList, f.name))
  {
    CheckAncestorsMeaning(c, 1, ListedByName);
    if exists a, f :: 1 <= a < |c| && MutableAncestorField(c, a, f) &&
        (c[0].immutableHint || ListedByName(c[0].immutableFieldList, f.name)) {
      var a, f :| 1 <= a < |c| && MutableAncestorField(c, a, f) &&
        (c[0].immutableHint || ListedByName(c[0].immutableFieldList, f.name));
      var m :| 0 <= m < |c[a].fields| && c[a].fields[m] == f;
      assert ConflictFrom(c, a, 0, ListedByName, m);
    }
  }

  /** A three-class hierarchy: `A` has a mutable field `x`, its subclass `B`
      lists `x[*]` in `_immutable_fields_`. */
  function SuffixedShadowingChain(): (c: seq<InstanceRepr>)
    ensures IsChain(c)
  {
    [ InstanceRepr("B", false, [], ["x[*]"], false, Nothing),
      InstanceRepr("A", false, [Field("x", "inst_x", false)], [], false, Nothing),
      InstanceRepr("object", true, [], [], false, Nothing) ]
  }

  /** Declaring `x[*]` over an ancestor's mutable `x` slips past the check as
      written, because the raw entry `x[*]` is compared with the name `x`. */
  lemma SuffixedEntryEscapesCheck()
    ensures CheckImmutableConflictsAsWritten(SuffixedShadowingChain()).Done?
  {
    var c := SuffixedShadowingChain();
    assert SetupImmutableFieldList(c, 1) == c;
    assert !ListedAsWritten(c[0].immutableFieldList, "x") by {
      assert c[0].immutableFieldList == ["x[*]"];
      assert "x" != "x[*]";
    }
    assert CheckFields(c, 1, 1, ListedAsWritten) == (c, Nothing);
    assert CheckFields(c, 1, 0, ListedAsWritten) == (c, Nothing);
    assert CheckFields(c, 2, 0, ListedAsWritten) == (c, Nothing);
    assert CheckAncestors(c, 3, ListedAsWritten) == (c, Nothing);
    assert CheckAncestors(c, 2, ListedAsWritten) == (c, Nothing);
  }

  /** Reading the entries as field names catches the same hierarchy. */
  lemma SuffixedEntryCaught()
    ensures CheckImmutableConflicts(SuffixedShadowingChain()).Raise?
  {
    var c := SuffixedShadowingChain();
    assert SetupImmutableFieldList(c, 1) == c;
    assert ListedByName(c[0].immutableFieldList, "x") by {
      SplitSuffixOfArrayEntry("x");
      assert "x" + ArraySuffix == "x[*]";
      assert SplitSuffix(c[0].immutableFieldList[0]).0 == "x";
    }
    assert CheckFields(c, 1, 0, ListedByName).1.Just?;
  }

  /** On entries without the `[*]` suffix the two tests agree. */
  lemma ListedTestsAgreeWithoutSuffix(entries: seq<string>, name: string)
    requires forall i :: 0 <= i < |entries| ==> !EndsWithArraySuffix(entries[i])
    ensures ListedAsWritten(entries, name) <==> ListedByName(entries, name)
  {
    if ListedByName(entries, name) {
      var i :| 0 <= i < |entries| && SplitSuffix(entries[i]).0 == name;
      assert entries[i] == name;
    }
    if ListedAsWritten(entries, name) {
      var i :| 0 <= i < |entries| && entries[i] == name;
      assert SplitSuffix(entries[i]).0 == name;
    }
  }

  // ---- Prebuilt constants ----

  /** A constant to convert: `None`, an instance, or a bound method (which
      stands for its instance). `cls` is the class definition the bookkeeper
      knows for the value's class, if any. */
  datatype ConstValue =
    | NoneValue
    | InstanceValue(id: nat, cls: Maybe<ClassKey>)
    | BoundMethod(selfId: nat, selfCls: Maybe<ClassKey>)

  /** Where convert_const sends a constant. */
  datatype ConstRoute = NullInstance | Exact(id: nat) | ViaSubclass(cls: ClassKey, id: nat)

  /** convert_const of the instance repr of `classdef`: `None` is the null
      instance; a bound method is converted as its instance; an instance of
      the exact class is converted here, an instance of a subclass by the
      subclass's repr; anything else is a TyperError. `isSubclass(a, b)`
      stands for `a.commonbase(b) == b` between class definitions; every
      class has the common base `None` with the root, so the root's repr
      takes every class (`Inherits`). */
  function ConvertConstRoute(classdef: ClassKey, value: ConstValue, isSubclass: (ClassKey, ClassKey) -> bool): (r: Attempt<ConstRoute>)
    ensures value.NoneValue? <==> r == Done(NullInstance)
    ensures r.Done? && r.value.Exact? ==> !value.NoneValue? && r.value.id == IdOf(value) && ClsOf(value) == Just(classdef)
    ensures r.Done? && r.value.ViaSubclass? ==>
      ClsOf(value) == Just(r.value.cls) && r.value.cls != classdef && Inherits(r.value.cls, classdef, isSubclass)
    ensures r.Raise? <==> (!value.NoneValue? &&
      (ClsOf(value).Nothing? || (ClsOf(value).value != classdef && !Inherits(ClsOf(value).value, classdef, isSubclass))))
    ensures r.Raise? ==> r.exc.TyperError?
  {
    if value.NoneValue? then Done(NullInstance)
    else
      match ClsOf(value)
      case Nothing => Raise(TyperError("no classdef"))
      case Just(cls) =>
        if cls != classdef then
          if !Inherits(cls, classdef, isSubclass) then Raise(TyperError("not an instance of " + NameOf(classdef)))
          else Done(ViaSubclass(cls, IdOf(value)))
        else Done(Exact(IdOf(value)))
  }

  /** `cls.commonbase(classdef) == classdef`: always so for the root, whose
      class definition is `None`; otherwise the subclass oracle decides. */
  predicate Inherits(cls: ClassKey, classdef: ClassKey, isSubclass: (ClassKey, ClassKey) -> bool) {
    classdef.Root? || isSubclass(cls, classdef)
  }

  /** The root's repr never reports "not an instance of": every value with a
      class definition is converted, by the subclass's repr or its own. */
  lemma RootConvertsEveryClass(value: ConstValue, isSubclass: (ClassKey, ClassKey) -> bool)
    requires !value.NoneValue? && ClsOf(value).Just?
    ensures ConvertConstRoute(Root, value, isSubclass).Done?
    ensures ClsOf(value) != Just(Root) ==>
      ConvertConstRoute(Root, value, isSubclass) == Done(ViaSubclass(ClsOf(value).value, IdOf(value)))
  {
  }

  function IdOf(value: ConstValue): nat
    requires !value.NoneValue?
  {
    if value.InstanceValue? then value.id else value.selfId
  }

  function ClsOf(value: ConstValue): Maybe<ClassKey>
    requires !value.NoneValue?
  {
    if value.InstanceValue? then value.cls else value.selfCls
  }

  function NameOf(classdef: ClassKey): string {
    if classdef.Root? then "object" else classdef.name
  }

  /** A bound method converts like the instance it is bound to. */
  lemma BoundMethodConvertsAsItsInstance(classdef: ClassKey, id: nat, cls: Maybe<ClassKey>, isSubclass: (ClassKey, ClassKey) -> bool)
    ensures ConvertConstRoute(classdef, BoundMethod(id, cls), isSubclass) ==
      ConvertConstRoute(classdef, InstanceValue(id, cls), isSubclass)
  {
  }

  /** An instance repr's prebuilt instances: one per converted constant, the
      reusable dummy instance once made, and the next fresh instance. */
  datatype Prebuilt = Prebuilt(instances: map<nat, nat>, reusable: Maybe<nat>, nextInst: nat)

  predicate PrebuiltFresh(p: Prebuilt) {
    && (forall v :: v in p.instances ==> p.instances[v] < p.nextInst)
    && (p.reusable.Just? ==> p.reusable.value < p.nextInst)
  }

  /** convert_const_exact: the prebuilt instance of a constant, created and
      recorded the first time. */
  function ConvertConstExact(p: Prebuilt, value: nat): (r: (Prebuilt, nat))
    requires PrebuiltFresh(p)
    ensures PrebuiltFresh(r.0)
    ensures value in r.0.instances && r.0.instances[value] == r.1
    ensures value in p.instances ==> r == (p, p.instances[value])
    ensures value !in p.instances ==>
      && r.1 !in p.instances.Values && Just(r.1) != p.reusable
      && r.0.instances == p.instances[value := r.1] && r.0.reusable == p.reusable
  {
    if value in p.instances then (p, p.instances[value])
    else
      var inst := p.nextInst;
      (p.(instances := p.instances[value := inst], nextInst := inst + 1), inst)
  }

  /** Converting the same constant again gives the identical instance. */
  lemma ConvertConstExactMemoised(p: Prebuilt, value: nat)
    requires PrebuiltFresh(p)
    ensures var (p1, i1) := ConvertConstExact(p, value);
      ConvertConstExact(p1, value) == (p1, i1)
  {
  }

  /** get_reusable_prebuilt_instance: one dummy instance, made on first use. */
  function GetReusablePrebuiltInstance(p: Prebuilt): (r: (Prebuilt, nat))
    requires PrebuiltFresh(p)
    ensures PrebuiltFresh(r.0)
    ensures r.0.reusable == Just(r.1) && r.0.instances == p.instances
    ensures p.reusable.Just? ==> r == (p, p.reusable.value)
    ensures p.reusable.Nothing? ==> r.1 !in p.instances.Values
  {
    if p.reusable.Just? then (p, p.reusable.value)
    else
      var inst := p.nextInst;
      (p.(reusable := Just(inst), nextInst := inst + 1), inst)
  }

  lemma ReusableInstanceIsReused(p: Prebuilt)
    requires PrebuiltFresh(p)
    ensures var (p1, i1) := GetReusablePrebuiltInstance(p);
      GetReusablePrebuiltInstance(p1) == (p1, i1)
  {
  }

  // ---- Instances at run time ----

  /** ll_inst_hash: a null instance hashes to 0, any other to its identity hash. */
  function InstHash(ins: Maybe<nat>, identityHash: nat -> int): (r: int)
    ensures ins.Nothing? ==> r == 0
    ensures ins.Just? ==> r == identityHash(ins.value)
  {
    if ins.Nothing? then 0 else identityHash(ins.value)
  }

  /** A low-level instance: on the lltype system, the structs from the
      widest type of the pointer up the `super` chain, each with its own
      fields; on the ootype system, one object with its (mangled) attributes. */
  datatype LlInstance<V> = LlPointer(levels: seq<map<string, V>>) | OoInstance(attrs: map<string, V>)

  /** The first struct up the chain that has the field, if any. */
  predicate FirstLevelWith<V>(levels: seq<map<string, V>>, key: string, i: int) {
    && 0 <= i < |levels|
    && key in levels[i]
    && forall j :: 0 <= j < i ==> key !in levels[j]
  }

  /** fishllattr: the `inst_<name>` field of the first struct up the `super`
      chain that has it (`o<name>` on an ootype instance); failing that the
      default, or AttributeError when no default is given. On the ootype
      system the error is the instance's own attribute error, naming the
      mangled attribute; on the lltype system it names the widest type. */
  method FishLlAttr<V>(inst: LlInstance<V>, name: string, default: Maybe<V>, typeName: string) returns (r: Attempt<V>)
    ensures inst.OoInstance? ==>
      r == (if "o" + name in inst.attrs then Done(inst.attrs["o" + name])
            else if default.Just? then Done(default.value)
            else Raise(AttributeError("o" + name)))
    ensures inst.LlPointer? ==> forall i :: FirstLevelWith(inst.levels, "inst_" + name, i) ==>
      r == Done(inst.levels[i]["inst_" + name])
    ensures inst.LlPointer? && (forall i :: 0 <= i < |inst.levels| ==> "inst_" + name !in inst.levels[i]) ==>
      r == (if default.Just? then Done(default.value) else Raise(AttributeError(typeName + " has no field " + name)))
  {
    if inst.OoInstance? {
      var mangled := "o" + name;
      if mangled in inst.attrs {
        return Done(inst.attrs[mangled]);
      } else if default.Just? {
        return Done(default.value);
      }
      return Raise(AttributeError(mangled));
    } else {
      var key := "inst_" + name;
      var levels := inst.levels;
      var k := 0;
      while k < |levels|
        invariant 0 <= k <= |levels|
        invariant forall j :: 0 <= j < k ==> key !in levels[j]
      {
        if key in levels[k] {
          return Done(levels[k][key]);
        }
        k := k + 1;
      }
    }
    if default.Just? {
      return Done(default.value);
    }
    return Raise(AttributeError(typeName + " has no field " + name));
  }
}

=== FILE: runtime.dfy ===
/**
 The managed side of the C-extension bridge, as far as the bridge needs it:
 managed objects by identity, the exception record the runtime raises, and the
 runtime operations the bridge calls but does not define. Those operations are
 fields of a `Space` record of total functions, so every property proved about
 the bridge holds whatever the runtime does.
 */
module Runtime {

  /** A managed object. `NoObj` is the absent object (RPython `None`, C `NULL`);
      `NoneObj` is the language's own `None`. */
  datatype Obj =
    | NoObj
    | NoneObj
    | Str(s: string)
    | Int(i: int)
    | Builtin(name: string)
    | Ref(id: nat)

  /** An `OperationError`: the class of the exception and its value. */
  datatype OpError = OpError(wType: Obj, wValue: Obj)

  datatype Option<+T> = None | Some(value: T)

  /** The result of a runtime operation that may raise. */
  datatype Outcome<+T> = Ok(value: T) | Err(error: OpError) {
    predicate IsFailure() {
      Err?
    }

    function PropagateFailure<U>(): Outcome<U>
      requires Err?
    {
      Err(error)
    }

    function Extract(): T
      requires Ok?
    {
      value
    }
  }

  const TypeError: Obj := Builtin("TypeError")
  const ValueError: Obj := Builtin("ValueError")
  const SystemError: Obj := Builtin("SystemError")
  const MemoryError: Obj := Builtin("MemoryError")
  const AttributeError: Obj := Builtin("AttributeError")
  const OverflowError: Obj := Builtin("OverflowError")

  /** A failed RPython `assert`. */
  const AssertionFailed: OpError := OpError(Builtin("AssertionError"), NoneObj)

  const TypeType: Obj := Builtin("type")
  const ObjectType: Obj := Builtin("object")
  const TupleType: Obj := Builtin("tuple")
  const StrType: Obj := Builtin("str")

  /** The six rich-comparison operators. */
  datatype CmpOp = LT | LE | EQ | NE | GT | GE

  /** The runtime operations the bridge dispatches to, left uninterpreted. */
  datatype Space = Space(
    isTrue: Obj -> Outcome<bool>,              // space.is_true
    compare: (CmpOp, Obj, Obj) -> Outcome<Obj>, // space.lt / le / eq / ne / gt / ge
    hasattr: (Obj, Obj) -> Outcome<Obj>,       // operation.hasattr
    getattr: (Obj, Obj) -> Outcome<Obj>,       // space.getattr
    callFunction: Obj -> Outcome<Obj>,         // space.call_function with no arguments
    intW: Obj -> Outcome<int>,                 // space.int_w
    hash: Obj -> Outcome<Obj>,                 // space.hash
    typeOf: Obj -> Obj,                        // space.type
    isType: Obj -> bool,                       // isinstance(w, W_TypeObject)
    isSubtype: (Obj, Obj) -> bool,             // space.is_true(space.issubtype(a, b))
    isExceptionInstance: Obj -> bool,          // instance of BaseException, or old-style instance
    exceptionGetClass: Obj -> Obj,             // space.exception_getclass
    exceptionMatch: (Obj, Obj) -> bool,        // space.exception_match
    typeName: Obj -> string,                   // w_type.getname(space, '?')
    isClassic: Obj -> bool,                    // isinstance(w, W_ClassObject): an old-style class
    solidBase: Obj -> Obj,                     // space.gettypeobject(w_type.instancetypedef)
    abstractIsSubclass: (Obj, Obj) -> bool,    // space.abstract_issubclass_w
    isCType: Obj -> bool,                      // isinstance(w, W_PyCTypeObject)
    lookup: (Obj, string) -> Obj               // space.lookup; NoObj when the name is not found
  )
}

=== FILE: type_attach.dfy ===
/**
 Building the native type struct of a managed type: the choice of the best
 base among the managed bases, and type_attach, which writes the header,
 readies the struct, sizes it after its base and installs the slots of the
 special methods the type defines.
 */
module TypeAttach {
  import opened Runtime
  import opened Bridge
  import opened TypeSlots
  import opened TypeReady

  // ---- best_base ----

  const LayoutConflict: OpError := OpError(TypeError, Str("multiple bases have instance lay-out conflict"))
  const OnlyClassic: OpError := OpError(TypeError, Str("a new-style class can't have only classic bases"))

  /** The loop state of best_base: the winning solid base so far and the base
      it was taken from, both absent until a new-style base is seen. */
  datatype Pick = Pick(winner: Option<Obj>, base: Option<Obj>)

  const NoPick: Pick := Pick(None, None)

  function Solid(sp: Space, bases: seq<Obj>, i: nat): Obj
    requires i < |bases|
  {
    sp.solidBase(bases[i])
  }

  /** One turn of the loop: a classic base is skipped; any other base must
      be a type object, which the loop asserts; the first new-style base wins; a later one wins only if its solid base is a subclass of the
      winner's and not the other way round; incomparable solid bases conflict. */
  function PickStep(sp: Space, p: Pick, b: Obj): Outcome<Pick> {
    if sp.isClassic(b) then Ok(p)
    else if !sp.isType(b) then Err(AssertionFailed)
    else
      var candidate := sp.solidBase(b);
      if p.winner.None? then Ok(Pick(Some(candidate), Some(b)))
      else if sp.abstractIsSubclass(p.winner.value, candidate) then Ok(p)
      else if sp.abstractIsSubclass(candidate, p.winner.value) then Ok(Pick(Some(candidate), Some(b)))
      else Err(LayoutConflict)
  }

  /** The loop over `bases[i..]` from loop state `p`. */
  function PickFrom(sp: Space, bases: seq<Obj>, i: nat, p: Pick): (r: Outcome<Pick>)
    requires i <= |bases|
    ensures r.Err? ==> r.error == LayoutConflict || r.error == AssertionFailed
    decreases |bases| - i
  {
    if i == |bases| then Ok(p)
    else
      match PickStep(sp, p, bases[i])
      case Err(e) => Err(e)
      case Ok(p1) => PickFrom(sp, bases, i + 1, p1)
  }

  /** best_base: `NoObj` for no bases, otherwise the base whose solid base
      won, or one of the two TypeErrors. */
  function BestBase(sp: Space, bases: seq<Obj>): (r: Outcome<Obj>)
    ensures |bases| == 0 ==> r == Ok(NoObj)
    ensures r.Err? ==> r.error == LayoutConflict || r.error == OnlyClassic || r.error == AssertionFailed
  {
    if |bases| == 0 then Ok(NoObj)
    else
      match PickFrom(sp, bases, 0, NoPick)
      case Err(e) => Err(e)
      case Ok(p) => if p.base.None? then Err(OnlyClassic) else Ok(p.base.value)
  }

  /** What the loop state records after `bases[..i]`: nothing exactly when
      every base so far is classic, and otherwise a new-style base seen so far
      together with its solid base. */
  predicate PickInv(sp: Space, bases: seq<Obj>, i: nat, p: Pick)
    requires i <= |bases|
  {
    && (p.base.None? <==> p.winner.None?)
    && (p.base.None? <==> forall j :: 0 <= j < i ==> sp.isClassic(bases[j]))
    && (p.base.Some? ==>
         exists j :: 0 <= j < i && !sp.isClassic(bases[j]) && sp.isType(bases[j]) &&
           p.base.value == bases[j] && p.winner.value == Solid(sp, bases, j))
  }

  /** The loop keeps PickInv, and a conflict is between the solid bases of two
      new-style bases neither of which is a subclass of the other. */
  lemma {:induction false} PickFromInv(sp: Space, bases: seq<Obj>, i: nat, p: Pick)
    requires i <= |bases| && PickInv(sp, bases, i, p)
    ensures PickFrom(sp, bases, i, p).Ok? ==> PickInv(sp, bases, |bases|, PickFrom(sp, bases, i, p).value)
    ensures PickFrom(sp, bases, i, p).Err? ==>
      || (PickFrom(sp, bases, i, p).error == LayoutConflict && Incomparable(sp, bases))
      || (PickFrom(sp, bases, i, p).error == AssertionFailed && NotAType(sp, bases))
    decreases |bases| - i
  {
    if i < |bases| {
      var b := bases[i];
      match PickStep(sp, p, b)
      case Err(e) =>
        if sp.isType(b) {
          var j :| 0 <= j < i && !sp.isClassic(bases[j]) && sp.isType(bases[j]) &&
            p.base.value == bases[j] && p.winner.value == Solid(sp, bases, j);
          assert IncomparableAt(sp, bases, j, i);
        } else {
          assert !sp.isClassic(bases[i]) && !sp.isType(bases[i]);
        }
      case Ok(p1) =>
        PickInvStep(sp, bases, i, p);
        PickFromInv(sp, bases, i + 1, p1);
    }
  }

  /** New-style bases `i` and `j` whose solid bases are unrelated. */
  predicate IncomparableAt(sp: Space, bases: seq<Obj>, i: nat, j: nat) {
    && i < j < |bases| && !sp.isClassic(bases[i]) && !sp.isClassic(bases[j])
    && !sp.abstractIsSubclass(Solid(sp, bases, i), Solid(sp, bases, j))
    && !sp.abstractIsSubclass(Solid(sp, bases, j), Solid(sp, bases, i))
  }

  ghost predicate Incomparable(sp: Space, bases: seq<Obj>) {
    exists i, j :: IncomparableAt(sp, bases, i, j)
  }

  /** Some base is neither a classic class nor a type object. */
  ghost predicate NotAType(sp: Space, bases: seq<Obj>) {
    exists i :: 0 <= i < |bases| && !sp.isClassic(bases[i]) && !sp.isType(bases[i])
  }

  /** The base best_base returns is one of the new-style bases; "only classic
      bases" is reported exactly when there are bases and all are classic;
      and the lay-out conflict only when two new-style bases have unrelated
      solid bases. */
  lemma BestBaseChoice(sp: Space, bases: seq<Obj>, r: Outcome<Obj>)
    requires r == BestBase(sp, bases)
    ensures r.Ok? && |bases| > 0 ==>
      exists j :: 0 <= j < |bases| && !sp.isClassic(bases[j]) && sp.isType(bases[j]) && r.value == bases[j]
    ensures r == Err(OnlyClassic) <==> |bases| > 0 && forall j :: 0 <= j < |bases| ==> sp.isClassic(bases[j])
    ensures r == Err(LayoutConflict) ==> Incomparable(sp, bases)
    ensures r == Err(AssertionFailed) ==> NotAType(sp, bases)
  {
    if |bases| > 0 {
      PickFromInv(sp, bases, 0, NoPick);
    }
  }

  /** The solid base of `bases[i]` is a subclass of that of `bases[j]`. */
  predicate Below(sp: Space, bases: seq<Obj>, i: nat, j: nat)
    requires i < |bases| && j < |bases|
  {
    sp.abstractIsSubclass(Solid(sp, bases, i), Solid(sp, bases, j))
  }

  /** The subclass relation is a preorder on the solid bases of `bases`. */
  predicate Preorder(sp: Space, bases: seq<Obj>) {
    && (forall i :: 0 <= i < |bases| ==> Below(sp, bases, i, i))
    && (forall i, j, k ::
         (0 <= i < |bases| && 0 <= j < |bases| && 0 <= k < |bases| && Below(sp, bases, i, j) && Below(sp, bases, j, k)) ==>
         Below(sp, bases, i, k))
  }

  /** The winner after `bases[..i]` is a subclass of the solid base of every
      new-style base seen so far. */
  predicate Dominates(sp: Space, bases: seq<Obj>, i: nat, p: Pick)
    requires i <= |bases|
  {
    p.winner.Some? ==>
      forall j :: 0 <= j < i && !sp.isClassic(bases[j]) ==> sp.abstractIsSubclass(p.winner.value, Solid(sp, bases, j))
  }

  lemma {:induction false} PickFromDominates(sp: Space, bases: seq<Obj>, i: nat, p: Pick)
    requires i <= |bases| && Preorder(sp, bases)
    requires PickInv(sp, bases, i, p) && Dominates(sp, bases, i, p)
    ensures PickFrom(sp, bases, i, p).Ok? ==> Dominates(sp, bases, |bases|, PickFrom(sp, bases, i, p).value)
    decreases |bases| - i
  {
    if i < |bases| && PickStep(sp, p, bases[i]).Ok? {
      var p1 := PickStep(sp, p, bases[i]).value;
      assert PickFrom(sp, bases, i, p) == PickFrom(sp, bases, i + 1, p1);
      DominatesStep(sp, bases, i, p);
      PickInvStep(sp, bases, i, p);
      PickFromDominates(sp, bases, i + 1, p1);
    } else if i == |bases| {
      assert PickFrom(sp, bases, i, p) == Ok(p);
    }
  }

  /** One turn of the loop keeps Dominates: a new winner is a subclass of the
      old one, and so of everything the old one was a subclass of. */
  lemma DominatesStep(sp: Space, bases: seq<Obj>, i: nat, p: Pick)
    requires i < |bases| && Preorder(sp, bases)
    requires PickInv(sp, bases, i, p) && Dominates(sp, bases, i, p)
    requires PickStep(sp, p, bases[i]).Ok?
    ensures Dominates(sp, bases, i + 1, PickStep(sp, p, bases[i]).value)
  {
    var p1 := PickStep(sp, p, bases[i]).value;
    if !sp.isClassic(bases[i]) && p.winner.Some? {
      var k :| 0 <= k < i && !sp.isClassic(bases[k]) && p.base.value == bases[k] && p.winner.value == Solid(sp, bases, k);
      if !sp.abstractIsSubclass(p.winner.value, Solid(sp, bases, i)) {
        forall j | 0 <= j < i + 1 && !sp.isClassic(bases[j])
          ensures sp.abstractIsSubclass(Solid(sp, bases, i), Solid(sp, bases, j))
        {
          if j < i {
            assert Below(sp, bases, i, k) && Below(sp, bases, k, j);
          } else {
            assert Below(sp, bases, i, i);
          }
        }
      }
    }
  }

  /** One turn of the loop keeps PickInv. */
  lemma PickInvStep(sp: Space, bases: seq<Obj>, i: nat, p: Pick)
    requires i < |bases| && PickInv(sp, bases, i, p) && PickStep(sp, p, bases[i]).Ok?
    ensures PickInv(sp, bases, i + 1, PickStep(sp, p, bases[i]).value)
  {
    var p1 := PickStep(sp, p, bases[i]);
    if !sp.isClassic(bases[i]) && p1.value != p {
      assert p1.value.base.value == bases[i] && p1.value.winner.value == Solid(sp, bases, i);
    }
  }

  /** When the subclass relation orders the solid bases, the base best_base
      returns has the most specific solid base: a subclass of the solid base
      of every new-style base. */
  lemma BestBaseMostSpecific(sp: Space, bases: seq<Obj>, r: Outcome<Obj>)
    requires r == BestBase(sp, bases) && Preorder(sp, bases)
    ensures r.Ok? && |bases| > 0 ==>
      forall j :: 0 <= j < |bases| && !sp.isClassic(bases[j]) ==> sp.abstractIsSubclass(sp.solidBase(r.value), Solid(sp, bases, j))
  {
    if |bases| > 0 {
      PickFromInv(sp, bases, 0, NoPick);
      PickFromDominates(sp, bases, 0, NoPick);
    }
  }

  /** Once the first new-style base has won, a later base with the same solid
      base does not replace it: with a reflexive subclass test the winner
      changes only for a strictly more specific solid base. */
  lemma {:induction false} PickFromTies(sp: Space, bases: seq<Obj>, i: nat, k: nat)
    requires k < i <= |bases| && !sp.isClassic(bases[k])
    requires forall j :: 0 <= j < |bases| && !sp.isClassic(bases[j]) ==> sp.isType(bases[j])
    requires forall j :: 0 <= j < |bases| && !sp.isClassic(bases[j]) ==> Solid(sp, bases, j) == Solid(sp, bases, k)
    requires sp.abstractIsSubclass(Solid(sp, bases, k), Solid(sp, bases, k))
    ensures PickFrom(sp, bases, i, Pick(Some(Solid(sp, bases, k)), Some(bases[k]))) == Ok(Pick(Some(Solid(sp, bases, k)), Some(bases[k])))
    decreases |bases| - i
  {
    if i < |bases| {
      PickFromTies(sp, bases, i + 1, k);
    }
  }

  /** When every new-style base has the same solid base, best_base returns the
      first new-style one. */
  lemma BestBaseTies(sp: Space, bases: seq<Obj>, k: nat)
    requires k < |bases| && !sp.isClassic(bases[k]) && forall j :: 0 <= j < k ==> sp.isClassic(bases[j])
    requires forall j :: 0 <= j < |bases| && !sp.isClassic(bases[j]) ==> sp.isType(bases[j])
    requires forall j :: 0 <= j < |bases| && !sp.isClassic(bases[j]) ==> Solid(sp, bases, j) == Solid(sp, bases, k)
    requires sp.abstractIsSubclass(Solid(sp, bases, k), Solid(sp, bases, k))
    ensures BestBase(sp, bases) == Ok(bases[k])
  {
    PickFromClassic(sp, bases, 0, k);
    PickFromTies(sp, bases, k + 1, k);
  }

  /** Classic bases leave the loop state empty. */
  lemma {:induction false} PickFromClassic(sp: Space, bases: seq<Obj>, i: nat, k: nat)
    requires i <= k < |bases| && forall j :: i <= j < k ==> sp.isClassic(bases[j])
    requires !sp.isClassic(bases[k]) && sp.isType(bases[k])
    ensures PickFrom(sp, bases, i, NoPick) == PickFrom(sp, bases, k + 1, Pick(Some(Solid(sp, bases, k)), Some(bases[k])))
    decreases k - i
  {
    if i < k {
      PickFromClassic(sp, bases, i + 1, k);
    }
  }

  // ---- type_attach ----

  /** The buffer procedures of `str`: a sub-table with the two string
      buffer functions. */
  const StrBufferProcs: map<string, Slot> := map["bf_getsegcount" := StrSegcount, "bf_getreadbuffer" := StrGetReadBuffer]

  /** The header type_attach writes before anything can fail: the dealloc of
      the type's descriptor, the string buffer procedures for `str`, the heap
      type flag alone, PyObject_Del as `tp_free`, the managed name, and the
      size placeholders. */
  function AttachHeader(sp: Space, h: Handle, wType: Obj, dealloc: Slot): (r: Handle)
    requires h.TypeH?
    ensures r.TypeH? && r.flags == HEAPTYPE && r.name == sp.typeName(wType)
    ensures r.basicsize == -1 && r.itemsize == 0
    ensures SlotOf(r, TpDealloc) == dealloc && SlotOf(r, TpFree) == PyObjectDel
    ensures forall n :: n != TpDealloc && n != TpFree ==> SlotOf(r, n) == SlotOf(h, n)
    ensures r.subs == if wType == StrType then h.subs["tp_as_buffer" := StrBufferProcs] else h.subs
    ensures r.refcnt == h.refcnt && r.obType == h.obType && r.base == h.base && r.bases == h.bases && r.dict == h.dict
  {
    var h1 := SetSlot(h, TpDealloc, dealloc);
    var h2 := if wType == StrType then h1.(subs := h1.subs["tp_as_buffer" := StrBufferProcs]) else h1;
    var h3 := SetSlot(h2, TpFree, PyObjectDel);
    h3.(flags := HEAPTYPE, name := sp.typeName(wType), basicsize := -1, itemsize := 0)
  }

  /** Rewriting a type struct with a base in order keeps the invariant. */
  lemma WfPut(s: State, a: Addr, h: Handle)
    requires Wf(s) && TypeAt(s, a) && h.TypeH? && BaseOk(s, h.base)
    ensures Wf(Put(s, a, h)) && TypeAt(Put(s, a, h), a)
  {
  }

  /** One more reference to a handle keeps the invariant. */
  lemma WfIncRef(s: State, a: Addr)
    requires Wf(s)
    ensures Wf(IncRef(s, a))
    ensures forall b :: TypeAt(s, b) ==> TypeAt(IncRef(s, a), b) && IncRef(s, a).heap[b].base == s.heap[b].base
  {
  }

  /** What type_attach keeps of the rest of the heap: every handle stays,
      every type struct stays one and keeps a bases tuple it already had,
      every other handle is untouched, and the bridge only gains entries. */
  ghost predicate Kept(s: State, r: State, pto: Addr) {
    && s.heap.Keys <= r.heap.Keys
    && (forall a :: TypeAt(s, a) ==> TypeAt(r, a))
    && (forall a :: TypeAt(s, a) && a != pto && s.heap[a].bases != Null ==> r.heap[a].bases == s.heap[a].bases)
    && (forall a :: a in s.heap && !s.heap[a].TypeH? ==> r.heap[a] == s.heap[a])
    && (forall w :: w in s.w2r ==> w in r.w2r && r.w2r[w] == s.w2r[w])
  }

  /** The type pointer type_attach gives a type whose best base is `wBase`:
      the base's handle, or `object` when that is `NULL`. */
  function AttachedBase(s: State, wBase: Obj): Addr {
    if RefOf(s, wBase) != Null then RefOf(s, wBase) else RefOf(s, ObjectType)
  }

  /** The type struct type_attach hands to PyPyType_Ready: the header, the
      best base's handle as `tp_base` and no `tp_bases`. */
  function Prepared(sp: Space, h: Handle, wType: Obj, dealloc: Slot, baseRef: Addr): (r: Handle)
    requires h.TypeH?
    ensures r.TypeH? && r.flags == HEAPTYPE && r.name == sp.typeName(wType) && r.itemsize == 0
    ensures r.base == baseRef && r.bases == Null
    ensures SlotOf(r, TpFree) == PyObjectDel && SlotOf(r, TpDealloc) == dealloc
    ensures wType == StrType ==> "tp_as_buffer" in r.subs
  {
    var h1 := AttachHeader(sp, h, wType, dealloc);
    h1.(base := baseRef, bases := Null)
  }

  /** The part of type_attach before readying: the header written, one more
      reference to the best base's handle (make_ref of a bridged object), and
      that handle stored as `tp_base` with `tp_bases` dropped. The header does
      not touch reference counts, so the reference is taken first here. */
  function Prepare(sp: Space, s: State, pto: Addr, wType: Obj, dealloc: Slot, wBase: Obj): (r: State)
    requires Wf(s) && TypeAt(s, pto)
    requires wBase == NoObj || (wBase in s.w2r && BaseOk(s, s.w2r[wBase]))
    ensures Wf(r) && TypeAt(r, pto)
  {
    var baseRef := RefOf(s, wBase);
    var s2 := IncRef(s, baseRef);
    WfIncRef(s, baseRef);
    var h := Prepared(sp, s2.heap[pto], wType, dealloc, baseRef);
    WfPut(s2, pto, h);
    Put(s2, pto, h)
  }

  /** Preparing writes the type struct and one more reference to the base,
      and keeps the rest. */
  lemma PrepareFacts(sp: Space, s: State, pto: Addr, wType: Obj, dealloc: Slot, wBase: Obj, r: State)
    requires Wf(s) && TypeAt(s, pto)
    requires wBase == NoObj || (wBase in s.w2r && BaseOk(s, s.w2r[wBase]))
    requires r == Prepare(sp, s, pto, wType, dealloc, wBase)
    ensures r.heap[pto] == Prepared(sp, IncRef(s, RefOf(s, wBase)).heap[pto], wType, dealloc, RefOf(s, wBase))
    ensures r.w2r == s.w2r
    ensures Kept(s, r, pto)
  {
    var baseRef := RefOf(s, wBase);
    var s2 := IncRef(s, baseRef);
    IncRefKept(s, baseRef, pto);
    PutKept(s2, pto, r.heap[pto]);
    KeptTrans(s, s2, r, pto);
  }

  lemma PutKept(s: State, a: Addr, h: Handle)
    requires TypeAt(s, a) && h.TypeH?
    ensures Kept(s, Put(s, a, h), a)
  {
  }

  lemma IncRefKept(s: State, a: Addr, pto: Addr)
    requires BaseOk(s, a)
    ensures Kept(s, IncRef(s, a), pto)
  {
  }

  /** The part of type_attach after readying, on the type struct: the size
      of the type's own struct, or the base's when that is larger, and the
      placeholder `tp_new` of `object`. */
  function Size(s: State, pto: Addr, wType: Obj, baseSize: int): (r: Handle)
    requires Wf(s) && TypeAt(s, pto)
    ensures r.TypeH? && r == s.heap[pto].(basicsize := r.basicsize, slots := r.slots)
    ensures r.basicsize >= baseSize
    ensures s.heap[pto].base != Null ==> r.basicsize >= s.heap[s.heap[pto].base].basicsize
    ensures r.basicsize == baseSize || (s.heap[pto].base != Null && r.basicsize == s.heap[s.heap[pto].base].basicsize)
    ensures SlotOf(r, TpNew) == if wType == ObjectType then NewPlaceholder else SlotOf(s.heap[pto], TpNew)
    ensures forall n :: n != TpNew ==> SlotOf(r, n) == SlotOf(s.heap[pto], n)
  {
    var h := s.heap[pto];
    var size := if h.base != Null && s.heap[h.base].basicsize > baseSize then s.heap[h.base].basicsize else baseSize;
    var h1 := h.(basicsize := size);
    if wType == ObjectType then SetSlot(h1, TpNew, NewPlaceholder) else h1
  }

  /** Writing the sized struct back: the size bounds hold in the new state. */
  lemma SizedBounds(t: State, pto: Addr, wType: Obj, baseSize: int, u: State)
    requires Wf(t) && TypeAt(t, pto) && u == Put(t, pto, Size(t, pto, wType, baseSize))
    requires t.heap[pto].base != Null ==> t.heap[pto].base != pto && TypeAt(t, t.heap[pto].base)
    ensures u.heap[pto].basicsize >= baseSize
    ensures u.heap[pto].base != Null ==>
      && u.heap[pto].base != pto && TypeAt(u, u.heap[pto].base)
      && u.heap[pto].basicsize >= u.heap[u.heap[pto].base].basicsize
    ensures u.heap[pto].basicsize == baseSize ||
      (u.heap[pto].base != Null && u.heap[pto].basicsize == u.heap[u.heap[pto].base].basicsize)
    ensures wType == ObjectType ==> SlotOf(u.heap[pto], TpNew) == NewPlaceholder
  {
  }

  /** Writing the sized struct back keeps every header field but the size
      and `tp_new`. */
  lemma SizedKeeps(t: State, pto: Addr, wType: Obj, baseSize: int, u: State)
    requires Wf(t) && TypeAt(t, pto) && u == Put(t, pto, Size(t, pto, wType, baseSize))
    ensures TypeAt(u, pto)
    ensures u.heap[pto].base == t.heap[pto].base && u.heap[pto].bases == t.heap[pto].bases
    ensures u.heap[pto].name == t.heap[pto].name && u.heap[pto].itemsize == t.heap[pto].itemsize
    ensures u.heap[pto].flags == t.heap[pto].flags && u.heap[pto].subs == t.heap[pto].subs
    ensures SlotOf(u.heap[pto], TpFree) == SlotOf(t.heap[pto], TpFree)
    ensures SlotOf(u.heap[pto], TpDealloc) == SlotOf(t.heap[pto], TpDealloc)
    ensures TupleAt(t, t.heap[pto].bases) ==> TupleAt(u, u.heap[pto].bases)
  {
  }

  /** Readying keeps what type_attach relies on. */
  lemma GrowsKept(s: State, r: State, pto: Addr)
    requires Grows(s, r)
    ensures Kept(s, r, pto)
  {
  }

  lemma KeptTrans(s: State, s1: State, s2: State, pto: Addr)
    requires Kept(s, s1, pto) && Kept(s1, s2, pto)
    ensures Kept(s, s2, pto)
  {
  }

  /** What type_attach requires of the bases: every new-style base is bridged
      to a type struct, or to the `NULL` placeholder of the bootstrap. */
  predicate BasesBridged(sp: Space, s: State, basesW: seq<Obj>) {
    forall b :: b in basesW && !sp.isClassic(b) ==> b in s.w2r && BaseOk(s, s.w2r[b])
  }

  /** The prepared struct, readied. */
  function Readied(sp: Space, s: State, pto: Addr, wType: Obj, dealloc: Slot, wBase: Obj): (r: Reply<Outcome<int>>)
    requires Wf(s) && TypeAt(s, pto)
    requires wBase == NoObj || (wBase in s.w2r && BaseOk(s, s.w2r[wBase]))
    ensures Wf(r.st) && TypeAt(r.st, pto)
  {
    var s3 := Prepare(sp, s, pto, wType, dealloc, wBase);
    var r := Ready(s3, pto, wType);
    ReadyOutcome(s3, pto, wType, r);
    r
  }

  /** type_attach up to the slot installation: write the header, take the
      best base as `tp_base` (one more reference to it), drop `tp_bases` and
      ready the struct; once ready, size it after its base and give `object`
      its placeholder `tp_new`. An error of best_base or of the readying
      propagates. */
  function AttachCore(sp: Space, s: State, pto: Addr, wType: Obj, basesW: seq<Obj>, dealloc: Slot, baseSize: int): (r: Reply<Outcome<Addr>>)
    requires Wf(s) && TypeAt(s, pto) && BasesBridged(sp, s, basesW)
    ensures Wf(r.st) && TypeAt(r.st, pto)
  {
    match BestBase(sp, basesW)
    case Err(e) =>
      var h := AttachHeader(sp, s.heap[pto], wType, dealloc);
      WfPut(s, pto, h);
      Reply(Put(s, pto, h), Err(e))
    case Ok(wBase) =>
      BestBaseChoice(sp, basesW, BestBase(sp, basesW));
      var rr := Readied(sp, s, pto, wType, dealloc, wBase);
      if rr.value.Err? then Reply(rr.st, Err(rr.value.error))
      else
        var h := Size(rr.st, pto, wType, baseSize);
        WfPut(rr.st, pto, h);
        Reply(Put(rr.st, pto, h), Ok(pto))
  }

  /** The success path of AttachCore. */
  lemma AttachCoreOk(sp: Space, s: State, pto: Addr, wType: Obj, basesW: seq<Obj>, dealloc: Slot, baseSize: int,
                     r: Reply<Outcome<Addr>>)
    requires Wf(s) && TypeAt(s, pto) && BasesBridged(sp, s, basesW)
    requires r == AttachCore(sp, s, pto, wType, basesW, dealloc, baseSize) && r.value.Ok?
    ensures BestBase(sp, basesW).Ok?
    ensures var wBase := BestBase(sp, basesW).value;
      && (wBase == NoObj || (wBase in s.w2r && BaseOk(s, s.w2r[wBase])))
      && Readied(sp, s, pto, wType, dealloc, wBase).value.Ok?
    ensures var rr := Readied(sp, s, pto, wType, dealloc, BestBase(sp, basesW).value);
      r.st == Put(rr.st, pto, Size(rr.st, pto, wType, baseSize))
  {
    BestBaseChoice(sp, basesW, BestBase(sp, basesW));
  }

  /** The header leaves a type neither READY nor READYING. */
  lemma HeaptypeFlags()
    ensures HEAPTYPE & READY == 0 && HEAPTYPE & READYING == 0
  {
  }

  /** type_attach fails exactly with best_base's error, or with the failed
      assertion of a readying it ran into; otherwise it returns the struct. */
  lemma AttachErrors(sp: Space, s: State, pto: Addr, wType: Obj, basesW: seq<Obj>, dealloc: Slot, baseSize: int,
                     r: Reply<Outcome<Addr>>)
    requires Wf(s) && TypeAt(s, pto) && BasesBridged(sp, s, basesW)
    requires r == AttachCore(sp, s, pto, wType, basesW, dealloc, baseSize)
    ensures BestBase(sp, basesW).Err? ==> r.value == Err(BestBase(sp, basesW).error)
    ensures r.value.Err? ==> BestBase(sp, basesW).Err? || r.value.error == AssertionFailed
    ensures r.value.Ok? ==> r.value.value == pto
  {
    var best := BestBase(sp, basesW);
    if best.Ok? {
      BestBaseChoice(sp, basesW, best);
      var s3 := Prepare(sp, s, pto, wType, dealloc, best.value);
      ReadyOutcome(s3, pto, wType, Ready(s3, pto, wType));
      assert Readied(sp, s, pto, wType, dealloc, best.value) == Ready(s3, pto, wType);
    }
  }

  /** type_attach keeps every handle and every bridge entry, and every type
      struct but the attached one keeps its bases tuple. */
  lemma AttachKept(sp: Space, s: State, pto: Addr, wType: Obj, basesW: seq<Obj>, dealloc: Slot, baseSize: int,
                   r: Reply<Outcome<Addr>>)
    requires Wf(s) && TypeAt(s, pto) && BasesBridged(sp, s, basesW)
    requires r == AttachCore(sp, s, pto, wType, basesW, dealloc, baseSize)
    ensures Kept(s, r.st, pto)
  {
    var best := BestBase(sp, basesW);
    if best.Err? {
      PutKept(s, pto, AttachHeader(sp, s.heap[pto], wType, dealloc));
    } else {
      BestBaseChoice(sp, basesW, best);
      var s3 := Prepare(sp, s, pto, wType, dealloc, best.value);
      PrepareFacts(sp, s, pto, wType, dealloc, best.value, s3);
      var rr := Ready(s3, pto, wType);
      assert Readied(sp, s, pto, wType, dealloc, best.value) == rr;
      ReadyOutcome(s3, pto, wType, rr);
      GrowsKept(s3, rr.st, pto);
      KeptTrans(s, s3, rr.st, pto);
      if rr.value.Ok? {
        PutKept(rr.st, pto, r.st.heap[pto]);
        KeptTrans(s, rr.st, r.st, pto);
      }
    }
  }

  /** What readying the prepared struct leaves on success: the base,
      defaulted to `object`, READY, and a fresh bases tuple. */
  lemma ReadiedHeader(sp: Space, s: State, pto: Addr, wType: Obj, dealloc: Slot, wBase: Obj, s3: State, rr: Reply<Outcome<int>>)
    requires Wf(s) && TypeAt(s, pto)
    requires wBase == NoObj || (wBase in s.w2r && BaseOk(s, s.w2r[wBase]))
    requires s3 == Prepare(sp, s, pto, wType, dealloc, wBase) && rr == Readied(sp, s, pto, wType, dealloc, wBase) && rr.value.Ok?
    ensures TypeAt(rr.st, pto)
    ensures rr.st.heap[pto].base == AttachedBase(s, wBase)
    ensures IsReady(rr.st.heap[pto])
    ensures TupleAt(rr.st, rr.st.heap[pto].bases) && rr.st.heap[pto].bases !in s.heap
    ensures rr.st.heap[pto].base != Null ==> rr.st.heap[pto].base != pto && TypeAt(rr.st, rr.st.heap[pto].base)
  {
    PrepareFacts(sp, s, pto, wType, dealloc, wBase, s3);
    HeaptypeFlags();
    assert rr == Ready(s3, pto, wType);
    ReadyOutcome(s3, pto, wType, rr);
    ReadyHeader(s3, pto, wType, rr);
  }

  /** Readying keeps the name, item size, sub-tables and set slots of the
      prepared struct. */
  lemma ReadiedShape(sp: Space, s: State, pto: Addr, wType: Obj, dealloc: Slot, wBase: Obj, s3: State, rr: Reply<Outcome<int>>)
    requires Wf(s) && TypeAt(s, pto)
    requires wBase == NoObj || (wBase in s.w2r && BaseOk(s, s.w2r[wBase]))
    requires s3 == Prepare(sp, s, pto, wType, dealloc, wBase) && rr == Readied(sp, s, pto, wType, dealloc, wBase)
    ensures TypeAt(rr.st, pto)
    ensures rr.st.heap[pto].name == sp.typeName(wType) && rr.st.heap[pto].itemsize == 0
    ensures SlotOf(rr.st.heap[pto], TpFree) != NoSlot
    ensures dealloc != NoSlot ==> SlotOf(rr.st.heap[pto], TpDealloc) != NoSlot
    ensures wType == StrType ==> "tp_as_buffer" in rr.st.heap[pto].subs
  {
    PrepareFacts(sp, s, pto, wType, dealloc, wBase, s3);
    assert rr == Ready(s3, pto, wType);
    assert SameShape(s3.heap[pto], rr.st.heap[pto]);
  }

  /** A successfully attached type struct has the best base's handle, or
      `object`'s, as `tp_base`; the managed name; no item size; READY set; a
      fresh bases tuple; PyObject_Del as `tp_free` or a slot inherited over
      it; a dealloc when its descriptor has one; and the string buffer
      procedures when it is `str`. */
  lemma AttachHeaderFacts(sp: Space, s: State, pto: Addr, wType: Obj, basesW: seq<Obj>, dealloc: Slot, baseSize: int,
                          r: Reply<Outcome<Addr>>)
    requires Wf(s) && TypeAt(s, pto) && BasesBridged(sp, s, basesW)
    requires r == AttachCore(sp, s, pto, wType, basesW, dealloc, baseSize) && r.value.Ok?
    ensures r.st.heap[pto].base == AttachedBase(s, BestBase(sp, basesW).value)
    ensures r.st.heap[pto].name == sp.typeName(wType) && r.st.heap[pto].itemsize == 0
    ensures IsReady(r.st.heap[pto])
    ensures TupleAt(r.st, r.st.heap[pto].bases) && r.st.heap[pto].bases !in s.heap
    ensures SlotOf(r.st.heap[pto], TpFree) != NoSlot
    ensures dealloc != NoSlot ==> SlotOf(r.st.heap[pto], TpDealloc) != NoSlot
    ensures wType == StrType ==> "tp_as_buffer" in r.st.heap[pto].subs
  {
    AttachCoreOk(sp, s, pto, wType, basesW, dealloc, baseSize, r);
    var wBase := BestBase(sp, basesW).value;
    var s3 := Prepare(sp, s, pto, wType, dealloc, wBase);
    var rr := Readied(sp, s, pto, wType, dealloc, wBase);
    ReadiedHeader(sp, s, pto, wType, dealloc, wBase, s3, rr);
    ReadiedShape(sp, s, pto, wType, dealloc, wBase, s3, rr);
    SizedKeeps(rr.st, pto, wType, baseSize, r.st);
  }

  /** A successfully attached type struct is at least as large as its own
      struct and as its base, and exactly the larger of the two; its base is
      another type struct; and `object` gets the placeholder `tp_new`. */
  lemma AttachSize(sp: Space, s: State, pto: Addr, wType: Obj, basesW: seq<Obj>, dealloc: Slot, baseSize: int,
                   r: Reply<Outcome<Addr>>)
    requires Wf(s) && TypeAt(s, pto) && BasesBridged(sp, s, basesW)
    requires r == AttachCore(sp, s, pto, wType, basesW, dealloc, baseSize) && r.value.Ok?
    ensures r.st.heap[pto].basicsize >= baseSize
    ensures r.st.heap[pto].base != Null ==>
      && r.st.heap[pto].base != pto && TypeAt(r.st, r.st.heap[pto].base)
      && r.st.heap[pto].basicsize >= r.st.heap[r.st.heap[pto].base].basicsize
    ensures r.st.heap[pto].basicsize == baseSize ||
      (r.st.heap[pto].base != Null && r.st.heap[pto].basicsize == r.st.heap[r.st.heap[pto].base].basicsize)
    ensures wType == ObjectType ==> SlotOf(r.st.heap[pto], TpNew) == NewPlaceholder
  {
    AttachCoreOk(sp, s, pto, wType, basesW, dealloc, baseSize, r);
    var wBase := BestBase(sp, basesW).value;
    var s3 := Prepare(sp, s, pto, wType, dealloc, wBase);
    var rr := Readied(sp, s, pto, wType, dealloc, wBase);
    ReadiedHeader(sp, s, pto, wType, dealloc, wBase, s3, rr);
    SizedBounds(rr.st, pto, wType, baseSize, r.st);
  }

  /** type_attach: AttachCore, then update_all_slots over the readied struct.
      Installing slots changes nothing but slot values, and never empties a
      slot that was set. */
  method Attach(sp: Space, s: State, pto: Addr, wType: Obj, basesW: seq<Obj>, dealloc: Slot, baseSize: int,
                catalog: seq<SlotDef>) returns (r: Reply<Outcome<Addr>>)
    requires Wf(s) && TypeAt(s, pto) && BasesBridged(sp, s, basesW)
    requires NewOnlyFromNew(catalog)
    ensures Wf(r.st) && TypeAt(r.st, pto) && Kept(s, r.st, pto)
    ensures r.value == AttachCore(sp, s, pto, wType, basesW, dealloc, baseSize).value
    ensures r.value.Err? ==> r.st == AttachCore(sp, s, pto, wType, basesW, dealloc, baseSize).st
    ensures r.value.Ok? ==>
      var c := AttachCore(sp, s, pto, wType, basesW, dealloc, baseSize).st;
      && r.st == Put(c, pto, r.st.heap[pto])
      && r.st.heap[pto] == c.heap[pto].(slots := r.st.heap[pto].slots, subs := r.st.heap[pto].subs)
      && r.st.heap[pto].subs.Keys == c.heap[pto].subs.Keys
    ensures r.value.Ok? ==>
      InstalledOver(sp, wType, AttachCore(sp, s, pto, wType, basesW, dealloc, baseSize).st.heap[pto], r.st.heap[pto], catalog)
  {
    var c := AttachCore(sp, s, pto, wType, basesW, dealloc, baseSize);
    AttachKept(sp, s, pto, wType, basesW, dealloc, baseSize, c);
    if c.value.Err? {
      return c;
    }
    var h := UpdateAllSlots(sp, wType, c.st.heap[pto], catalog);
    WfPut(c.st, pto, h);
    PutKept(c.st, pto, h);
    KeptTrans(s, c.st, Put(c.st, pto, h), pto);
    r := Reply(Put(c.st, pto, h), c.value);
  }

  /** `h'` holds, at every slot path, the last function the catalog installs
      there over `h`, or `h`'s own slot where none is installed. */
  ghost predicate InstalledOver(sp: Space, w: Obj, h: Handle, h': Handle, catalog: seq<SlotDef>)
    requires h.TypeH? && h'.TypeH?
  {
    forall p :: SlotAt(h', p) == Over(LastInstalled(sp, w, h, catalog, |catalog|, p), SlotAt(h, p))
  }

  /** A newly installed slot, or the old one when nothing is installed. */
  function Over(installed: Slot, previous: Slot): Slot
  {
    if installed != NoSlot then installed else previous
  }

  /** Installing slots never empties a slot that was set. */
  lemma InstallKeepsSet(sp: Space, w: Obj, h: Handle, h': Handle, catalog: seq<SlotDef>, n: string)
    requires h.TypeH? && h'.TypeH?
    requires InstalledOver(sp, w, h, h', catalog)
    requires SlotOf(h, n) != NoSlot
    ensures SlotOf(h', n) != NoSlot
  {
    assert SlotAt(h', Direct(n)) == SlotOf(h', n);
  }
}

=== FILE: type_lifecycle.dfy ===
/**
 The life of a native type struct around its readying: the bootstrap of the
 `type` / `object` / `tuple` cycle, subtype_dealloc's walk up the base chain,
 the lifeline that lets a managed object of a C type reuse its native handle,
 and calling a C type.
 */
module TypeLifecycle {
  import opened Runtime
  import opened Bridge
  import opened TypeSlots
  import opened TypeReady

  // ---------------------------------------------------------------------
  // init_typeobject
  // ---------------------------------------------------------------------

  /** The first step of the bootstrap: `NULL` placeholders for `type`,
      `object` and `tuple` in the managed-to-native map, so that creating
      any of the three finds the others already "bridged". */
  function Placeholders(s: State): (r: State)
    ensures TypeType in r.w2r && ObjectType in r.w2r && TupleType in r.w2r
    ensures r.w2r[TypeType] == Null && r.w2r[ObjectType] == Null && r.w2r[TupleType] == Null
    ensures forall w :: w != TypeType && w != ObjectType && w != TupleType ==>
      (w in r.w2r <==> w in s.w2r) && (w in s.w2r ==> r.w2r[w] == s.w2r[w])
    ensures r.(w2r := s.w2r) == s
    ensures Wf(s) ==> Wf(r)
  {
    s.(w2r := s.w2r[TypeType := Null][ObjectType := Null][TupleType := Null])
  }

  /** A handle with its type pointer replaced. */
  function WithObType(h: Handle, t: Addr): (r: Handle)
    ensures r.obType == t && r.refcnt == h.refcnt
    ensures r.TypeH? == h.TypeH? && r.TupleH? == h.TupleH?
  {
    h.(obType := t)
  }

  /** The handle at `a` with its type pointer replaced. */
  function SetObType(s: State, a: Addr, t: Addr): (r: State)
    requires a in s.heap
    ensures r.heap == s.heap[a := WithObType(s.heap[a], t)]
    ensures r.(heap := s.heap) == s
  {
    Put(s, a, WithObType(s.heap[a], t))
  }

  /** A type struct with its type pointer and base replaced. */
  function Rebased(h: Handle, t: Addr, b: Addr): (r: Handle)
    requires h.TypeH?
    ensures r.TypeH? && r.obType == t && r.base == b
    ensures r.(obType := h.obType, base := h.base) == h
  {
    h.(obType := t, base := b)
  }

  /** The three freshly created structs: distinct type structs, each with
      its own bases tuple. */
  predicate Created(s: State, pType: Addr, pObject: Addr, pTuple: Addr) {
    && TypeAt(s, pType) && TypeAt(s, pObject) && TypeAt(s, pTuple)
    && pType != pObject && pType != pTuple && pObject != pTuple
    && TupleAt(s, s.heap[pType].bases) && TupleAt(s, s.heap[pObject].bases) && TupleAt(s, s.heap[pTuple].bases)
  }

  /** The first two cycle-forming steps: every one of the three has `type` as
      its type, and `type` and `tuple` have `object` as base. The three
      structs are distinct, so the writes may be grouped by struct. */
  function TypeCycle(s: State, pType: Addr, pObject: Addr, pTuple: Addr): (r: State)
    requires Created(s, pType, pObject, pTuple)
    ensures r.heap.Keys == s.heap.Keys && r.(heap := s.heap) == s
    ensures r.heap[pType] == Rebased(s.heap[pType], pType, pObject)
    ensures r.heap[pObject] == WithObType(s.heap[pObject], pType)
    ensures r.heap[pTuple] == Rebased(s.heap[pTuple], pType, pObject)
    ensures forall a :: a in s.heap && a != pType && a != pObject && a != pTuple ==> r.heap[a] == s.heap[a]
  {
    var s1 := Put(s, pType, Rebased(s.heap[pType], pType, pObject));
    var s2 := Put(s1, pObject, WithObType(s.heap[pObject], pType));
    Put(s2, pTuple, Rebased(s.heap[pTuple], pType, pObject))
  }

  /** The last cycle-forming step: the bases tuples of the three have
      `tuple` as their type. */
  function TupleCycle(s: State, pType: Addr, pObject: Addr, pTuple: Addr): (r: State)
    requires Created(s, pType, pObject, pTuple)
    ensures r.heap.Keys == s.heap.Keys && r.(heap := s.heap) == s
    ensures forall a :: a in s.heap && a != s.heap[pType].bases && a != s.heap[pObject].bases && a != s.heap[pTuple].bases ==>
      r.heap[a] == s.heap[a]
    ensures forall a :: a in s.heap && a in {s.heap[pType].bases, s.heap[pObject].bases, s.heap[pTuple].bases} ==>
      r.heap[a] == WithObType(s.heap[a], pTuple)
  {
    var bt, bo, bu := s.heap[pType].bases, s.heap[pObject].bases, s.heap[pTuple].bases;
    SetObType(SetObType(SetObType(s, bt, pTuple), bo, pTuple), bu, pTuple)
  }

  /** The last step of the bootstrap: the three pairs recorded in both
      bridge maps, replacing the placeholders. */
  function Restore(s: State, pType: Addr, pObject: Addr, pTuple: Addr): (r: State)
    ensures r.heap == s.heap && r.w2r.Keys == s.w2r.Keys + {TypeType, ObjectType, TupleType}
    ensures r == Track(Track(Track(s, pType, TypeType), pObject, ObjectType), pTuple, TupleType)
  {
    Track(Track(Track(s, pType, TypeType), pObject, ObjectType), pTuple, TupleType)
  }

  /** init_typeobject after the three structs are created: the cycles, then
      the bridge entries. */
  function Bootstrap(s: State, pType: Addr, pObject: Addr, pTuple: Addr): (r: State)
    requires Created(s, pType, pObject, pTuple)
    ensures r.heap.Keys == s.heap.Keys
    ensures r.w2r.Keys == s.w2r.Keys + {TypeType, ObjectType, TupleType}
    ensures r.operror == s.operror && r.lifelines == s.lifelines
  {
    var s1 := TypeCycle(s, pType, pObject, pTuple);
    Restore(TupleCycle(s1, pType, pObject, pTuple), pType, pObject, pTuple)
  }

  /** The structs of the bootstrap, found through the bridge: the handle of
      a managed type and the managed object a handle stands for. */
  function TypeOfType(s: State, w: Obj): Obj
    requires w != NoObj && RefOf(s, w) in s.heap
  {
    FromRef(s, s.heap[RefOf(s, w)].obType)
  }

  /** The three type structs after the bootstrap. */
  lemma {:induction false} BootstrapHeap(s: State, pType: Addr, pObject: Addr, pTuple: Addr)
    requires Created(s, pType, pObject, pTuple)
    ensures var r := Bootstrap(s, pType, pObject, pTuple);
      && r.heap.Keys == s.heap.Keys
      && r.heap[pType] == Rebased(s.heap[pType], pType, pObject)
      && r.heap[pObject] == WithObType(s.heap[pObject], pType)
      && r.heap[pTuple] == Rebased(s.heap[pTuple], pType, pObject)
    ensures var r := Bootstrap(s, pType, pObject, pTuple);
      forall a :: a in s.heap ==> (r.heap[a].TypeH? <==> s.heap[a].TypeH?)
  {
    var s1 := TypeCycle(s, pType, pObject, pTuple);
    assert Created(s1, pType, pObject, pTuple);
    var s2 := TupleCycle(s1, pType, pObject, pTuple);
    assert Bootstrap(s, pType, pObject, pTuple).heap == s2.heap;
  }

  /** Every other handle after the bootstrap: the bases tuples of the three
      have `tuple` as type, and nothing else changes. */
  lemma {:induction false} BootstrapTuples(s: State, pType: Addr, pObject: Addr, pTuple: Addr)
    requires Created(s, pType, pObject, pTuple)
    ensures var r := Bootstrap(s, pType, pObject, pTuple);
      forall a :: a in s.heap && a in {s.heap[pType].bases, s.heap[pObject].bases, s.heap[pTuple].bases} ==>
        r.heap[a] == WithObType(s.heap[a], pTuple)
    ensures var r := Bootstrap(s, pType, pObject, pTuple);
      forall a :: a in s.heap && a !in {pType, pObject, pTuple, s.heap[pType].bases, s.heap[pObject].bases, s.heap[pTuple].bases} ==>
        r.heap[a] == s.heap[a]
  {
    var s1 := TypeCycle(s, pType, pObject, pTuple);
    assert s1.heap[pType].bases == s.heap[pType].bases;
    assert s1.heap[pObject].bases == s.heap[pObject].bases;
    assert s1.heap[pTuple].bases == s.heap[pTuple].bases;
    assert Created(s1, pType, pObject, pTuple);
    var s2 := TupleCycle(s1, pType, pObject, pTuple);
    assert Bootstrap(s, pType, pObject, pTuple).heap == s2.heap;
  }

  /** After the bootstrap the three structs form the promised cycles: each
      is an instance of `type`; `type` and `tuple` derive from `object`,
      whose base is untouched; every bases tuple is an instance of `tuple`. */
  lemma BootstrapCycle(s: State, pType: Addr, pObject: Addr, pTuple: Addr)
    requires Created(s, pType, pObject, pTuple)
    ensures var r := Bootstrap(s, pType, pObject, pTuple);
      && TypeAt(r, pType) && TypeAt(r, pObject) && TypeAt(r, pTuple)
      && r.heap[pType].obType == pType && r.heap[pObject].obType == pType && r.heap[pTuple].obType == pType
      && r.heap[pType].base == pObject && r.heap[pTuple].base == pObject
      && r.heap[pObject].base == s.heap[pObject].base
    ensures var r := Bootstrap(s, pType, pObject, pTuple);
      && r.heap[pType].bases == s.heap[pType].bases && r.heap[pObject].bases == s.heap[pObject].bases
      && r.heap[pTuple].bases == s.heap[pTuple].bases
    ensures var r := Bootstrap(s, pType, pObject, pTuple);
      && TupleAt(r, r.heap[pType].bases) && r.heap[r.heap[pType].bases].obType == pTuple
      && TupleAt(r, r.heap[pObject].bases) && r.heap[r.heap[pObject].bases].obType == pTuple
      && TupleAt(r, r.heap[pTuple].bases) && r.heap[r.heap[pTuple].bases].obType == pTuple
  {
    BootstrapHeap(s, pType, pObject, pTuple);
    BootstrapTuples(s, pType, pObject, pTuple);
  }

  /** Recording the three pairs makes each handle and managed type the
      other's counterpart. */
  lemma RestoreBridged(s: State, pType: Addr, pObject: Addr, pTuple: Addr)
    requires pType != Null && pObject != Null && pTuple != Null
    requires pType != pObject && pType != pTuple && pObject != pTuple
    ensures var r := Restore(s, pType, pObject, pTuple);
      && RefOf(r, TypeType) == pType && RefOf(r, ObjectType) == pObject && RefOf(r, TupleType) == pTuple
      && FromRef(r, pType) == TypeType && FromRef(r, pObject) == ObjectType && FromRef(r, pTuple) == TupleType
  {
  }

  /** The placeholders are replaced by the real handles, which map back to
      their managed types. */
  lemma BootstrapBridged(s: State, pType: Addr, pObject: Addr, pTuple: Addr)
    requires Created(s, pType, pObject, pTuple)
    requires pType != Null && pObject != Null && pTuple != Null
    ensures var r := Bootstrap(s, pType, pObject, pTuple);
      && RefOf(r, TypeType) == pType && RefOf(r, ObjectType) == pObject && RefOf(r, TupleType) == pTuple
      && FromRef(r, pType) == TypeType && FromRef(r, pObject) == ObjectType && FromRef(r, pTuple) == TupleType
  {
    var s1 := TypeCycle(s, pType, pObject, pTuple);
    RestoreBridged(TupleCycle(s1, pType, pObject, pTuple), pType, pObject, pTuple);
  }

  /** In the bridge's own terms: the type of `type`, `object` and `tuple` is
      `type`; the base of `type` and `tuple` is `object`; and the type of
      `object`'s bases tuple is `tuple`. */
  lemma BootstrapSeenFromBridge(s: State, pType: Addr, pObject: Addr, pTuple: Addr)
    requires Created(s, pType, pObject, pTuple)
    requires pType != Null && pObject != Null && pTuple != Null
    ensures var r := Bootstrap(s, pType, pObject, pTuple);
      && TypeOfType(r, TypeType) == TypeType && TypeOfType(r, ObjectType) == TypeType
      && TypeOfType(r, TupleType) == TypeType
      && FromRef(r, r.heap[RefOf(r, TypeType)].base) == ObjectType
      && FromRef(r, r.heap[RefOf(r, TupleType)].base) == ObjectType
      && FromRef(r, r.heap[r.heap[RefOf(r, ObjectType)].bases].obType) == TupleType
  {
    BootstrapCycle(s, pType, pObject, pTuple);
    BootstrapBridged(s, pType, pObject, pTuple);
  }

  /** The bootstrap allocates nothing and bridges only the three types. */
  lemma BootstrapFresh(s: State, pType: Addr, pObject: Addr, pTuple: Addr)
    requires Fresh(s) && Created(s, pType, pObject, pTuple)
    ensures Fresh(Bootstrap(s, pType, pObject, pTuple))
  {
    BootstrapHeap(s, pType, pObject, pTuple);
  }

  /** The bootstrap keeps what readying relies on. */
  lemma BootstrapWf(s: State, pType: Addr, pObject: Addr, pTuple: Addr)
    requires Wf(s) && Created(s, pType, pObject, pTuple)
    ensures Wf(Bootstrap(s, pType, pObject, pTuple))
  {
    BootstrapHeap(s, pType, pObject, pTuple);
    BootstrapFresh(s, pType, pObject, pTuple);
    var r := Bootstrap(s, pType, pObject, pTuple);
    assert forall b :: BaseOk(s, b) ==> BaseOk(r, b);
    forall a | TypeAt(r, a) ensures BaseOk(r, r.heap[a].base) {
      if a == pObject {
        assert r.heap[a].base == s.heap[a].base;
      } else if a != pType && a != pTuple {
        assert TypeAt(s, a) && r.heap[a].base == s.heap[a].base;
      }
    }
  }

  // ---------------------------------------------------------------------
  // subtype_dealloc
  // ---------------------------------------------------------------------

  /** `NULL` is no handle, and every type struct's base is `NULL` or a type struct. */
  ghost predicate ChainOk(s: State) {
    && Null !in s.heap
    && (forall a :: TypeAt(s, a) ==> BaseOk(s, s.heap[a].base))
  }

  /** The `k`-th struct up the base chain from `a`; `NULL` past its end. */
  function BaseAt(s: State, a: Addr, k: nat): (r: Addr)
    requires ChainOk(s) && BaseOk(s, a)
    ensures BaseOk(s, r)
    decreases k
  {
    if k == 0 || a == Null then a else BaseAt(s, s.heap[a].base, k - 1)
  }

  /** The `tp_dealloc` of the `k`-th struct up the chain. */
  function DeallocAt(s: State, a: Addr, k: nat): Slot
    requires ChainOk(s) && BaseOk(s, a)
  {
    var b := BaseAt(s, a, k);
    if b == Null then NoSlot else SlotOf(s.heap[b], TpDealloc)
  }

  /** The first `k` structs up the chain exist and deallocate with subtype_dealloc. */
  ghost predicate Passes(s: State, a: Addr, k: nat)
    requires ChainOk(s) && BaseOk(s, a)
  {
    forall j: nat :: j < k ==> BaseAt(s, a, j) != Null && DeallocAt(s, a, j) == SubtypeDealloc
  }

  /** The `k`-th struct up the chain is the first with a dealloc of its own. */
  ghost predicate OwnsAt(s: State, a: Addr, k: nat)
    requires ChainOk(s) && BaseOk(s, a)
  {
    Passes(s, a, k) && BaseAt(s, a, k) != Null && DeallocAt(s, a, k) != SubtypeDealloc
  }

  /** The chain ends at the `k`-th step with no dealloc of its own found. */
  ghost predicate EndsAt(s: State, a: Addr, k: nat)
    requires ChainOk(s) && BaseOk(s, a)
  {
    Passes(s, a, k) && BaseAt(s, a, k) == Null
  }

  /** What subtype_dealloc does: call a dealloc on the object, fail the
      assertion that the base is non-`NULL`, or go round a cycle of the
      base chain for ever. */
  datatype Dealloc = Calls(call: NativeCall) | BaseMissing | Cycles

  /** The loop of subtype_dealloc from the struct `base`, with `fuel` steps
      up the chain allowed. */
  function Walk(s: State, obj: Addr, base: Addr, fuel: nat): (r: Dealloc)
    requires ChainOk(s) && TypeAt(s, base)
    ensures r.Calls? ==> r.call.arg == obj && r.call.fn != SubtypeDealloc
    decreases fuel
  {
    var d := SlotOf(s.heap[base], TpDealloc);
    if d != SubtypeDealloc then Calls(NativeCall(d, obj))
    else if fuel == 0 then Cycles
    else
      var b := s.heap[base].base;
      if b == Null then BaseMissing else Walk(s, obj, b, fuel - 1)
  }

  /** subtype_dealloc: walk up from the object's type while the dealloc is
      subtype_dealloc itself, then call the dealloc found on the object. A
      walk longer than the heap is a cycle of the base chain. */
  function SubtypeDeallocOf(s: State, obj: Addr): (r: Dealloc)
    requires ChainOk(s) && obj in s.heap && TypeAt(s, s.heap[obj].obType)
    ensures r.Calls? ==> r.call.arg == obj && r.call.fn != SubtypeDealloc
  {
    Walk(s, obj, s.heap[obj].obType, |s.heap|)
  }

  /** One step up the chain. */
  lemma BaseAtShift(s: State, a: Addr, k: nat)
    requires ChainOk(s) && TypeAt(s, a)
    ensures BaseAt(s, a, k + 1) == BaseAt(s, s.heap[a].base, k)
    ensures DeallocAt(s, a, k + 1) == DeallocAt(s, s.heap[a].base, k)
  {
  }

  /** Passing `k + 1` structs from `a` is passing `a` and then `k` from its base. */
  lemma PassesShift(s: State, a: Addr, k: nat)
    requires ChainOk(s) && TypeAt(s, a)
    ensures Passes(s, a, k + 1) <==>
      DeallocAt(s, a, 0) == SubtypeDealloc && Passes(s, s.heap[a].base, k)
  {
    var b := s.heap[a].base;
    forall j: nat | j < k
      ensures BaseAt(s, a, j + 1) == BaseAt(s, b, j) && DeallocAt(s, a, j + 1) == DeallocAt(s, b, j)
    {
      BaseAtShift(s, a, j);
    }
    if DeallocAt(s, a, 0) == SubtypeDealloc && Passes(s, b, k) {
      forall j: nat | j < k + 1
        ensures BaseAt(s, a, j) != Null && DeallocAt(s, a, j) == SubtypeDealloc
      {
        if j > 0 { BaseAtShift(s, a, j - 1); }
      }
    }
    if Passes(s, a, k + 1) {
      assert BaseAt(s, a, 0) != Null && DeallocAt(s, a, 0) == SubtypeDealloc;
      forall j: nat | j < k
        ensures BaseAt(s, b, j) != Null && DeallocAt(s, b, j) == SubtypeDealloc
      {
        assert BaseAt(s, a, j + 1) != Null && DeallocAt(s, a, j + 1) == SubtypeDealloc;
      }
    }
  }

  /** A struct with its own dealloc stops every chain through it. */
  lemma HeadStops(s: State, a: Addr, k: nat)
    requires ChainOk(s) && TypeAt(s, a) && SlotOf(s.heap[a], TpDealloc) != SubtypeDealloc
    ensures OwnsAt(s, a, 0) && DeallocAt(s, a, 0) == SlotOf(s.heap[a], TpDealloc)
    ensures k > 0 ==> !Passes(s, a, k)
  {
    assert BaseAt(s, a, 0) == a;
    assert DeallocAt(s, a, 0) != SubtypeDealloc;
  }

  /** A struct that passes and has no base ends every chain at step one. */
  lemma HeadEnds(s: State, a: Addr, k: nat)
    requires ChainOk(s) && TypeAt(s, a) && SlotOf(s.heap[a], TpDealloc) == SubtypeDealloc && s.heap[a].base == Null
    ensures EndsAt(s, a, 1) && Passes(s, a, 1)
    ensures !OwnsAt(s, a, k)
    ensures k > 1 ==> !Passes(s, a, k) && !EndsAt(s, a, k)
  {
    assert BaseAt(s, a, 0) == a;
    BaseAtShift(s, a, 0);
    assert BaseAt(s, a, 1) == Null;
  }

  /** Past a struct that passes, the chain from it is the chain from its base. */
  lemma TailShift(s: State, a: Addr, k: nat)
    requires ChainOk(s) && TypeAt(s, a) && SlotOf(s.heap[a], TpDealloc) == SubtypeDealloc
    ensures !OwnsAt(s, a, 0) && !EndsAt(s, a, 0)
    ensures OwnsAt(s, a, k + 1) <==> OwnsAt(s, s.heap[a].base, k)
    ensures EndsAt(s, a, k + 1) <==> EndsAt(s, s.heap[a].base, k)
    ensures DeallocAt(s, a, k + 1) == DeallocAt(s, s.heap[a].base, k)
    ensures Passes(s, a, k + 1) <==> Passes(s, s.heap[a].base, k)
  {
    assert BaseAt(s, a, 0) == a;
    PassesShift(s, a, k);
    BaseAtShift(s, a, k);
  }

  /** The walk calls the dealloc of the first struct up the chain that has
      one of its own, and calls nothing else. */
  lemma {:induction false} WalkCalls(s: State, obj: Addr, a: Addr, fuel: nat)
    requires ChainOk(s) && TypeAt(s, a)
    ensures forall k: nat :: k <= fuel && OwnsAt(s, a, k) ==>
      Walk(s, obj, a, fuel) == Calls(NativeCall(DeallocAt(s, a, k), obj))
    ensures Walk(s, obj, a, fuel).Calls? ==> exists k: nat :: k <= fuel && OwnsAt(s, a, k)
    decreases fuel
  {
    var b := s.heap[a].base;
    if SlotOf(s.heap[a], TpDealloc) != SubtypeDealloc {
      forall k: nat | k <= fuel && OwnsAt(s, a, k) ensures k == 0 {
        HeadStops(s, a, k);
      }
      HeadStops(s, a, 0);
    } else if fuel == 0 {
      TailShift(s, a, 0);
    } else if b == Null {
      forall k: nat | k <= fuel ensures !OwnsAt(s, a, k) {
        HeadEnds(s, a, k);
      }
    } else {
      WalkCalls(s, obj, b, fuel - 1);
      TailShift(s, a, 0);
      forall k: nat | 1 <= k <= fuel && OwnsAt(s, a, k)
        ensures Walk(s, obj, a, fuel) == Calls(NativeCall(DeallocAt(s, a, k), obj))
      {
        TailShift(s, a, k - 1);
      }
      if Walk(s, obj, a, fuel).Calls? {
        var k: nat :| k <= fuel - 1 && OwnsAt(s, b, k);
        TailShift(s, a, k);
      }
    }
  }

  /** The walk fails its assertion exactly when the chain ends before a
      struct with a dealloc of its own. */
  lemma {:induction false} WalkMissing(s: State, obj: Addr, a: Addr, fuel: nat)
    requires ChainOk(s) && TypeAt(s, a)
    ensures Walk(s, obj, a, fuel) == BaseMissing <==> exists k: nat :: 1 <= k <= fuel && EndsAt(s, a, k)
    decreases fuel
  {
    var b := s.heap[a].base;
    if SlotOf(s.heap[a], TpDealloc) != SubtypeDealloc {
      forall k: nat | 1 <= k ensures !EndsAt(s, a, k) {
        HeadStops(s, a, k);
      }
    } else if fuel == 0 {
    } else if b == Null {
      HeadEnds(s, a, 1);
    } else {
      WalkMissing(s, obj, b, fuel - 1);
      if Walk(s, obj, a, fuel) == BaseMissing {
        var k: nat :| 1 <= k <= fuel - 1 && EndsAt(s, b, k);
        TailShift(s, a, k);
      }
      if exists k: nat :: 1 <= k <= fuel && EndsAt(s, a, k) {
        var k: nat :| 1 <= k <= fuel && EndsAt(s, a, k);
        assert BaseAt(s, b, 0) == b;
        TailShift(s, a, k - 1);
      }
    }
  }

  /** The walk runs out exactly when every struct it may visit passes: the
      chain goes round a cycle of structs that all deallocate with
      subtype_dealloc. */
  lemma {:induction false} WalkCycles(s: State, obj: Addr, a: Addr, fuel: nat)
    requires ChainOk(s) && TypeAt(s, a)
    ensures Walk(s, obj, a, fuel) == Cycles <==> Passes(s, a, fuel + 1)
    decreases fuel
  {
    var b := s.heap[a].base;
    if SlotOf(s.heap[a], TpDealloc) != SubtypeDealloc {
      HeadStops(s, a, fuel + 1);
    } else if fuel == 0 {
      TailShift(s, a, 0);
      assert BaseAt(s, a, 0) == a;
    } else if b == Null {
      HeadEnds(s, a, fuel + 1);
    } else {
      WalkCycles(s, obj, b, fuel - 1);
      TailShift(s, a, fuel);
    }
  }

  // ---------------------------------------------------------------------
  // pyctype_make_ref and the lifeline
  // ---------------------------------------------------------------------

  /** A handle a lifeline may hand out again: allocated, with no references left. */
  predicate Reusable(s: State, a: Addr) {
    a in s.heap && s.heap[a].refcnt == 0
  }

  /** pyctype_make_ref: an object with a lifeline gets its old handle back,
      which must have no references left, with one reference; any other
      object gets a fresh header of its type (the allocation of its type
      descriptor) and a lifeline keeping it. */
  function PycTypeMakeRef(s: State, wType: Obj, wObj: Obj, itemcount: int): (r: Reply<Outcome<Addr>>)
    requires Fresh(s)
    ensures Fresh(r.st)
    ensures r.value.Err? <==> wObj in s.lifelines && !Reusable(s, s.lifelines[wObj])
    ensures r.value.Err? ==> r.value.error == AssertionFailed && r.st == s
    ensures r.value.Ok? ==> wObj in r.st.lifelines && r.st.lifelines[wObj] == r.value.value
    ensures r.value.Ok? ==> r.value.value in r.st.heap && r.st.heap[r.value.value].refcnt == 1
    ensures r.value.Ok? && wObj in s.lifelines ==> r.value.value == s.lifelines[wObj] && r.st == IncRef(s, r.value.value)
    ensures r.value.Ok? && wObj !in s.lifelines ==>
      && r.value.value !in s.heap && r.st.heap == s.heap[r.value.value := ObjH(1, RefOf(s, wType), itemcount)]
      && r.st.lifelines == s.lifelines[wObj := r.value.value]
      && r.st.w2r == s.w2r && r.st.r2w == s.r2w && r.st.operror == s.operror
  {
    if wObj in s.lifelines then
      var a := s.lifelines[wObj];
      if Reusable(s, a) then Reply(IncRef(s, a), Ok(a))
      else Reply(s, Err(AssertionFailed))
    else
      var (s1, a) := Alloc(s, ObjH(1, RefOf(s, wType), itemcount));
      Reply(s1.(lifelines := s1.lifelines[wObj := a]), Ok(a))
  }

  /** The lifeline's finaliser: a live handle, which must have no references
      left, is deallocated through its type's `tp_dealloc`, and the lifeline
      forgets it. */
  function LifelineDel(s: State, wObj: Obj): (r: Reply<Outcome<Option<NativeCall>>>)
    ensures r.value.Err? <==> wObj in s.lifelines && s.lifelines[wObj] != Null && RefcntOf(s, s.lifelines[wObj]) != 0
    ensures r.value.Err? ==> r.value.error == AssertionFailed && r.st == s
    ensures r.value == Ok(None) <==> wObj !in s.lifelines || s.lifelines[wObj] == Null
    ensures r.value == Ok(None) ==> r.st == s
    ensures r.value.Ok? && r.value.value.Some? ==>
      && r.value.value.value.arg == s.lifelines[wObj]
      && r.st == s.(lifelines := s.lifelines[wObj := Null])
  {
    if wObj !in s.lifelines || s.lifelines[wObj] == Null then Reply(s, Ok(None))
    else
      var a := s.lifelines[wObj];
      if RefcntOf(s, a) != 0 then Reply(s, Err(AssertionFailed))
      else Reply(s.(lifelines := s.lifelines[wObj := Null]), Ok(Some(NativeCall(TypeDealloc(s, a), a))))
  }

  /** _Py_Dealloc's target: the `tp_dealloc` of the handle's type. */
  function TypeDealloc(s: State, a: Addr): Slot {
    if a in s.heap && TypeAt(s, s.heap[a].obType) then SlotOf(s.heap[s.heap[a].obType], TpDealloc) else NoSlot
  }

  /** The finaliser deallocates once: run again, it does nothing. */
  lemma LifelineDelOnce(s: State, wObj: Obj)
    requires LifelineDel(s, wObj).value.Ok?
    ensures LifelineDel(LifelineDel(s, wObj).st, wObj) == Reply(LifelineDel(s, wObj).st, Ok(None))
  {
  }

  /** A handle taken with pyctype_make_ref and released again is the one
      the next pyctype_make_ref hands out, in the same state as the first
      time. */
  lemma {:induction false} MakeRefReuse(s: State, wType: Obj, wObj: Obj, itemcount: int)
    requires Fresh(s) && PycTypeMakeRef(s, wType, wObj, itemcount).value.Ok?
    ensures var r := PycTypeMakeRef(s, wType, wObj, itemcount);
      && CanDecRef(r.st, r.value.value)
      && PycTypeMakeRef(DecRef(r.st, r.value.value), wType, wObj, itemcount) == r.(value := Ok(r.value.value))
  {
    var r := PycTypeMakeRef(s, wType, wObj, itemcount);
    var a := r.value.value;
    var s2 := DecRef(r.st, a);
    assert s2.lifelines == r.st.lifelines && s2.heap[a].refcnt == 0;
    assert s2.heap == r.st.heap[a := r.st.heap[a].(refcnt := 0)];
    assert IncRef(s2, a).heap == r.st.heap;
    assert IncRef(s2, a) == r.st;
  }

  /** A handle still referenced is not handed out a second time: the
      assertion fails. */
  lemma MakeRefTwice(s: State, wType: Obj, wObj: Obj, itemcount: int)
    requires Fresh(s) && PycTypeMakeRef(s, wType, wObj, itemcount).value.Ok?
    ensures var r := PycTypeMakeRef(s, wType, wObj, itemcount);
      PycTypeMakeRef(r.st, wType, wObj, itemcount) == Reply(r.st, Err(AssertionFailed))
  {
  }

  // ---------------------------------------------------------------------
  // c_type_descr__call__
  // ---------------------------------------------------------------------

  /** Calling a type: a type of another kind goes to the ordinary type call;
      a C type is called through its `tp_new`. */
  datatype CallPlan = Delegated | Invokes(call: NativeCall)

  /** The error for a C type without `tp_new`. */
  function CannotCreate(sp: Space, wType: Obj): OpError {
    OpError(TypeError, Str("cannot create '" + sp.typeName(wType) + "' instances"))
  }

  /** c_type_descr__call__: a C type's struct is referenced for the call and
      released in the `finally` clause; the call goes to its `tp_new` with
      the struct, or fails when it has none. */
  function CTypeCall(sp: Space, s: State, wType: Obj): (r: Reply<Outcome<CallPlan>>)
    requires Fresh(s)
    requires sp.isCType(wType) ==> wType != NoObj && wType in s.w2r && TypeAt(s, s.w2r[wType])
    ensures r.st == s
    ensures r.value == Ok(Delegated) <==> !sp.isCType(wType)
    ensures r.value.Err? ==> r.value.error == CannotCreate(sp, wType)
  {
    if !sp.isCType(wType) then Reply(s, Ok(Delegated))
    else
      var (s1, pyo) := MakeRef(s, wType, false);
      var tpNew := SlotOf(s1.heap[pyo], TpNew);
      IncRefThenDecRef(s, pyo);
      var s2 := DecRef(s1, pyo);
      if tpNew != NoSlot then Reply(s2, Ok(Invokes(NativeCall(tpNew, pyo))))
      else Reply(s2, Err(CannotCreate(sp, wType)))
  }

  /** Calling a C type leaves the reference counts as they were; it invokes
      the struct's own `tp_new` on the struct, and fails with the
      "cannot create" error exactly when there is none. */
  lemma CTypeCallMeaning(sp: Space, s: State, wType: Obj)
    requires Fresh(s)
    requires sp.isCType(wType) ==> wType != NoObj && wType in s.w2r && TypeAt(s, s.w2r[wType])
    ensures CTypeCall(sp, s, wType).st == s
    ensures CTypeCall(sp, s, wType).value == Ok(Delegated) <==> !sp.isCType(wType)
    ensures sp.isCType(wType) ==>
      var pto := s.w2r[wType];
      CTypeCall(sp, s, wType).value ==
        if SlotOf(s.heap[pto], TpNew) != NoSlot then Ok(Invokes(NativeCall(SlotOf(s.heap[pto], TpNew), pto)))
        else Err(CannotCreate(sp, wType))
  {
    if sp.isCType(wType) {
      var pyo := s.w2r[wType];
      IncRefThenDecRef(s, pyo);
    }
  }
}

=== FILE: type_ready.dfy ===
/**
 Readying a native type struct: the READY / READYING flag machine, the
 defaulting of the base to `object`, readying the base first, filling in the
 type pointer and the bases tuple, registering a static type with the bridge,
 and the two inheritance passes.
 */
module TypeReady {
  import opened Runtime
  import opened Bridge
  import opened TypeSlots

  predicate IsReady(h: Handle)
    requires h.TypeH?
  {
    h.flags & READY != 0
  }

  predicate IsReadying(h: Handle)
    requires h.TypeH?
  {
    h.flags & READYING != 0
  }

  /** A base pointer: `NULL` or a type struct. */
  predicate BaseOk(s: State, b: Addr) {
    b == Null || TypeAt(s, b)
  }

  /** What the readying code relies on: fresh allocation, `object` known to the
      bridge (possibly as the `NULL` placeholder of the bootstrap), and every
      type struct's base `NULL` or a type struct. */
  ghost predicate Wf(s: State) {
    && Fresh(s)
    && ObjectType in s.w2r && BaseOk(s, s.w2r[ObjectType])
    && (forall a :: TypeAt(s, a) ==> BaseOk(s, s.heap[a].base))
  }

  /** What readying may do to a handle: a type struct keeps its reference
      count, name, sizes and sub-tables, and keeps every base, type pointer,
      bases tuple and slot that was already set (readying only fills in what
      is `NULL`, besides its flags and dict); any other handle is left alone. */
  ghost predicate SameShape(h: Handle, h': Handle) {
    if h.TypeH? then
      && h'.TypeH? && h'.refcnt == h.refcnt && h'.name == h.name && h'.basicsize == h.basicsize
      && h'.itemsize == h.itemsize && h'.subs == h.subs
      && (h.base != Null ==> h'.base == h.base)
      && (h.obType != Null ==> h'.obType == h.obType)
      && (h.bases != Null ==> h'.bases == h.bases)
      && (forall n :: SlotOf(h, n) != NoSlot ==> SlotOf(h', n) == SlotOf(h, n))
    else h' == h
  }

  /** The heap only grows, every handle keeps its shape (so no reference count
      changes), the managed-to-native map only gains entries, and the error indicator and
      lifelines are untouched. */
  ghost predicate Grows(s: State, r: State) {
    && s.heap.Keys <= r.heap.Keys
    && (forall a :: a in s.heap ==> SameShape(s.heap[a], r.heap[a]))
    && (forall a :: a in r.heap && a !in s.heap ==> !r.heap[a].TypeH?)
    && (forall w :: w in s.w2r ==> w in r.w2r && r.w2r[w] == s.w2r[w])
    && r.operror == s.operror && r.lifelines == s.lifelines
  }

  lemma GrowsTrans(s: State, s1: State, s2: State)
    requires Grows(s, s1) && Grows(s1, s2)
    ensures Grows(s, s2)
  {
  }

  /** The type structs not in the middle of being readied. */
  ghost function NotReadying(s: State): set<Addr> {
    set a | a in s.heap && s.heap[a].TypeH? && !IsReadying(s.heap[a])
  }

  /** Marking one more type struct READYING shrinks the set of those that are not. */
  lemma ReadyingShrinks(s: State, s1: State, pto: Addr)
    requires TypeAt(s, pto) && !IsReadying(s.heap[pto])
    requires pto in s1.heap && s1.heap == s.heap[pto := s1.heap[pto]] && s1.heap[pto].TypeH? && IsReadying(s1.heap[pto])
    ensures |NotReadying(s1)| < |NotReadying(s)|
  {
    assert NotReadying(s1) == NotReadying(s) - {pto};
  }

  /** Setting READYING keeps READY. */
  lemma SetReadyingFacts(f: bv64)
    ensures (f | READYING) & READYING != 0
    ensures (f | READYING) & READY != 0 <==> f & READY != 0
  {
  }

  /** Clearing READYING keeps READY. */
  lemma ClearFacts(f: bv64)
    ensures (f & !READYING) & READYING == 0
    ensures (f & !READYING) & READY != 0 <==> f & READY != 0
  {
  }

  /** The last statement sets READY and leaves READYING clear. */
  lemma MarkFacts(f: bv64)
    ensures ((f & !READYING) | READY) & READY != 0
    ensures ((f & !READYING) | READY) & READYING == 0
  {
  }

  /** A handle with one field group replaced, at one address. */
  function Put(s: State, a: Addr, h: Handle): State {
    s.(heap := s.heap[a := h])
  }

  /** The `finally` clause: READYING cleared, every other bit kept. */
  function ClearReadying(s: State, pto: Addr): (r: State)
    requires TypeAt(s, pto)
    ensures TypeAt(r, pto) && !IsReadying(r.heap[pto])
    ensures IsReady(r.heap[pto]) == IsReady(s.heap[pto])
    ensures r == Put(s, pto, s.heap[pto].(flags := s.heap[pto].flags & !READYING))
  {
    Put(s, pto, s.heap[pto].(flags := s.heap[pto].flags & !READYING))
  }

  /** The last statement: READY set and READYING cleared, every other bit kept. */
  function MarkReady(s: State, pto: Addr): (r: State)
    requires TypeAt(s, pto)
    ensures TypeAt(r, pto) && IsReady(r.heap[pto]) && !IsReadying(r.heap[pto])
    ensures r == Put(s, pto, s.heap[pto].(flags := (s.heap[pto].flags & !READYING) | READY))
  {
    Put(s, pto, s.heap[pto].(flags := (s.heap[pto].flags & !READYING) | READY))
  }

  /** Entering PyPyType_Ready past the READY test and the assertion: READYING
      set, and a `NULL` base replaced by `object`'s handle (a stolen reference,
      so no count changes). */
  function BeginReady(s: State, pto: Addr): (r: State)
    requires TypeAt(s, pto)
    ensures r == Put(s, pto, s.heap[pto].(flags := s.heap[pto].flags | READYING,
                                         base := if s.heap[pto].base != Null then s.heap[pto].base else RefOf(s, ObjectType)))
  {
    var h := s.heap[pto];
    Put(s, pto, h.(flags := h.flags | READYING, base := if h.base != Null then h.base else RefOf(s, ObjectType)))
  }

  /** Entering keeps the invariant and marks the type READYING, nothing more. */
  lemma BeginReadyKeepsWf(s: State, pto: Addr)
    requires Wf(s) && TypeAt(s, pto) && !IsReadying(s.heap[pto])
    ensures Wf(BeginReady(s, pto)) && Grows(s, BeginReady(s, pto))
    ensures TypeAt(BeginReady(s, pto), pto) && IsReadying(BeginReady(s, pto).heap[pto])
    ensures IsReady(BeginReady(s, pto).heap[pto]) == IsReady(s.heap[pto])
  {
    SetReadyingFacts(s.heap[pto].flags);
    WfAfterPut(s, pto, BeginReady(s, pto).heap[pto]);
  }

  /** The bases tuple PyPyType_Ready builds: a fresh managed tuple holding the
      base (empty when there is none), bridged to a fresh tuple handle with
      one reference whose type is the bridged `tuple`. */
  function NewBasesTuple(s: State, base: Addr): (r: (State, Addr))
    requires Fresh(s)
    ensures Fresh(r.0)
    ensures r.1 != Null && r.1 !in s.heap
    ensures r.0.heap == s.heap[r.1 := TupleH(1, RefOf(s, TupleType), if base == Null then [] else [base])]
    ensures FromRef(r.0, r.1) != NoObj && FromRef(r.0, r.1) !in s.w2r && r.0.w2r == s.w2r[FromRef(r.0, r.1) := r.1]
    ensures FromRef(r.0, r.1).Ref?
    ensures r.0.operror == s.operror && r.0.lifelines == s.lifelines && r.0.nonHeaptypes == s.nonHeaptypes
  {
    var (s1, w) := NewObj(s);
    var (s2, a) := Alloc(s1, TupleH(1, RefOf(s, TupleType), if base == Null then [] else [base]));
    (Track(s2, a, w), a)
  }

  /** PyPyType_Register: a type struct the bridge does not know yet gets a fresh
      managed type, recorded in both maps and kept alive in `non_heaptypes`; a
      known one is left alone. The answer is always 1. */
  function Register(s: State, pto: Addr): (r: Reply<int>)
    requires Fresh(s)
    ensures r.value == 1 && Fresh(r.st)
    ensures r.st.heap == s.heap && r.st.operror == s.operror && r.st.lifelines == s.lifelines
    ensures pto in r.st.r2w
    ensures pto in s.r2w ==> r.st == s
    ensures pto !in s.r2w ==>
      var w := r.st.r2w[pto];
      && w.Ref? && w !in s.w2r
      && r.st.r2w == s.r2w[pto := w] && r.st.w2r == s.w2r[w := pto]
      && r.st.nonHeaptypes == s.nonHeaptypes + [w]
  {
    if pto in s.r2w then Reply(s, 1)
    else
      var (s1, w) := NewObj(s);
      var s2 := s1.(nonHeaptypes := s1.nonHeaptypes + [w]);
      Reply(Track(s2, pto, w), 1)
  }

  /** Registering twice is registering once. */
  lemma RegisterIdempotent(s: State, pto: Addr)
    requires Fresh(s)
    ensures Register(Register(s, pto).st, pto) == Register(s, pto)
  {
  }

  /** A tuple handle at an address. */
  predicate TupleAt(s: State, a: Addr) {
    a in s.heap && s.heap[a].TupleH?
  }

  /** The items of the bases tuple; none when `tp_bases` is not a tuple. */
  function BasesItems(s: State, pto: Addr): seq<Addr>
    requires TypeAt(s, pto)
  {
    var t := s.heap[pto].bases;
    if t in s.heap && s.heap[t].TupleH? then s.heap[t].items else []
  }

  /** A step of readying that changes only the type struct `pto` and keeps
      the invariant. */
  ghost predicate Step(s: State, r: State, pto: Addr) {
    && Wf(r) && Grows(s, r) && TypeAt(r, pto)
    && (forall a :: a in s.heap && a != pto ==> r.heap[a] == s.heap[a])
  }

  lemma StepTrans(s: State, s1: State, s2: State, pto: Addr)
    requires Step(s, s1, pto) && Step(s1, s2, pto)
    ensures Step(s, s2, pto)
  {
    GrowsTrans(s, s1, s2);
  }

  /** Rewriting the type struct with a base and bases in order is a step. */
  lemma PutStep(s: State, pto: Addr, h: Handle)
    requires Wf(s) && TypeAt(s, pto) && SameShape(s.heap[pto], h)
    requires BaseOk(s, h.base)
    ensures Step(s, Put(s, pto, h), pto)
  {
    WfAfterPut(s, pto, h);
  }

  /** The type pointer and bases tuple of PyPyType_Ready: a `NULL` `ob_type`
      is copied from the base, and a `NULL` `tp_bases` becomes a fresh tuple
      of the base, or an empty one when there is no base. */
  function FillHeader(s: State, pto: Addr): (r: State)
    requires Wf(s) && TypeAt(s, pto)
    ensures Step(s, r, pto)
    ensures var h := s.heap[pto];
      r.heap[pto] == h.(obType := if h.obType != Null || h.base == Null then h.obType else s.heap[h.base].obType,
                        bases := r.heap[pto].bases)
    ensures s.heap[pto].bases != Null ==> r.heap[pto].bases == s.heap[pto].bases && r.r2w == s.r2w
    ensures s.heap[pto].bases == Null ==>
      var t := r.heap[pto].bases;
      var base := s.heap[pto].base;
      && t !in s.heap && t in r.heap
      && r.heap[t] == TupleH(1, RefOf(s, TupleType), if base == Null then [] else [base])
      && FromRef(r, t) != NoObj
  {
    var h := s.heap[pto];
    var s1 := if h.base != Null && h.obType == Null then Put(s, pto, h.(obType := s.heap[h.base].obType, flags := h.flags)) else s;
    assert Step(s, s1, pto) by {
      if h.base != Null && h.obType == Null { PutStep(s, pto, s1.heap[pto]); }
    }
    if h.bases == Null then
      var r := Complete1(s1, pto);
      StepTrans(s, s1, r, pto);
      r
    else s1
  }

  /** The bases-tuple step: a fresh tuple of the base, stored in the type struct. */
  function Complete1(s: State, pto: Addr): (r: State)
    requires Wf(s) && TypeAt(s, pto) && s.heap[pto].bases == Null
    ensures Step(s, r, pto)
    ensures r.heap[pto] == s.heap[pto].(bases := r.heap[pto].bases)
    ensures var t := r.heap[pto].bases;
      var base := s.heap[pto].base;
      && t !in s.heap && t in r.heap
      && r.heap[t] == TupleH(1, RefOf(s, TupleType), if base == Null then [] else [base])
      && FromRef(r, t) != NoObj
  {
    var h := s.heap[pto];
    var (t, a) := NewBasesTuple(s, h.base);
    var r := Put(t, pto, t.heap[pto].(bases := a));
    NewBasesTupleStep(s, t, a, pto);
    PutStep(t, pto, r.heap[pto]);
    StepTrans(s, t, r, pto);
    r
  }

  lemma NewBasesTupleStep(s: State, t: State, a: Addr, pto: Addr)
    requires Wf(s) && TypeAt(s, pto)
    requires (t, a) == NewBasesTuple(s, s.heap[pto].base)
    ensures Step(s, t, pto)
  {
  }

  /** Registration changes nothing in the heap, so it is a step. */
  lemma RegisterStep(s: State, pto: Addr)
    requires Wf(s) && TypeAt(s, pto)
    ensures Step(s, Register(s, pto).st, pto)
  {
    var r := Register(s, pto).st;
    assert ObjectType in r.w2r && r.w2r[ObjectType] == s.w2r[ObjectType];
    WfSameHeap(s, r);
  }

  /** The invariant depends on the heap, freshness and `object`'s entry only. */
  lemma WfSameHeap(s: State, r: State)
    requires Wf(s) && Fresh(r) && r.heap == s.heap
    requires ObjectType in r.w2r && r.w2r[ObjectType] == s.w2r[ObjectType]
    ensures Wf(r)
  {
  }

  /** A state that differs from `s` only in the handle at `pto` is `s` with that handle put back. */
  lemma PutBack(s: State, r: State, pto: Addr)
    requires pto in s.heap && r.(heap := s.heap) == s && r.heap.Keys == s.heap.Keys
    requires forall a :: a in s.heap && a != pto ==> r.heap[a] == s.heap[a]
    ensures r == Put(s, pto, r.heap[pto])
  {
    assert r.heap == s.heap[pto := r.heap[pto]];
  }

  /** The tp_new a type struct ends up with after inherit_special: its own if
      set, otherwise the base's, except that a static type does not take
      `object`'s. */
  function NewInherited(s: State, pto: Addr): Slot
    requires TypeAt(s, pto) && BaseOk(s, s.heap[pto].base) && ObjectType in s.w2r
  {
    var base := s.heap[pto].base;
    if SlotOf(s.heap[pto], TpNew) != NoSlot || base == Null then SlotOf(s.heap[pto], TpNew)
    else if base != s.w2r[ObjectType] || s.heap[pto].flags & HEAPTYPE != 0 then SlotOf(s.heap[base], TpNew)
    else NoSlot
  }

  /** The slots of `h` are those of the type struct `pto` in `s` after both
      inheritance passes over the bases `items`: tp_dealloc and tp_free from
      the first base that has them, tp_new by inherit_special, the rest as
      they were. */
  ghost predicate InheritedSlots(s: State, pto: Addr, items: seq<Addr>, h: Handle)
    requires TypeAt(s, pto) && BaseOk(s, s.heap[pto].base) && ObjectType in s.w2r
  {
    && h.TypeH?
    && SlotOf(h, TpDealloc) == Inherited(s, pto, items, TpDealloc)
    && SlotOf(h, TpFree) == Inherited(s, pto, items, TpFree)
    && SlotOf(h, TpNew) == NewInherited(s, pto)
    && (forall n :: n != TpNew && n != TpDealloc && n != TpFree ==> SlotOf(h, n) == SlotOf(s.heap[pto], n))
  }

  /** inherit_special, when there is a base. */
  function Special(s: State, pto: Addr): (r: State)
    requires Wf(s) && TypeAt(s, pto)
    ensures Step(s, r, pto) && r.heap.Keys == s.heap.Keys
    ensures r.heap[pto].(slots := s.heap[pto].slots) == s.heap[pto]
    ensures SlotOf(r.heap[pto], TpNew) == NewInherited(s, pto)
    ensures forall n :: n != TpNew ==> SlotOf(r.heap[pto], n) == SlotOf(s.heap[pto], n)
  {
    var base := s.heap[pto].base;
    if base != Null then
      var r := InheritSpecial(s, pto, base);
      PutBack(s, r, pto);
      PutStep(s, pto, r.heap[pto]);
      r
    else s
  }

  /** inherit_special from the base, then inherit_slots from every base in the
      bases tuple, in order. */
  function Inherit(s: State, pto: Addr): (r: State)
    requires Wf(s) && TypeAt(s, pto)
    ensures Step(s, r, pto) && r.heap.Keys == s.heap.Keys
    ensures r.heap[pto].(slots := s.heap[pto].slots) == s.heap[pto]
    ensures InheritedSlots(s, pto, BasesItems(s, pto), r.heap[pto])
  {
    var s4 := Special(s, pto);
    var items := BasesItems(s4, pto);
    assert BasesItems(s, pto) == items;
    var r := InheritAll(s4, pto, items);
    PutBack(s4, r, pto);
    PutStep(s4, pto, r.heap[pto]);
    StepTrans(s, s4, r, pto);
    CompleteSlots(s, s4, pto, items, TpDealloc);
    CompleteSlots(s, s4, pto, items, TpFree);
    r
  }

  /** The header and, for a type readied without a managed counterpart, the
      registration. Only the type struct itself changes. */
  function Prepare(s: State, pto: Addr, wObj: Obj): (r: State)
    requires Wf(s) && TypeAt(s, pto)
    ensures Step(s, r, pto)
    ensures var h := s.heap[pto];
      r.heap[pto] == h.(obType := if h.obType != Null || h.base == Null then h.obType else s.heap[h.base].obType,
                        bases := r.heap[pto].bases)
    ensures s.heap[pto].bases != Null ==> r.heap[pto].bases == s.heap[pto].bases
    ensures s.heap[pto].bases == Null ==>
      var t := r.heap[pto].bases;
      var base := s.heap[pto].base;
      && t !in s.heap && t in r.heap
      && r.heap[t] == TupleH(1, RefOf(s, TupleType), if base == Null then [] else [base])
    ensures wObj == NoObj ==> pto in r.r2w
  {
    var s2 := FillHeader(s, pto);
    var r := RegisterUnbridged(s2, pto, wObj);
    StepTrans(s, s2, r, pto);
    r
  }

  /** Registers the type struct when it was readied without a managed
      counterpart, and leaves the state alone otherwise. */
  function RegisterUnbridged(s: State, pto: Addr, wObj: Obj): (r: State)
    requires Wf(s) && TypeAt(s, pto)
    ensures Step(s, r, pto) && r.heap == s.heap
    ensures wObj == NoObj ==> pto in r.r2w
    ensures wObj != NoObj ==> r == s
  {
    if wObj == NoObj then
      RegisterStep(s, pto);
      Register(s, pto).st
    else s
  }

  /** The part of PyPyType_Ready after the base is ready: the header, the
      registration, and the inheritance. Only the type struct itself changes. */
  function Complete(s: State, pto: Addr, wObj: Obj): (r: State)
    requires Wf(s) && TypeAt(s, pto)
    ensures Step(s, r, pto)
    ensures var h := s.heap[pto];
      r.heap[pto] == h.(obType := if h.obType != Null || h.base == Null then h.obType else s.heap[h.base].obType,
                        bases := r.heap[pto].bases, slots := r.heap[pto].slots)
    ensures s.heap[pto].bases != Null ==> r.heap[pto].bases == s.heap[pto].bases
    ensures s.heap[pto].bases == Null ==>
      var t := r.heap[pto].bases;
      var base := s.heap[pto].base;
      && t !in s.heap && t in r.heap
      && r.heap[t] == TupleH(1, RefOf(s, TupleType), if base == Null then [] else [base])
    ensures wObj == NoObj ==> pto in r.r2w
  {
    var s3 := Prepare(s, pto, wObj);
    var r := Inherit(s3, pto);
    StepTrans(s, s3, r, pto);
    r
  }

  /** The slots Complete leaves are those both inheritance passes give over
      the bases tuple it leaves. */
  lemma CompleteInherits(s: State, pto: Addr, wObj: Obj)
    requires Wf(s) && TypeAt(s, pto)
    ensures InheritedSlots(s, pto, BasesItems(Complete(s, pto, wObj), pto), Complete(s, pto, wObj).heap[pto])
  {
    var s3 := Prepare(s, pto, wObj);
    var r := Inherit(s3, pto);
    assert r == Complete(s, pto, wObj);
    BasesItemsFrame(s3, r, pto);
    InheritedSlotsFrame(s, s3, pto, BasesItems(s3, pto), r.heap[pto]);
  }

  /** The bases tuple's items survive a change to the type struct's slots alone. */
  lemma BasesItemsFrame(s: State, r: State, pto: Addr)
    requires TypeAt(s, pto) && TypeAt(r, pto) && r.heap[pto].bases == s.heap[pto].bases
    requires r.heap.Keys == s.heap.Keys
    requires forall a :: a in s.heap && a != pto ==> r.heap[a] == s.heap[a]
    ensures BasesItems(r, pto) == BasesItems(s, pto)
  {
  }

  /** Inheriting in a state that differs from `s` only in the header of `pto`
      gives the slots inheriting in `s` would. */
  lemma InheritedSlotsFrame(s: State, s3: State, pto: Addr, items: seq<Addr>, h: Handle)
    requires Wf(s) && TypeAt(s, pto) && Step(s, s3, pto)
    requires var h0 := s.heap[pto]; var h3 := s3.heap[pto];
      h3.slots == h0.slots && h3.base == h0.base && h3.flags == h0.flags
    requires InheritedSlots(s3, pto, items, h)
    ensures InheritedSlots(s, pto, items, h)
  {
    CompleteSlots(s, s3, pto, items, TpDealloc);
    CompleteSlots(s, s3, pto, items, TpFree);
  }

  /** Nulls the type struct's dict pointer: type dicts are not supported. */
  function NullDict(s: State, pto: Addr): State
    requires TypeAt(s, pto)
  {
    Put(s, pto, s.heap[pto].(dict := Null))
  }

  /** The type struct `pto` with its dict nulled and READYING cleared: what
      an early return from PyPyType_Ready leaves. */
  function Returned(s: State, pto: Addr): State
    requires TypeAt(s, pto)
  {
    Put(s, pto, s.heap[pto].(dict := Null, flags := s.heap[pto].flags & !READYING))
  }

  /** An early return changes only the type struct `pto`, within its shape. */
  lemma ReturnedFacts(s: State, pto: Addr)
    requires Wf(s) && TypeAt(s, pto)
    ensures Wf(Returned(s, pto)) && Grows(s, Returned(s, pto))
    ensures TypeAt(Returned(s, pto), pto) && Returned(s, pto).heap.Keys == s.heap.Keys
    ensures forall a :: a in s.heap && a != pto ==> Returned(s, pto).heap[a] == s.heap[a]
    ensures Returned(s, pto).heap[pto] == s.heap[pto].(dict := Null, flags := s.heap[pto].flags & !READYING)
  {
    PutStep(s, pto, Returned(s, pto).heap[pto]);
  }

  /** An early return nulls the dict and clears READYING, keeping READY. */
  lemma ReturnedFlags(h: Handle, h': Handle)
    requires h.TypeH? && h' == h.(dict := Null, flags := h.flags & !READYING)
    ensures !IsReadying(h') && (IsReady(h') <==> IsReady(h))
  {
    ClearFacts(h.flags);
  }

  /** What the early return leaves: the type no longer READYING, its dict
      `NULL`, READY as before, and every other type untouched. */
  lemma ReturnedOutcome(s: State, pto: Addr)
    requires Wf(s) && TypeAt(s, pto)
    ensures TypeAt(Returned(s, pto), pto)
    ensures !IsReadying(Returned(s, pto).heap[pto])
    ensures Returned(s, pto).heap[pto].dict == Null
    ensures IsReady(Returned(s, pto).heap[pto]) == IsReady(s.heap[pto])
  {
    ReturnedFacts(s, pto);
    ReturnedFlags(s.heap[pto], Returned(s, pto).heap[pto]);
  }

  /** The early return leaves every other type as it was. */
  lemma ReturnedKept(s: State, pto: Addr)
    requires Wf(s) && TypeAt(s, pto)
    ensures ReadyingKept(s, Returned(s, pto), pto, true)
    ensures ReadyingKept(s, Returned(s, pto), pto, false)
  {
    ReturnedFacts(s, pto);
  }

  /** A type struct a failed nested PyPyType_Ready passed through: left as it
      was, or with its dict nulled and READYING cleared by that call. */
  predicate Touched(h: Handle, h': Handle)
    requires h.TypeH?
  {
    h' == h || h' == h.(dict := Null, flags := h.flags & !READYING)
  }

  /** Every type struct other than `pto` that is in the middle of being
      readied is unchanged when readying `pto` succeeds, and at most touched
      when it fails. */
  ghost predicate ReadyingKept(s: State, r: State, pto: Addr, ok: bool) {
    forall a :: a != pto && TypeAt(s, a) && IsReadying(s.heap[a]) ==>
      a in r.heap && (if ok then r.heap[a] == s.heap[a] else Touched(s.heap[a], r.heap[a]))
  }

  /** PyPyType_Ready. The dict is nulled first. A READY type returns 0 at
      once; a READYING one fails the assertion. Otherwise the type is marked
      READYING, a `NULL` base becomes `object`, an unready base is readied
      first, and the header, registration and inheritance follow; the type
      ends READY. On every path the `finally` clause clears READYING. What
      it computes is stated by ReadyOutcome, ReadyEarly, ReadyBase and
      ReadyHeader. */
  function Ready(s: State, pto: Addr, wObj: Obj): (r: Reply<Outcome<int>>)
    requires Wf(s) && TypeAt(s, pto)
    ensures Wf(r.st) && Grows(s, r.st)
    decreases |NotReadying(s)|, 0
  {
    var h := s.heap[pto];
    if IsReady(h) || IsReadying(h) then
      var r := Returned(s, pto);
      ReturnedFacts(s, pto);
      Reply(r, if IsReady(h) then Ok(0) else Err(AssertionFailed))
    else
      var s1 := Entry(s, pto);
      EntryFacts(s, pto);
      var r := ReadyFresh(s1, pto, wObj);
      GrowsTrans(s, s1, r.st);
      r
  }

  /** Entering PyPyType_Ready past its first tests: dict nulled, READYING
      set, base defaulted. */
  function Entry(s: State, pto: Addr): State
    requires TypeAt(s, pto)
  {
    BeginReady(NullDict(s, pto), pto)
  }

  /** Entering changes only the type struct, makes it READYING, defaults
      its base, and so shrinks the set of types not READYING. */
  lemma EntryFacts(s: State, pto: Addr)
    requires Wf(s) && TypeAt(s, pto) && !IsReady(s.heap[pto]) && !IsReadying(s.heap[pto])
    ensures Entered(Entry(s, pto), pto) && Grows(s, Entry(s, pto))
    ensures |NotReadying(Entry(s, pto))| < |NotReadying(s)|
    ensures Entry(s, pto).heap.Keys == s.heap.Keys
    ensures forall a :: a in s.heap && a != pto ==> Entry(s, pto).heap[a] == s.heap[a]
    ensures Entry(s, pto).heap[pto].base == if s.heap[pto].base != Null then s.heap[pto].base else RefOf(s, ObjectType)
    ensures Entry(s, pto).heap[pto].obType == s.heap[pto].obType
    ensures Entry(s, pto).heap[pto].bases == s.heap[pto].bases
  {
    var s0 := NullDict(s, pto);
    PutStep(s, pto, s0.heap[pto]);
    var s1 := BeginReady(s0, pto);
    BeginReadyKeepsWf(s0, pto);
    GrowsTrans(s, s0, s1);
    ReadyingShrinks(s, s1, pto);
  }

  /** The entry state of PyPyType_Ready past its first tests: the type is
      READYING and not READY, and its dict is `NULL`. */
  ghost predicate Entered(s: State, pto: Addr) {
    Wf(s) && TypeAt(s, pto) && IsReadying(s.heap[pto]) && !IsReady(s.heap[pto]) && s.heap[pto].dict == Null
  }

  /** PyPyType_Ready past the entry: ready an unready base first; if that
      fails, clear READYING and pass the error on, otherwise finish. */
  function ReadyFresh(s: State, pto: Addr, wObj: Obj): (r: Reply<Outcome<int>>)
    requires Entered(s, pto)
    ensures Wf(r.st) && Grows(s, r.st)
    decreases |NotReadying(s)|, 2
  {
    var rb := ReadyBaseFirst(s, pto);
    if rb.value.Err? then
      var r := ClearReadying(rb.st, pto);
      PutStep(rb.st, pto, r.heap[pto]);
      GrowsTrans(s, rb.st, r);
      Reply(r, rb.value)
    else
      var r := Finish(rb.st, pto, wObj);
      GrowsTrans(s, rb.st, r);
      Reply(r, Ok(0))
  }

  /** Readies the base first when there is one and it is not READY yet,
      with no managed counterpart; otherwise succeeds at once. */
  function ReadyBaseFirst(s: State, pto: Addr): (r: Reply<Outcome<int>>)
    requires Entered(s, pto)
    ensures Wf(r.st) && Grows(s, r.st) && TypeAt(r.st, pto)
    decreases |NotReadying(s)|, 1
  {
    var base := s.heap[pto].base;
    if base != Null && !IsReady(s.heap[base]) then Ready(s, base, NoObj) else Reply(s, Ok(0))
  }

  /** Readying ends with the type not READYING and its dict `NULL`; it
      succeeds, with 0, exactly when the type ends READY, and otherwise fails
      the READYING assertion. Types in the middle of being readied are left
      alone on success and at most touched by the `finally` clause on failure. */
  lemma ReadyOutcome(s: State, pto: Addr, wObj: Obj, r: Reply<Outcome<int>>)
    requires Wf(s) && TypeAt(s, pto) && r == Ready(s, pto, wObj)
    ensures TypeAt(r.st, pto)
    ensures !IsReadying(r.st.heap[pto])
    ensures r.st.heap[pto].dict == Null
    ensures r.value.Ok? <==> IsReady(r.st.heap[pto])
    ensures r.value == Ok(0) || r.value == Err(AssertionFailed)
    ensures ReadyingKept(s, r.st, pto, r.value.Ok?)
    decreases |NotReadying(s)|, 0
  {
    var h := s.heap[pto];
    if IsReady(h) || IsReadying(h) {
      ReadyEarly(s, pto, wObj);
      ReturnedOutcome(s, pto);
      ReturnedKept(s, pto);
    } else {
      EntryFacts(s, pto);
      ReadyFreshOutcome(Entry(s, pto), pto, wObj, r);
    }
  }

  lemma ReadyFreshOutcome(s: State, pto: Addr, wObj: Obj, r: Reply<Outcome<int>>)
    requires Entered(s, pto) && r == ReadyFresh(s, pto, wObj)
    ensures TypeAt(r.st, pto)
    ensures !IsReadying(r.st.heap[pto])
    ensures r.st.heap[pto].dict == Null
    ensures r.st.heap[pto].base == s.heap[pto].base
    ensures r.value.Ok? <==> IsReady(r.st.heap[pto])
    ensures r.value == Ok(0) || r.value == Err(AssertionFailed)
    ensures ReadyingKept(s, r.st, pto, r.value.Ok?)
    decreases |NotReadying(s)|, 2
  {
    var rb := ReadyBaseFirst(s, pto);
    ReadyBaseFirstOutcome(s, pto, rb);
    ClearFacts(rb.st.heap[pto].flags);
  }

  /** Readying the base leaves the type itself alone on success, and at most
      touched on failure; on success the base, which is not the type itself,
      is READY. */
  lemma ReadyBaseFirstOutcome(s: State, pto: Addr, r: Reply<Outcome<int>>)
    requires Entered(s, pto) && r == ReadyBaseFirst(s, pto)
    ensures TypeAt(r.st, pto)
    ensures r.value == Ok(0) || r.value == Err(AssertionFailed)
    ensures r.value.Ok? ==> r.st.heap[pto] == s.heap[pto]
    ensures r.value.Err? ==> Touched(s.heap[pto], r.st.heap[pto])
    ensures ReadyingKept(s, r.st, pto, r.value.Ok?)
    ensures r.value.Ok? && s.heap[pto].base != Null ==>
      s.heap[pto].base != pto && TypeAt(r.st, s.heap[pto].base) && IsReady(r.st.heap[s.heap[pto].base])
    decreases |NotReadying(s)|, 1
  {
    var base := s.heap[pto].base;
    if base != Null && !IsReady(s.heap[base]) {
      ReadyOutcome(s, base, NoObj, r);
      ReadyEarly(s, base, NoObj);
    }
  }

  /** A READY type is left READY with its dict nulled and READYING cleared,
      and 0 is returned; a type already READYING fails the assertion with
      the same change. */
  lemma ReadyEarly(s: State, pto: Addr, wObj: Obj)
    requires Wf(s) && TypeAt(s, pto)
    ensures IsReady(s.heap[pto]) ==> Ready(s, pto, wObj) == Reply(Returned(s, pto), Ok(0))
    ensures !IsReady(s.heap[pto]) && IsReadying(s.heap[pto]) ==>
      Ready(s, pto, wObj) == Reply(Returned(s, pto), Err(AssertionFailed))
  {
  }

  /** Past the entry, a successful readying leaves the base READY, fills a
      `NULL` type pointer from the base and a `NULL` bases tuple with a fresh
      tuple of the base, and registers a type that came without a managed
      counterpart. */
  lemma ReadyFreshHeader(s: State, pto: Addr, wObj: Obj, r: Reply<Outcome<int>>)
    requires Entered(s, pto) && r == ReadyFresh(s, pto, wObj) && r.value.Ok?
    ensures s.heap[pto].base != Null ==>
      s.heap[pto].base != pto && TypeAt(r.st, s.heap[pto].base) && IsReady(r.st.heap[s.heap[pto].base])
    ensures s.heap[pto].obType == Null && s.heap[pto].base != Null ==>
      r.st.heap[pto].obType == r.st.heap[s.heap[pto].base].obType
    ensures s.heap[pto].bases == Null ==> r.st.heap[pto].bases !in s.heap
    ensures s.heap[pto].bases == Null ==> TupleAt(r.st, r.st.heap[pto].bases)
    ensures s.heap[pto].bases == Null ==>
      BasesItems(r.st, pto) == if s.heap[pto].base == Null then [] else [s.heap[pto].base]
    ensures wObj == NoObj ==> pto in r.st.r2w
  {
    var rb := ReadyBaseFirst(s, pto);
    ReadyBaseFirstOutcome(s, pto, rb);
  }

  /** Readying a type neither READY nor READYING defaults its base to
      `object`; on success that base is READY, a `NULL` type pointer is
      copied from it, a `NULL` bases tuple becomes a fresh tuple holding it
      (empty without one), and a type readied without a managed counterpart
      is registered. */
  lemma ReadyHeader(s: State, pto: Addr, wObj: Obj, r: Reply<Outcome<int>>)
    requires Wf(s) && TypeAt(s, pto) && !IsReady(s.heap[pto]) && !IsReadying(s.heap[pto])
    requires r == Ready(s, pto, wObj)
    ensures TypeAt(r.st, pto)
    ensures r.st.heap[pto].base == if s.heap[pto].base != Null then s.heap[pto].base else RefOf(s, ObjectType)
    ensures r.value.Ok? && r.st.heap[pto].base != Null ==>
      r.st.heap[pto].base != pto && TypeAt(r.st, r.st.heap[pto].base) && IsReady(r.st.heap[r.st.heap[pto].base])
    ensures r.value.Ok? && s.heap[pto].obType == Null && r.st.heap[pto].base != Null ==>
      r.st.heap[pto].obType == r.st.heap[r.st.heap[pto].base].obType
    ensures r.value.Ok? && s.heap[pto].bases == Null ==> r.st.heap[pto].bases !in s.heap
    ensures r.value.Ok? && s.heap[pto].bases == Null ==> TupleAt(r.st, r.st.heap[pto].bases)
    ensures r.value.Ok? && s.heap[pto].bases == Null ==>
      BasesItems(r.st, pto) == if r.st.heap[pto].base == Null then [] else [r.st.heap[pto].base]
    ensures r.value.Ok? && wObj == NoObj ==> pto in r.st.r2w
  {
    EntryFacts(s, pto);
    ReadyFreshOutcome(Entry(s, pto), pto, wObj, r);
    if r.value.Ok? {
      ReadyFreshHeader(Entry(s, pto), pto, wObj, r);
    }
  }

  /** The end of PyPyType_Ready once the base is ready: the header, the
      registration and the inheritance, then READY set and READYING cleared. */
  function Finish(s: State, pto: Addr, wObj: Obj): (r: State)
    requires Wf(s) && TypeAt(s, pto)
    ensures Step(s, r, pto)
    ensures IsReady(r.heap[pto]) && !IsReadying(r.heap[pto])
    ensures r.heap[pto].dict == s.heap[pto].dict && r.heap[pto].base == s.heap[pto].base
    ensures var h := s.heap[pto];
      h.obType == Null && h.base != Null ==> r.heap[pto].obType == s.heap[h.base].obType
    ensures s.heap[pto].bases == Null ==>
      var t := r.heap[pto].bases;
      var base := s.heap[pto].base;
      t !in s.heap && t in r.heap && r.heap[t] == TupleH(1, RefOf(s, TupleType), if base == Null then [] else [base])
    ensures wObj == NoObj ==> pto in r.r2w
    ensures InheritedSlots(s, pto, BasesItems(r, pto), r.heap[pto])
  {
    var s3 := Complete(s, pto, wObj);
    var r := MarkReady(s3, pto);
    PutStep(s3, pto, r.heap[pto]);
    StepTrans(s, s3, r, pto);
    CompleteInherits(s, pto, wObj);
    MarkReadyKeepsSlots(s, s3, pto, r);
    r
  }

  /** Marking the type READY keeps the slots and bases it had. */
  lemma MarkReadyKeepsSlots(s: State, s3: State, pto: Addr, r: State)
    requires Wf(s) && TypeAt(s, pto) && TypeAt(s3, pto)
    requires InheritedSlots(s, pto, BasesItems(s3, pto), s3.heap[pto])
    requires r == MarkReady(s3, pto)
    ensures InheritedSlots(s, pto, BasesItems(r, pto), r.heap[pto])
  {
    assert r.heap[pto].slots == s3.heap[pto].slots;
    assert forall n :: SlotOf(r.heap[pto], n) == SlotOf(s3.heap[pto], n);
    assert BasesItems(r, pto) == BasesItems(s3, pto);
  }

  /** Slots inherited in `s` are still the inherited ones once a later step
      has run, reading the type struct as it was in `s` and the bases as they
      are after the step. */
  lemma InheritedSlotsLater(s: State, r: State, pto: Addr, items: seq<Addr>, h: Handle)
    requires Wf(s) && TypeAt(s, pto) && Step(s, r, pto)
    requires InheritedSlots(s, pto, items, h)
    ensures var sx := Put(r, pto, s.heap[pto]);
      && TypeAt(sx, pto) && BaseOk(sx, sx.heap[pto].base) && ObjectType in sx.w2r
      && InheritedSlots(sx, pto, items, h)
  {
    var sx := Put(r, pto, s.heap[pto]);
    assert forall a :: a in s.heap ==> sx.heap[a] == s.heap[a];
    CompleteSlots(s, sx, pto, items, TpDealloc);
    CompleteSlots(s, sx, pto, items, TpFree);
    assert NewInherited(sx, pto) == NewInherited(s, pto);
  }

  /** A successful PyPyType_Ready of a type neither READY nor READYING leaves
      it the slots both inheritance passes give: its own slots as they were
      on entry, with tp_new from inherit_special and tp_dealloc and tp_free
      from the first item of its bases tuple that has them, read from the
      bases as readying left them. */
  lemma ReadySlots(s: State, pto: Addr, wObj: Obj, r: Reply<Outcome<int>>)
    requires Wf(s) && TypeAt(s, pto) && !IsReady(s.heap[pto]) && !IsReadying(s.heap[pto])
    requires r == Ready(s, pto, wObj) && r.value.Ok?
    ensures TypeAt(r.st, pto)
    ensures var sx := Put(r.st, pto, Entry(s, pto).heap[pto]);
      && TypeAt(sx, pto) && BaseOk(sx, sx.heap[pto].base) && ObjectType in sx.w2r
      && InheritedSlots(sx, pto, BasesItems(r.st, pto), r.st.heap[pto])
  {
    EntryFacts(s, pto);
    var s1 := Entry(s, pto);
    var rb := ReadyBaseFirst(s1, pto);
    ReadyBaseFirstOutcome(s1, pto, rb);
    assert rb.value.Ok?;
    var f := Finish(rb.st, pto, wObj);
    assert r.st == f;
    InheritedSlotsLater(rb.st, f, pto, BasesItems(f, pto), f.heap[pto]);
  }

  /** Replacing one type struct by another of the same shape whose base and
      bases are in order keeps the invariant. */
  lemma WfAfterPut(s: State, pto: Addr, h: Handle)
    requires Wf(s) && TypeAt(s, pto) && SameShape(s.heap[pto], h)
    requires BaseOk(s, h.base)
    ensures Wf(Put(s, pto, h)) && Grows(s, Put(s, pto, h))
  {
  }

  /** The inheritance at the end of Complete sees the slots Complete started with. */
  lemma CompleteSlots(s: State, s4: State, pto: Addr, items: seq<Addr>, name: string)
    requires TypeAt(s, pto) && TypeAt(s4, pto)
    requires name == TpDealloc || name == TpFree
    requires s.heap.Keys <= s4.heap.Keys
    requires forall a :: a in s.heap && a != pto ==> s4.heap[a] == s.heap[a]
    requires forall a :: a in s4.heap && a !in s.heap ==> !s4.heap[a].TypeH?
    requires SlotOf(s4.heap[pto], name) == SlotOf(s.heap[pto], name)
    ensures Inherited(s4, pto, items, name) == Inherited(s, pto, items, name)
  {
    if SlotOf(s.heap[pto], name) == NoSlot {
      assert forall i :: 0 <= i < |items| ==> SlotAtAddr(s, items[i], name) == SlotAtAddr(s4, items[i], name);
      FirstFromFrame(s, s4, items, name);
    }
  }
}

=== FILE: type_slots.dfy ===
/**
 The slot passes over a native type struct: the catalog-driven installation
 of slot functions for the special methods a type defines, the reverse pass
 that exposes a native type's slots as method descriptors, the two kinds of
 slot inheritance from a base, and the managed name of a native type.
 */
module TypeSlots {
  import opened Runtime
  import opened Bridge

  // ---- Slot paths and the catalog ----

  /** Where a catalog entry's slot lives: a field of the type struct itself, or
      a field of one of its sub-tables (`tp_as_number`, `tp_as_buffer`, ...). */
  datatype SlotPath = Direct(field: string) | Nested(table: string, field: string)

  /** One entry of the slot catalog: the special method, where its slot lives,
      the native slot function that implements the method (`NoSlot` when there
      is none) and whether a wrapper exists that exposes the slot as the method. */
  datatype SlotDef = SlotDef(special: string, path: SlotPath, slotFunc: Slot, hasWrapper: bool)

  /** The slot at a path; a `NULL` sub-table or a missing field reads `NULL`. */
  function SlotAt(h: Handle, p: SlotPath): Slot
    requires h.TypeH?
  {
    match p
    case Direct(f) => SlotOf(h, f)
    case Nested(t, f) => if t in h.subs && f in h.subs[t] then h.subs[t][f] else NoSlot
  }

  /** A path can be written: its sub-table, if any, is allocated. */
  predicate TableExists(h: Handle, p: SlotPath)
    requires h.TypeH?
  {
    p.Direct? || p.table in h.subs
  }

  function SetSlotAt(h: Handle, p: SlotPath, f: Slot): (r: Handle)
    requires h.TypeH? && TableExists(h, p)
    ensures r.TypeH? && SlotAt(r, p) == f
    ensures forall q :: q != p ==> SlotAt(r, q) == SlotAt(h, q)
    ensures r.subs.Keys == h.subs.Keys
    ensures r.(slots := h.slots, subs := h.subs) == h
  {
    match p
    case Direct(n) => SetSlot(h, n, f)
    case Nested(t, n) => h.(subs := h.subs[t := h.subs[t][n := f]])
  }

  // ---- update_all_slots ----

  /** Only the `__new__` entries of the catalog fill `tp_new`. */
  predicate NewOnlyFromNew(catalog: seq<SlotDef>) {
    forall i :: 0 <= i < |catalog| && catalog[i].path == Direct("tp_new") ==> catalog[i].special == "__new__"
  }

  /** Whether update_all_slots installs entry `d` into the type struct `h` whose
      managed type is `w`: the type has the method, the catalog has a slot
      function for it, `__new__` is installed only over a non-`NULL` `tp_new`,
      and a slot in a `NULL` sub-table is skipped. */
  predicate Installs(sp: Space, w: Obj, h: Handle, d: SlotDef)
    requires h.TypeH?
  {
    && sp.lookup(w, d.special) != NoObj
    && d.slotFunc != NoSlot
    && !(d.special == "__new__" && SlotOf(h, "tp_new") == NoSlot)
    && TableExists(h, d.path)
  }

  /** The slot function the last installing entry among the first `n` puts at
      `p`; `NoSlot` when none of them does. */
  function LastInstalled(sp: Space, w: Obj, h: Handle, catalog: seq<SlotDef>, n: nat, p: SlotPath): Slot
    requires h.TypeH? && n <= |catalog|
  {
    if n == 0 then NoSlot
    else if catalog[n - 1].path == p && Installs(sp, w, h, catalog[n - 1]) then catalog[n - 1].slotFunc
    else LastInstalled(sp, w, h, catalog, n - 1, p)
  }

  /** Entry `i` of the catalog installs a function at path `p`. */
  predicate InstallsAt(sp: Space, w: Obj, h: Handle, catalog: seq<SlotDef>, i: int, p: SlotPath)
    requires h.TypeH?
  {
    0 <= i < |catalog| && catalog[i].path == p && Installs(sp, w, h, catalog[i])
  }

  /** An installed slot function comes from an entry that installs at that
      path, and nothing later in the catalog installs there. */
  lemma {:induction false} LastInstalledMeaning(sp: Space, w: Obj, h: Handle, catalog: seq<SlotDef>, n: nat, p: SlotPath)
    requires h.TypeH? && n <= |catalog|
    ensures LastInstalled(sp, w, h, catalog, n, p) != NoSlot <==>
      exists i :: 0 <= i < n && InstallsAt(sp, w, h, catalog, i, p)
    ensures forall i ::
      (0 <= i < n && InstallsAt(sp, w, h, catalog, i, p) &&
       forall j :: i < j < n ==> !InstallsAt(sp, w, h, catalog, j, p)) ==>
      LastInstalled(sp, w, h, catalog, n, p) == catalog[i].slotFunc
  {
    if n > 0 {
      LastInstalledMeaning(sp, w, h, catalog, n - 1, p);
      if InstallsAt(sp, w, h, catalog, n - 1, p) {
        assert LastInstalled(sp, w, h, catalog, n, p) == catalog[n - 1].slotFunc != NoSlot;
      } else {
        assert LastInstalled(sp, w, h, catalog, n, p) == LastInstalled(sp, w, h, catalog, n - 1, p);
      }
    }
  }

  /** update_all_slots: every slot ends up holding the function of the last
      catalog entry that installs there, and a slot no entry installs at keeps
      its value. Nothing but the slots changes, and no sub-table is allocated. */
  method UpdateAllSlots(sp: Space, w: Obj, h: Handle, catalog: seq<SlotDef>) returns (r: Handle)
    requires h.TypeH?
    requires NewOnlyFromNew(catalog)
    ensures r.TypeH? && r.(slots := h.slots, subs := h.subs) == h && r.subs.Keys == h.subs.Keys
    ensures forall p ::
      SlotAt(r, p) == if LastInstalled(sp, w, h, catalog, |catalog|, p) != NoSlot
        then LastInstalled(sp, w, h, catalog, |catalog|, p) else SlotAt(h, p)
  {
    r := h;
    var i := 0;
    while i < |catalog|
      invariant 0 <= i <= |catalog|
      invariant r.TypeH? && r.(slots := h.slots, subs := h.subs) == h && r.subs.Keys == h.subs.Keys
      invariant SlotOf(r, "tp_new") == NoSlot <==> SlotOf(h, "tp_new") == NoSlot
      invariant forall p ::
        SlotAt(r, p) == if LastInstalled(sp, w, h, catalog, i, p) != NoSlot
          then LastInstalled(sp, w, h, catalog, i, p) else SlotAt(h, p)
    {
      var d := catalog[i];
      if sp.lookup(w, d.special) != NoObj && d.slotFunc != NoSlot && !(d.special == "__new__" && SlotOf(r, "tp_new") == NoSlot) {
        if d.path.Direct? || d.path.table in r.subs {
          r := SetSlotAt(r, d.path, d.slotFunc);
        }
      }
      i := i + 1;
    }
  }

  // ---- add_operators ----

  /** A managed attribute of a native type: a wrapper exposing a native slot as
      its special method, the `__new__` built on `tp_new`, or any other object. */
  datatype Descr = Wrapper(special: string, fn: Slot) | NewWrapper(tp: Addr) | Member(w: Obj)

  /** Whether add_operators can expose entry `d` of the type struct `h`: its
      sub-table exists, its slot is not `NULL`, and a wrapper exists. */
  predicate Exposes(h: Handle, d: SlotDef)
    requires h.TypeH?
  {
    TableExists(h, d.path) && SlotAt(h, d.path) != NoSlot && d.hasWrapper
  }

  /** The slot the first entry of `catalog` for `special` that can be exposed
      makes into a wrapper. */
  function FirstExposed(h: Handle, catalog: seq<SlotDef>, special: string): Option<Slot>
    requires h.TypeH?
  {
    if |catalog| == 0 then None
    else
      var prior := FirstExposed(h, catalog[..|catalog| - 1], special);
      var d := catalog[|catalog| - 1];
      if prior.Some? then prior
      else if d.special == special && Exposes(h, d) then Some(SlotAt(h, d.path))
      else None
  }

  /** The first exposable entry for a method is the one exposed: it exists
      exactly when some entry for the method can be exposed, and every earlier
      entry for the method cannot. */
  lemma {:induction false} FirstExposedMeaning(h: Handle, catalog: seq<SlotDef>, special: string)
    requires h.TypeH?
    ensures FirstExposed(h, catalog, special).Some? <==>
      exists i :: 0 <= i < |catalog| && catalog[i].special == special && Exposes(h, catalog[i])
    ensures forall i ::
      (0 <= i < |catalog| && catalog[i].special == special && Exposes(h, catalog[i]) &&
       forall j :: 0 <= j < i ==> !(catalog[j].special == special && Exposes(h, catalog[j]))) ==>
      FirstExposed(h, catalog, special) == Some(SlotAt(h, catalog[i].path))
  {
    if |catalog| > 0 {
      var front := catalog[..|catalog| - 1];
      FirstExposedMeaning(h, front, special);
      assert forall i :: 0 <= i < |front| ==> front[i] == catalog[i];
    }
  }

  /** add_operators: a wrapper for the first exposable catalog entry of every
      method the dictionary does not define yet, then a `__new__` built on
      `tp_new` when the type has one and `__new__` is still undefined. An
      entry already in the dictionary is never overwritten. */
  method AddOperators(dict: map<string, Descr>, pto: Addr, h: Handle, catalog: seq<SlotDef>) returns (r: map<string, Descr>)
    requires h.TypeH?
    ensures forall k :: k in dict ==> k in r && r[k] == dict[k]
    ensures forall k :: k !in dict && k != "__new__" ==>
      (k in r <==> FirstExposed(h, catalog, k).Some?) &&
      (k in r ==> r[k] == Wrapper(k, FirstExposed(h, catalog, k).value))
    ensures "__new__" !in dict ==>
      if FirstExposed(h, catalog, "__new__").Some? then
        "__new__" in r && r["__new__"] == Wrapper("__new__", FirstExposed(h, catalog, "__new__").value)
      else if SlotOf(h, "tp_new") != NoSlot then
        "__new__" in r && r["__new__"] == NewWrapper(pto)
      else "__new__" !in r
  {
    r := dict;
    var i := 0;
    while i < |catalog|
      invariant 0 <= i <= |catalog|
      invariant forall k :: k in dict ==> k in r && r[k] == dict[k]
      invariant forall k :: k !in dict ==>
        (k in r <==> FirstExposed(h, catalog[..i], k).Some?) &&
        (k in r ==> r[k] == Wrapper(k, FirstExposed(h, catalog[..i], k).value))
    {
      var d := catalog[i];
      assert catalog[..i + 1][..i] == catalog[..i];
      if d.special !in r && TableExists(h, d.path) {
        var fn := SlotAt(h, d.path);
        if fn != NoSlot && d.hasWrapper {
          r := r[d.special := Wrapper(d.special, fn)];
        }
      }
      i := i + 1;
    }
    assert catalog[..|catalog|] == catalog;
    if SlotOf(h, "tp_new") != NoSlot && "__new__" !in r {
      r := r["__new__" := NewWrapper(pto)];
    }
  }

  // ---- Inheritance from a base ----

  const TpNew: string := "tp_new"
  const TpDealloc: string := "tp_dealloc"
  const TpFree: string := "tp_free"

  /** The type struct at an address. */
  predicate TypeAt(s: State, a: Addr) {
    a in s.heap && s.heap[a].TypeH?
  }

  /** inherit_special: a type without `tp_new` takes its base's, unless the
      base is `object` and the type is not a heap type. */
  function InheritSpecial(s: State, pto: Addr, base: Addr): (r: State)
    requires TypeAt(s, pto) && TypeAt(s, base)
    requires ObjectType in s.w2r
    ensures r.heap.Keys == s.heap.Keys && r.(heap := s.heap) == s
    ensures TypeAt(r, pto)
    ensures forall a :: a in s.heap && a != pto ==> r.heap[a] == s.heap[a]
    ensures r.heap[pto].(slots := s.heap[pto].slots) == s.heap[pto]
    ensures forall n :: n != TpNew ==> SlotOf(r.heap[pto], n) == SlotOf(s.heap[pto], n)
    ensures SlotOf(r.heap[pto], TpNew) ==
      if SlotOf(s.heap[pto], TpNew) != NoSlot then SlotOf(s.heap[pto], TpNew)
      else if base != s.w2r[ObjectType] || s.heap[pto].flags & HEAPTYPE != 0 then SlotOf(s.heap[base], TpNew)
      else NoSlot
  {
    var flags := s.heap[pto].flags;
    // make_ref(object, steal=True) of the bridged `object`: its handle, no new reference
    var baseObject := RefOf(s, ObjectType);
    if base != baseObject || flags & HEAPTYPE != 0 then
      if SlotOf(s.heap[pto], TpNew) == NoSlot then
        s.(heap := s.heap[pto := SetSlot(s.heap[pto], TpNew, SlotOf(s.heap[base], TpNew))])
      else s
    else s
  }

  /** One slot copied from a base when the type's own is `NULL`. */
  function Fill(h: Handle, base: Handle, name: string): (r: Handle)
    requires h.TypeH? && base.TypeH?
    ensures r.TypeH? && r.(slots := h.slots) == h
    ensures SlotOf(r, name) == if SlotOf(h, name) != NoSlot then SlotOf(h, name) else SlotOf(base, name)
    ensures forall n :: n != name ==> SlotOf(r, n) == SlotOf(h, n)
  {
    if SlotOf(h, name) == NoSlot && SlotOf(base, name) != NoSlot then SetSlot(h, name, SlotOf(base, name)) else h
  }

  /** The slots inherit_slots copies: `tp_dealloc` and `tp_free`. */
  function FillFrom(h: Handle, base: Handle): (r: Handle)
    requires h.TypeH? && base.TypeH?
    ensures r.TypeH? && r.(slots := h.slots) == h
    ensures SlotOf(r, TpDealloc) == if SlotOf(h, TpDealloc) != NoSlot then SlotOf(h, TpDealloc) else SlotOf(base, TpDealloc)
    ensures SlotOf(r, TpFree) == if SlotOf(h, TpFree) != NoSlot then SlotOf(h, TpFree) else SlotOf(base, TpFree)
    ensures forall n :: n != TpDealloc && n != TpFree ==> SlotOf(r, n) == SlotOf(h, n)
  {
    Fill(Fill(h, base, TpDealloc), base, TpFree)
  }

  /** inherit_slots: with a reference to the base held for the duration, the
      type's `NULL` `tp_dealloc` and `tp_free` are taken from the base. The
      reference is given back, so no count changes. */
  function InheritSlots(s: State, pto: Addr, base: Addr): (r: State)
    requires TypeAt(s, pto) && TypeAt(s, base)
    ensures r == s.(heap := s.heap[pto := FillFrom(s.heap[pto], s.heap[base])])
  {
    var s1 := IncRef(s, base);
    var s2 := s1.(heap := s1.heap[pto := FillFrom(s1.heap[pto], s1.heap[base])]);
    assert CanDecRef(s2, base);
    var s3 := DecRef(s2, base);
    assert base == pto ==> FillFrom(s.heap[pto], s.heap[base]) == s.heap[pto];
    assert s3.heap == s.heap[pto := FillFrom(s.heap[pto], s.heap[base])];
    s3
  }

  /** Slot `name` of the type struct at `a`; `NULL` when `a` holds none. */
  function SlotAtAddr(s: State, a: Addr, name: string): Slot {
    if TypeAt(s, a) then SlotOf(s.heap[a], name) else NoSlot
  }

  /** The first non-`NULL` slot `name` among the bases `items`. */
  function FirstFrom(s: State, items: seq<Addr>, name: string): Slot {
    if |items| == 0 then NoSlot
    else if SlotAtAddr(s, items[0], name) != NoSlot then SlotAtAddr(s, items[0], name)
    else FirstFrom(s, items[1..], name)
  }

  /** FirstFrom depends on nothing but the slot of each base. */
  lemma {:induction false} FirstFromFrame(s: State, s': State, items: seq<Addr>, name: string)
    requires forall i :: 0 <= i < |items| ==> SlotAtAddr(s, items[i], name) == SlotAtAddr(s', items[i], name)
    ensures FirstFrom(s, items, name) == FirstFrom(s', items, name)
  {
    if |items| > 0 {
      FirstFromFrame(s, s', items[1..], name);
    }
  }

  /** The slot a type ends up with after inheriting from `items` in order: its
      own when it has one, otherwise the first base's that has one. */
  function Inherited(s: State, pto: Addr, items: seq<Addr>, name: string): Slot
    requires TypeAt(s, pto)
  {
    if SlotOf(s.heap[pto], name) != NoSlot then SlotOf(s.heap[pto], name) else FirstFrom(s, items, name)
  }

  /** The loop of PyPyType_Ready over the bases tuple: inherit_slots from every
      base in order. The first base that defines a slot wins, a slot the type
      defines is never overwritten, and only the type's two slots change. An
      item that is not a type struct contributes nothing. */
  function InheritAll(s: State, pto: Addr, items: seq<Addr>): (r: State)
    requires TypeAt(s, pto)
    ensures r.(heap := s.heap) == s && r.heap.Keys == s.heap.Keys && TypeAt(r, pto)
    ensures forall a :: a in s.heap && a != pto ==> r.heap[a] == s.heap[a]
    ensures r.heap[pto].(slots := s.heap[pto].slots) == s.heap[pto]
    ensures SlotOf(r.heap[pto], TpDealloc) == Inherited(s, pto, items, TpDealloc)
    ensures SlotOf(r.heap[pto], TpFree) == Inherited(s, pto, items, TpFree)
    ensures forall n :: n != TpDealloc && n != TpFree ==> SlotOf(r.heap[pto], n) == SlotOf(s.heap[pto], n)
    decreases |items|
  {
    if |items| == 0 then s
    else
      var s1 := if TypeAt(s, items[0]) then InheritSlots(s, pto, items[0]) else s;
      var r := InheritAll(s1, pto, items[1..]);
      InheritAllStep(s, s1, pto, items, TpDealloc);
      InheritAllStep(s, s1, pto, items, TpFree);
      r
  }

  /** After one base, the rest of the inheritance sees the same slots. */
  lemma InheritAllStep(s: State, s1: State, pto: Addr, items: seq<Addr>, name: string)
    requires TypeAt(s, pto) && |items| > 0
    requires name == TpDealloc || name == TpFree
    requires s1 == if TypeAt(s, items[0]) then InheritSlots(s, pto, items[0]) else s
    ensures TypeAt(s1, pto)
    ensures Inherited(s1, pto, items[1..], name) == Inherited(s, pto, items, name)
  {
    var rest := items[1..];
    assert forall i :: 0 <= i < |rest| ==> rest[i] == items[i + 1];
    if SlotOf(s1.heap[pto], name) == NoSlot {
      FirstFromFrame(s, s1, rest, name);
    }
  }

  // ---- The managed side of a native type ----

  /** The position of the last `.` in a name. */
  function LastDot(full: string): (r: Option<nat>)
    ensures r.None? <==> '.' !in full
    ensures r.Some? ==> r.value < |full| && full[r.value] == '.' && '.' !in full[r.value + 1..]
  {
    if |full| == 0 then None
    else if full[|full| - 1] == '.' then Some(|full| - 1)
    else
      var prefix := full[..|full| - 1];
      assert full == prefix + [full[|full| - 1]];
      match LastDot(prefix)
      case None => None
      case Some(i) =>
        assert full[i + 1..] == prefix[i + 1..] + [full[|full| - 1]];
        Some(i)
  }

  /** The name split of W_PyCTypeObject: a dotted `tp_name` gives a module name
      (everything before the last dot) and the type's own name (everything
      after it); an undotted `tp_name` is the type's name as it is. */
  function SplitTypeName(full: string): (r: (Option<string>, string))
    ensures r.0.None? <==> '.' !in full
    ensures r.0.None? ==> r.1 == full
    ensures r.0.Some? ==> r.0.value + "." + r.1 == full
    ensures '.' !in r.1
  {
    match LastDot(full)
    case None => (None, full)
    case Some(i) =>
      assert full == full[..i] + "." + full[i + 1..];
      (Some(full[..i]), full[i + 1..])
  }

  /** Joining a module name and an undotted type name with a dot and splitting
      the result gives both back, whatever dots the module name contains. */
  lemma {:induction false} SplitJoinTypeName(modName: string, name: string)
    requires '.' !in name
    ensures SplitTypeName(modName + "." + name) == (Some(modName), name)
  {
    var full := modName + "." + name;
    var i := |modName|;
    assert full[i] == '.' && full[i + 1..] == name;
    var j := LastDot(full).value;
    assert forall k :: j < k < |full| ==> full[k] == full[j + 1..][k - j - 1];
    assert forall k :: i < k < |full| ==> full[k] == name[k - i - 1];
    assert full[..i] == modName;
  }

  /** The managed type object W_PyCTypeObject builds over a native type. */
  datatype CTypeObj = CTypeObj(name: string, bases: seq<Obj>, dict: map<string, Descr>)

  /** W_PyCTypeObject.__init__: the dictionary holds the wrapped slots, then
      the method, getset and member definitions (`defs`, which take precedence),
      then `__module__` for a dotted name; a type without bases gets `object`. */
  method NewCType(s: State, pto: Addr, catalog: seq<SlotDef>, defs: map<string, Descr>) returns (t: CTypeObj)
    requires TypeAt(s, pto)
    requires s.heap[pto].bases in s.heap && s.heap[s.heap[pto].bases].TupleH?
    ensures var items := s.heap[s.heap[pto].bases].items;
      if |items| == 0 then t.bases == [ObjectType]
      else |t.bases| == |items| && forall i :: 0 <= i < |items| ==> t.bases[i] == FromRef(s, items[i])
    ensures t.name == SplitTypeName(s.heap[pto].name).1
    ensures "__module__" in t.dict <==> ('.' in s.heap[pto].name || "__module__" in defs ||
      FirstExposed(s.heap[pto], catalog, "__module__").Some?)
    ensures '.' in s.heap[pto].name ==>
      t.dict["__module__"] == Member(Str(SplitTypeName(s.heap[pto].name).0.value))
    ensures forall k :: k in defs && k != "__module__" ==> k in t.dict && t.dict[k] == defs[k]
    ensures forall k :: k !in defs && k != "__new__" && k != "__module__" ==>
      (k in t.dict <==> FirstExposed(s.heap[pto], catalog, k).Some?)
    ensures forall k :: k !in defs && k != "__new__" && k != "__module__" && k in t.dict ==>
      t.dict[k] == Wrapper(k, FirstExposed(s.heap[pto], catalog, k).value)
    ensures "__new__" !in defs ==>
      if FirstExposed(s.heap[pto], catalog, "__new__").Some? then
        "__new__" in t.dict && t.dict["__new__"] == Wrapper("__new__", FirstExposed(s.heap[pto], catalog, "__new__").value)
      else if SlotOf(s.heap[pto], "tp_new") != NoSlot then
        "__new__" in t.dict && t.dict["__new__"] == NewWrapper(pto)
      else "__new__" !in t.dict
  {
    var h := s.heap[pto];
    var items := s.heap[h.bases].items;
    var bases := seq(|items|, i requires 0 <= i < |items| => FromRef(s, items[i]));
    var dict := AddOperators(map[], pto, h, catalog);
    dict := dict + defs;
    var (modName, name) := SplitTypeName(h.name);
    if modName.Some? {
      dict := dict["__module__" := Member(Str(modName.value))];
    }
    t := CTypeObj(name, if |bases| == 0 then [ObjectType] else bases, dict);
  }
}
